=== FILE: README.md ===
# ERP system core, modelled in Dafny

The ERP system is a set of ASP.NET services:

- an identity service: registration with an emailed one-time passcode, email verification, login with lockout, refresh tokens, password reset, logout, and profile and user administration;
- three catalogue services (partners, products, target markets) that keep images and documents in a file store;
- an order service that stores an order and notifies logistics.

This project models the controllers of these services and the validators and helpers they rely on. Each controller action is a pure function. It takes the request, the repository's reads, the services' answers, the current instant and the random values drawn. It returns the HTTP status, the reply body and the writes it asks for (repository calls, mails, uploads, deletions, cookies), in program order.

Modelling conventions:

- **Repository and external services.** Stored procedures, the file store, hashing and token issuing are opaque function parameters. The model fixes what is passed to them and in what order, not what they do.
- **Refresh tokens and the audit trail.** `AuthStore.Ledger` replays the identity service's writes to the refresh tokens and the audit trail.
- **Validation before the action.** With `[ApiController]`, the framework validates the body before the action runs and answers a failure with 400 and a validation problem. It checks the body's data annotations. In the identity service it also runs every FluentValidation validator of the Auth.Core assembly, because automatic validation is switched on for them: registration, login and forgot-password. `[Required]` on a string refuses null, empty and blank text. `Validation.FieldErrors` is one property's entry in the problem. Where only data annotations fail, the reply is `Invalid`, whose default messages are not modelled.
- **Exceptions.** An exception the action catches gives its 500 reply. One it does not catch gives a bare 500 (`Partners.Unhandled`, and the `int.Parse` failures in the user controller). A bare 500 still carries the writes made before the throw, as in a partner DELETE that reaches a null segment.
- **Texts.** Reply messages, audit action names and mail subjects and bodies are datatype constructors. `AuthController.Says`, `AuthStore.ActionName`, `AuthStore.Subject` and `AuthStore.Html` give the exact strings the source writes.
- **Strings and lengths.** Strings are sequences of Unicode scalar values. Where .NET counts UTF-16 code units (`string.Length` and the validators' length rules), the model counts them with `Text.Utf16Length`, so a character outside the Basic Multilingual Plane counts twice. The regular-expression class `\d` is `Text.IsRegexDigit`, the decimal digits of every script that fit in one code unit. The slug is cut to 45 characters only after it has been filtered down to ASCII letters, digits, '-' and white space, which are all single code units, so there characters and code units agree.
- **Time** is whole seconds; money in orders is whole cents.

Behaviour of the source that the model makes explicit:

- **Partner slugs.** A partner whose name is only digits gets a slug that parses as an `int`. `GET partners/{idOrSlug}` then looks that slug up as an id, so the partner cannot be found by its own slug (`Partners.NumericNameRoutesById`).
- **Partner brochure.** A PUT whose company-profile JSON has no `brochure_url` drops the brochure's URL and never deletes the file (`Partners.PutProfileOrphansBrochure`).
- **Null segments.** The JSON `[null]` decodes to a segment list with a null element, and the store keeps it. POST then throws after uploading that segment's file, and answers 500 with the uploads already made (`Partners.NullSegmentFailsCreate`). DELETE throws after the deletions before it, and keeps the record (`Partners.DeleteRecordIffNoNullSegment`).
- **Partner PUT vs PATCH.** A JSON `null` empties the profile or segments on PUT but keeps them on PATCH.
- **Product related images.** POST saves related-image files of length 0. PUT skips them.
- **Product name on PUT.** The "only if non-empty" test on the name can never fail, because validation has already refused blank names.
- **Product documents.** "Replacing" the documents only ever appends to them.
- **Target-market descriptions.** A PUT without a description clears it. A PATCH cannot clear one.
- **Login token lifetimes.** The refresh token's lifetime comes from configuration, while the refresh cookie always lasts seven days. A configuration value `int.Parse` cannot read makes a correct login fail with 500 after the failed-attempt counter has already been reset.
- **Checks behind validation.** Several actions test again what the framework has already refused, so those tests never fail: registration and login rerun their validators, forgot-password tests for a blank address, and reset-password tests for blank fields (`AuthController.ForgotPassword`, `AuthController.ResetPassword`).
- **Login order.** The password is checked before the verification flag. A wrong password on an unverified account gets the plain 401, and no new passcode is mailed (`AuthController.PasswordCheckedBeforeVerification`).
- **Empty orders.** An empty order passes the annotations and is refused only by the controller's own check.
- **Logistics failure.** If the logistics call fails, the reply is 500 although the order has already been stored.

## Model

| member | source | states |
|---|---|---|
| Users.LockoutWindow | src/Auth.Core/Entities/User.cs:19-21 | with a recorded end, an account is locked exactly at the instants strictly before that end |
| Users.NoLockoutEndNeverLocked | src/Auth.Core/Entities/User.cs:21 | an account with no recorded lockout end is never locked |
| Users.LockoutElapsesForGood | src/Auth.Core/Entities/User.cs:21 | once a lockout has elapsed it stays elapsed at every later instant |
| Users.NewUser | src/Auth.Core/Entities/User.cs:5-37 | a new account has role "User", is active, has language "en", is unverified with status Pending, has no failed attempts or lockout, and has no phone, country, image, push token or passcodes |
| Users.NewUserNeverLocked | src/Auth.Core/Entities/User.cs:18-21 | a freshly built account is not locked at any instant |
| Decimal.ToDecimal | src/Shared.Kernel/Services/OtpService.cs:18 | `uint.ToString()` is a digit string of the value with no leading zero |
| Decimal.TryParseInt32 | src/Auth.Api/Controllers/AuthController.cs:270 | whatever `int.Parse`/`TryParse` return is a 32-bit value; which texts parse is stated by `Decimal.ParseDigits`, `Decimal.ParseRejectsForeign` and `Decimal.TrailingNulsIgnored`, the last for the final run of '\0' that .NET skips as trailing zeros |
| Decimal.StripLeadingSpec | src/Auth.Api/Controllers/AuthController.cs:270 | the leading white space skipped is exactly the run of U+0009..U+000D and U+0020 before the first other character |
| Decimal.StripTrailingSpec | src/Auth.Api/Controllers/AuthController.cs:270 | the trailing white space skipped is exactly the run of those characters after the last other one |
| Decimal.StripTrailingNulSpec | src/Auth.Api/Controllers/AuthController.cs:270 | the trailing '\0' characters skipped are exactly the run of them at the very end |
| Decimal.TrailingNulsIgnored | src/PartnerApi.Api/Controllers/PartnersController.cs:38 | appending any run of '\0' to a text does not change what it parses to, so "12" followed by '\0' parses to 12 |
| Decimal.ParseFormatRoundTrip | src/Auth.Api/Controllers/UserController.cs:38 | parsing the text of any 32-bit integer gives that integer back |
| Decimal.ParseDigits | src/PartnerApi.Api/Controllers/PartnersController.cs:38 | a run of digits parses exactly when its value fits in 32 bits |
| Decimal.ParseRejectsForeign | src/PartnerApi.Api/Controllers/PartnersController.cs:38-41 | text holding a character that is not a digit, a sign or white space never parses, unless that character is a '\0' with only '\0' after it |
| Decimal.FixedWidthUnique | src/Shared.Kernel/Services/OtpService.cs:18-21 | two digit strings of the same width and value are equal |
| Text.ToLowerAsciiAt | src/PartnerApi.Api/Controllers/PartnersController.cs:183 | lower-casing maps each character on its own: 'A'..'Z' to 'a'..'z', every other character unchanged |
| Text.Utf16Units | src/Auth.Infrastructure/Services/PasswordValidator.cs:33 | a character takes one UTF-16 code unit iff it lies in the Basic Multilingual Plane, two otherwise |
| Text.Utf16LengthAppend | src/Auth.Infrastructure/Services/PasswordValidator.cs:33 | the code-unit length of a concatenation is the sum of the lengths |
| Text.Utf16LengthIsLengthForBmp | src/Auth.Infrastructure/Services/PasswordValidator.cs:33 | `Length` equals the number of characters iff every character lies in the Basic Multilingual Plane |
| Otp.EffectiveLength | src/Shared.Kernel/Services/OtpService.cs:8-10 | a non-positive length becomes 6; a positive one is kept |
| Otp.GenerateOtp | src/Shared.Kernel/Services/OtpService.cs:8-22 | the passcode has exactly the effective length, only digits, the value `random mod 10^length`, and is that number's numeral padded with leading zeros only |
| Otp.DefaultLengthIsSix | src/Shared.Kernel/Services/OtpService.cs:8-10 | a non-positive length gives the same six-digit passcode as length 6 |
| Otp.GeneratedOtpIsCanonical | src/Shared.Kernel/Services/OtpService.cs:17-21 | any digit string of the right width whose value is `random mod 10^length` is the generated passcode |
| Otp.ZerosPrefixValue | src/Shared.Kernel/Services/OtpService.cs:21 | leading zeros do not change a numeral's value |
| PasswordValidator.Collect | src/Auth.Infrastructure/Services/PasswordValidator.cs:25-61 | the reported errors are exactly those of the failed rules; none are reported when no rule fails |
| PasswordValidator.CollectOrdered | src/Auth.Infrastructure/Services/PasswordValidator.cs:33-61 | rules checked in rank order report their errors in rank order |
| PasswordValidator.RuleErrors | src/Auth.Infrastructure/Services/PasswordValidator.cs:33-61 | each rule's error is present iff the rule fails, in the order length, upper, lower, digit, special, common, at most six of them |
| PasswordValidator.ValidatePassword | src/Auth.Infrastructure/Services/PasswordValidator.cs:23-64 | blank input gives exactly "Password is required"; otherwise each failed rule contributes its error, in order, the length rule counting UTF-16 code units; valid iff no errors |
| PasswordValidator.AcceptedExactly | src/Auth.Infrastructure/Services/PasswordValidator.cs:23-64 | a password is accepted iff it is non-blank, has at least 8 UTF-16 code units, has each character class, and is not a common password |
| PasswordValidator.CommonPasswordsHaveNoSpecial | src/Auth.Infrastructure/Services/PasswordValidator.cs:12-21 | no entry of the common list contains a character of `@$!%*?&#` |
| PasswordValidator.LowerKeepsSpecial | src/Auth.Infrastructure/Services/PasswordValidator.cs:15 | two strings equal ignoring case agree on containing a special character |
| PasswordValidator.SpecialExcludesCommon | src/Auth.Infrastructure/Services/PasswordValidator.cs:12-61 | a password with a special character is never reported as too common |
| PasswordValidator.ErrorsOfNonBlank | src/Auth.Infrastructure/Services/PasswordValidator.cs:33-63 | a rejected non-blank password has one to six errors, the first of them not "required" |
| PasswordValidator.AcceptedAfterClassPrefix | src/Auth.Infrastructure/Services/PasswordValidator.cs:23-64 | "Ab1!" followed by anything that brings the length to 8 code units is accepted |
| PasswordValidator.LengthCountsCodeUnits | src/Auth.Infrastructure/Services/PasswordValidator.cs:33 | "Ab1!" and two characters outside the Basic Multilingual Plane is accepted, although it has only six characters |
| RegisterValidator.EmailErrors | src/Auth.Core/Validators/RegisterRequestValidator.cs:10-13 | required iff empty, invalid iff not an address, too long iff over 100 UTF-16 code units; no errors iff all three pass |
| RegisterValidator.PasswordErrors | src/Auth.Core/Validators/RegisterRequestValidator.cs:15-21 | required iff empty; otherwise one error per failed rule of length 8 code units, upper, lower, digit and special |
| RegisterValidator.NameErrors | src/Auth.Core/Validators/RegisterRequestValidator.cs:23-29 | a name is checked only when non-empty, and then must have at most 50 UTF-16 code units |
| RegisterValidator.PhoneErrors | src/Auth.Core/Validators/RegisterRequestValidator.cs:31-33 | a non-empty phone must match `^\+?[1-9]\d{1,14}$`, `\d` being a decimal digit of any script |
| RegisterValidator.CountryErrors | src/Auth.Core/Validators/RegisterRequestValidator.cs:35-37 | a non-empty country must have exactly two UTF-16 code units |
| RegisterValidator.Validate | src/Auth.Core/Validators/RegisterRequestValidator.cs:8-38 | no messages iff the request is valid field by field, lengths in code units; a missing or overlong email is always reported |
| RegisterValidator.MessagesAppend | src/Auth.Core/Validators/RegisterRequestValidator.cs:8-38 | the messages of two error lists are the messages of each, in order |
| RegisterValidator.Problem | src/Auth.Api/Program.cs:23-24 | the validation problem for a registration: empty iff the request is valid; no entry without a message; its messages, read in order, are exactly those of the rule set |
| RegisterValidator.RenderMatchesErrors | src/Auth.Api/Program.cs:23-24 | one entry per property with errors: the problem's messages are the joined errors' messages in order, no entry is empty, and it is empty iff there is no error |
| RegisterValidator.Groups | src/Auth.Core/Validators/RegisterRequestValidator.cs:8-38 | the per-property error groups, joined in order, are exactly the rule set's errors |
| ForgotPasswordValidator.Validate | src/Auth.Core/Validators/ForgotPasswordRequestValidator.cs:8-13 | "Email is required" iff the address is null or blank; "Invalid email format" iff it is present and not an address; no error iff both rules pass |
| ForgotPasswordValidator.Problem | src/Auth.Core/Validators/ForgotPasswordRequestValidator.cs:10-12 | the validation problem is empty iff the address passes, and otherwise is one `Email` entry with the messages |
| ForgotPasswordValidator.RegistrationAddsOnlyTheLengthRule | src/Auth.Core/Validators/ForgotPasswordRequestValidator.cs:10-12 | registration reports the same errors for an email, followed by the length error when it is over 100 code units |
| ForgotPasswordValidator.RegisteredAddressesPass | src/Auth.Core/Validators/ForgotPasswordRequestValidator.cs:10-12 | an address registration accepts passes here, and the two agree on every address of at most 100 code units |
| Validation.Entry | src/Auth.Api/Program.cs:23-24 | a property's entry is present iff it has a message, and then holds exactly those messages |
| Validation.AllMessagesAppend | src/Auth.Api/Program.cs:23-24 | the messages of two problems joined are the messages of each, in order |
| RegisterValidator.OptionalFieldsSilentWhenEmpty | src/Auth.Core/Validators/RegisterRequestValidator.cs:23-37 | empty names, phone and country contribute nothing: only email and password messages remain |
| RegisterValidator.PasswordRulesAgreeWithPolicy | src/Auth.Core/Validators/RegisterRequestValidator.cs:15-21 | the registration password rules accept exactly what the password policy accepts, although they have no common-password rule |
| RegisterValidator.PhoneShape | src/Auth.Core/Validators/RegisterRequestValidator.cs:32 | without a trailing line feed, a phone matches iff it is an optional '+', an ASCII digit 1-9, then 1 to 14 decimal digits of any script |
| RegisterValidator.PhoneHasAtMostFifteenDigits | src/Auth.Core/Validators/RegisterRequestValidator.cs:32 | an accepted phone has at most fifteen digits |
| RegisterValidator.PhoneAcceptsTrailingLineFeed | src/Auth.Core/Validators/RegisterRequestValidator.cs:32 | `$` lets one trailing line feed through but not two |
| RegisterValidator.RulesReadCodeUnitsAndUnicodeDigits | src/Auth.Core/Validators/RegisterRequestValidator.cs:31-37 | one character outside the Basic Multilingual Plane is a valid two-unit country code, and "+1" followed by two Arabic-Indic digits is a valid phone |
| Slug.GenerateSlugShape | src/PartnerApi.Api/Controllers/PartnersController.cs:181-189 | every slug contains only a-z, 0-9 and '-', and has at most 45 characters |
| Slug.KeepSlugCharsKept | src/PartnerApi.Api/Controllers/PartnersController.cs:184 | only lower-case letters, digits, white space and '-' survive the character filter |
| Slug.CollapseWhiteSpace | src/PartnerApi.Api/Controllers/PartnersController.cs:185 | collapsing white-space runs never lengthens the text |
| Slug.HyphenateAt | src/PartnerApi.Api/Controllers/PartnersController.cs:187 | every white-space character becomes '-', every other one is kept, position by position |
| Slug.TrimStartSpec | src/PartnerApi.Api/Controllers/PartnersController.cs:185-186 | `TrimStart` leaves the suffix that starts at the first non-white-space character |
| Slug.TrimEndSpec | src/PartnerApi.Api/Controllers/PartnersController.cs:185-186 | `TrimEnd` leaves the prefix that ends at the last non-white-space character |
| Slug.Shorten | src/PartnerApi.Api/Controllers/PartnersController.cs:185-186 | collapsing, trimming and cutting give at most 45 characters |
| Slug.SlugIdempotent | src/PartnerApi.Api/Controllers/PartnersController.cs:181-189 | slugging a slug changes nothing |
| Slug.SlugOfWords | src/PartnerApi.Api/Controllers/PartnersController.cs:183-188 | lower-case alphanumeric words separated by single spaces, at most 45 characters in all, become those words joined by '-' |
| Slug.KeptSurvivesCollapse | src/PartnerApi.Api/Controllers/PartnersController.cs:185-186 | the later stages keep the character filter's guarantee |
| AuthStore.Audit | src/Auth.Core/Entities/AuditLog.cs:3-13 | an audit entry carries the user id, action, details and success flag, plus the caller's address and user agent |
| AuthStore.ProjectionsAreExact | src/Auth.Core/Interfaces/IAuthRepository.cs:20-43 | the tokens created, entries logged and tokens revoked are exactly the matching writes |
| AuthStore.CommitAppends | src/Auth.Core/Interfaces/IAuthRepository.cs:20-43 | replaying writes appends the created tokens and logged entries, and adds the revoked values |
| AuthStore.LedgerIsAppendOnly | src/Auth.Core/Interfaces/IAuthRepository.cs:20-43 | no write removes an audit entry or a refresh token, or un-revokes a token |
| AuthStore.CommitConcat | src/Auth.Core/Interfaces/IAuthRepository.cs:20-43 | replaying a sequence of writes is replaying its parts in turn |
| AuthController.SummaryOf | src/Auth.Api/Controllers/AuthController.cs:166-172 | the session reply carries the account's id, email, names and role |
| AuthController.Register | src/Auth.Api/Controllers/AuthController.cs:51-126 | 400 iff the rule set reports errors, and then exactly the framework's validation problem with no writes; 200 carries the request's email; status in {200, 400, 409}; a failed registration writes at most the account attempt |
| AuthController.RegisterExistingEmailConflicts | src/Auth.Api/Controllers/AuthController.cs:62-67 | a registered email gives 409 and no account, passcode, mail or audit |
| AuthController.RegisterInvalidWritesNothing | src/Auth.Api/Program.cs:23-24 | a rejected request is answered with a validation problem holding all its messages, in rule order, and writes nothing |
| AuthController.RegisterSuccess | src/Auth.Api/Controllers/AuthController.cs:69-119 | creates one account from email, hash and names; stores a passcode valid 15 minutes; mails it; logs USER_REGISTERED_OTP_SENT for the new id |
| AuthController.RegisterSucceeds | src/Auth.Api/Controllers/AuthController.cs:62-119 | conversely, a valid request for an unused email whose account is created gets 200 with the new id, after the account, the 15-minute passcode, the mail and the audit entry |
| AuthController.VerifyEmail | src/Auth.Api/Controllers/AuthController.cs:132-179 | a request violating `[Required]`, `[EmailAddress]` or the six-unit passcode length gets 400 with no writes; otherwise 200 iff the repository returns an account, else 400 "Invalid or expired OTP" with no writes; on 200 the reply carries the new refresh token |
| AuthController.VerifyEmailIssuesOneToken | src/Auth.Api/Controllers/AuthController.cs:143-164 | a well-formed request whose passcode verifies creates exactly one refresh token valid seven days and one EMAIL_VERIFIED entry |
| AuthController.Login | src/Auth.Api/Controllers/AuthController.cs:185-314 | a validation problem gives 400 with that problem and no writes; otherwise the status follows the outcome: 401 for an unknown email, a lockout or a wrong password, 403 for an unverified account, 500 for an unreadable lifetime setting, 200 on success |
| AuthController.LoginOutcomeOf | src/Auth.Api/Controllers/AuthController.cs:197-270 | the checks run in the order account, lockout, password, verification, lifetime setting, each outcome iff the earlier checks pass and its own fails: unknown iff no account; locked iff its lockout has not ended; wrong password iff unlocked and the hash does not verify; unverified iff the password verifies and the address is not verified; 500 or success iff all pass, by whether the setting parses |
| AuthController.Refusal | src/Auth.Api/Controllers/AuthController.cs:197-260 | each refused login answers with its outcome's status and creates no refresh token |
| AuthController.RefusedLoginIsTokenless | src/Auth.Api/Controllers/AuthController.cs:197-313 | a login that does not succeed creates no refresh token |
| AuthController.UnknownEmailLooksLikeWrongPassword | src/Auth.Api/Controllers/AuthController.cs:197-240 | an unknown email and, for an unlocked account, a password the hasher rejects give the same 401 reply; only the wrong password records a failed attempt, and only its audit names the account |
| AuthController.LockoutCheckedBeforePassword | src/Auth.Api/Controllers/AuthController.cs:212-224 | a locked account gets the same 401 whatever the password; no failed attempt is recorded and no token issued |
| AuthController.UnverifiedAccountGetsNewOtp | src/Auth.Api/Controllers/AuthController.cs:243-260 | an unlocked, unverified account with a password the hasher accepts gets 403 and a new passcode expiring now+15 min; no token, no counter reset, no last-login update |
| AuthController.PasswordCheckedBeforeVerification | src/Auth.Api/Controllers/AuthController.cs:227-243 | for an unlocked account, a password the hasher rejects gets the plain 401 and one counted failure, whether or not the account is verified; no passcode is stored or mailed |
| AuthController.LoginSuccessEffects | src/Auth.Api/Controllers/AuthController.cs:263-296 | a successful login writes, in order: reset counter, create token, update last login, audit LOGIN_SUCCESS, set cookie |
| AuthController.LoginSuccess | src/Auth.Api/Controllers/AuthController.cs:263-307 | a successful login is 200, issues exactly one refresh token expiring after the configured days, and logs exactly one LOGIN_SUCCESS |
| AuthController.LoginSuccessLedger | src/Auth.Api/Controllers/AuthController.cs:272-279 | in the ledger a successful login appends exactly its one token |
| AuthController.DefaultExpiryIsSevenDays | src/Auth.Api/Controllers/AuthController.cs:270 | without the setting the token lifetime is seven days |
| AuthController.CookieIgnoresConfiguredLifetime | src/Auth.Api/Controllers/AuthController.cs:270-294 | the cookie set at the end of a successful login lasts seven days (its helper's fixed `AddDays(7)`) whatever the configured token lifetime, while the tokens created for two settings agree iff the settings parse to the same number |
| AuthController.BadExpirySettingFailsAfterReset | src/Auth.Api/Controllers/AuthController.cs:262-313 | an unreadable setting gives 500 after the failed-attempt reset, and no token |
| AuthController.LoginIssuesTokenOnlyOnSuccess | src/Auth.Api/Controllers/AuthController.cs:185-314 | a login creates a refresh token only on the success path |
| AuthController.Refresh | src/Auth.Api/Controllers/AuthController.cs:320-356 | no writes; 400 iff the token is blank; 401 when unknown or the user is missing; 200 returns a new access token with the given refresh token |
| AuthController.RefreshKeepsToken | src/Auth.Api/Controllers/AuthController.cs:340-349 | no rotation: the reply hands back the given token and the ledger is unchanged |
| AuthController.RefreshSucceeds | src/Auth.Api/Controllers/AuthController.cs:324-350 | conversely, a non-blank token the store validates, whose account exists, gets 200 with a new access token for that account and the same refresh token, and writes nothing |
| AuthController.ForgotPassword | src/Auth.Api/Controllers/AuthController.cs:362-409 | 400 iff the validator reports an error (blank or not an address), and then exactly its validation problem with no writes; otherwise 200 with one fixed message; writes happen iff the account exists; the action's own "Email is required" is never given |
| AuthController.ForgotPasswordDoesNotEnumerate | src/Auth.Api/Controllers/AuthController.cs:370-402 | for a well-formed address, the same reply whether or not it is registered; only a registered one gets a reset passcode (now+15 min), a mail and a PASSWORD_RESET_REQUESTED entry |
| AuthController.ResetPassword | src/Auth.Api/Controllers/AuthController.cs:415-455 | a request violating its annotations (required fields, an address, a six-unit passcode, a password of at least eight units) gets 400 with no writes; 200 iff the annotations hold, the passcode is accepted and the account exists; status in {200, 400, 404}; the action's own blank-field message is never given |
| AuthController.ResetPasswordStoresNewHash | src/Auth.Api/Controllers/AuthController.cs:430-448 | a reset stores the new password's hash for that account; every other outcome stores no password |
| AuthController.Logout | src/Auth.Api/Controllers/AuthController.cs:462-497 | 400 iff the token is blank, with no writes; otherwise the token is revoked and the cookie deleted |
| AuthController.LogoutRevokesGivenToken | src/Auth.Api/Controllers/AuthController.cs:470-490 | logout revokes exactly the given token, creates none, and audits only when the id claim is a number |
| AuthController.GetCurrentUser | src/Auth.Api/Controllers/AuthController.cs:504-536 | no writes; 401 iff the claim is empty or not a number; 404 for a missing account; 200 with the account's public fields |
| UserController.ProfileOf | src/Auth.Api/Controllers/UserController.cs:41-55 | the profile copies the thirteen public fields of the account |
| UserController.ListingOf | src/Auth.Api/Controllers/UserController.cs:133-135 | a user-list row copies id, email, names, role, status and creation time |
| UserController.ProjectionsHideSecrets | src/Auth.Api/Controllers/UserController.cs:41-55 | accounts differing only in hash, passcodes and push token project identically, so the replies never reveal them |
| UserController.GetProfile | src/Auth.Api/Controllers/UserController.cs:33-56 | 401 iff there is no claim; 200 iff the claim parses and the account exists, with its profile |
| UserController.MergeProfile | src/Auth.Api/Controllers/UserController.cs:71-78 | each of the six fields takes the request's value when one is given |
| UserController.MergeKeepsOmitted | src/Auth.Api/Controllers/UserController.cs:71-78 | each of the six properties that is null on the bound object keeps its stored value |
| UserController.BindUpdate | src/Auth.Core/Entities/User.cs:24-27 | binding a body that leaves out `language` sets the language to "en", the property's initialiser |
| UserController.BoundMergeByMember | src/Auth.Api/Controllers/UserController.cs:71-78 | the merge of a bound body: a value replaces the stored field and a JSON null keeps it; a member left out keeps the stored field, except the language, which becomes "en". A null language never reaches the merge, as `UserController.UpdateProfile` states |
| UserController.UpdateProfile | src/Auth.Api/Controllers/UserController.cs:62-84 | 400 with no writes iff the body sets `email`, `passwordHash`, `role` or `language` to JSON null, which the framework refuses because those properties are non-nullable; then 401 iff there is no claim; at most one write, made iff the account exists; the language written is the body's, or "en" when it is left out |
| UserController.MergeKeepsEverythingElse | src/Auth.Api/Controllers/UserController.cs:71-78 | the merge changes no field other than the six |
| UserController.MergeIdentityAndIdempotent | src/Auth.Api/Controllers/UserController.cs:71-78 | an empty update is the identity; merging twice equals merging once |
| UserController.UpdateProfileWritesMerge | src/Auth.Api/Controllers/UserController.cs:62-81 | for a body that passes validation, the one write is the caller's account merged with the body as bound; for any other body, nothing is written |
| UserController.ChangePassword | src/Auth.Api/Controllers/UserController.cs:90-108 | 401 iff there is no claim; a write happens iff the reply is 200, and it is the new password's hash |
| UserController.WrongCurrentPasswordChangesNothing | src/Auth.Api/Controllers/UserController.cs:99-102 | a wrong current password gives 400 "Incorrect current password" and no write |
| UserController.UpdateFcmToken | src/Auth.Api/Controllers/UserController.cs:114-121 | stores the given token for the caller iff the claim parses |
| UserController.Listings | src/Auth.Api/Controllers/UserController.cs:133-135 | one row per account, in order |
| UserController.GetAllUsers | src/Auth.Api/Controllers/UserController.cs:130-136 | 200 with every account projected, in store order, and no writes |
| UserController.UpdateRole | src/Auth.Api/Controllers/UserController.cs:154-162 | a role other than "User"/"Admin" gives 400 with no write; otherwise one write, and 404 when the store reports failure |
| UserController.RoleWhitelistIsExact | src/Auth.Api/Controllers/UserController.cs:156 | "admin", "Admin " and "" are refused; "Admin" reaches the store |
| UserController.DeleteUser | src/Auth.Api/Controllers/UserController.cs:169-178 | deleting oneself gives 400; a deactivation is written iff the target is another account; 200 iff the store reports success |
| UserController.NoSelfDelete | src/Auth.Api/Controllers/UserController.cs:171-172 | the caller's own id is refused with no write |
| Partners.Get | src/PartnerApi.Api/Controllers/PartnersController.cs:35-45 | no writes; 200 with the partner iff the id or slug lookup finds one, else 404 |
| Partners.SlugIsLowerCase | src/PartnerApi.Api/Controllers/PartnersController.cs:41 | lower-casing a slug changes nothing, so a slug is looked up as itself |
| Partners.SlugWithLetterRoutesBySlug | src/PartnerApi.Api/Controllers/PartnersController.cs:38-41 | a slug containing a letter is looked up by slug |
| Partners.NumericNameRoutesById | src/PartnerApi.Api/Controllers/PartnersController.cs:38-41 | a digit-only name of at most 45 characters fitting in 32 bits is its own slug, and Get looks it up by id |
| Partners.SegmentImages | src/PartnerApi.Api/Controllers/PartnersController.cs:74-80 | segment i gets the upload of file i when i < min(#files, #segments), and keeps its image otherwise; it fails iff a segment paired with a file is null, and then the uploads end with that segment's file |
| Partners.FirstNull | src/PartnerApi.Api/Controllers/PartnersController.cs:76-78 | the index of the first null segment: every segment before it is present |
| Partners.ExtraSegmentFilesIgnored | src/PartnerApi.Api/Controllers/PartnersController.cs:76 | files beyond the segments are never uploaded |
| Partners.NewPartner | src/PartnerApi.Api/Controllers/PartnersController.cs:53-80 | a new partner has id 0, the name, its slug and the texts; logo and building only from files; the brochure URL under `brochure_url`; there is none iff a segment paired with a file is null; its writes are only uploads |
| Partners.Create | src/PartnerApi.Api/Controllers/PartnersController.cs:49-91 | 400 iff the name is blank; 500 "Internal server error" with no writes when a JSON member is malformed; 201 iff the name is given, both JSON members decode and no segment paired with a file is null, with the partner under the store's new id, created last; a 500 never creates a record |
| Partners.CreateSucceeds | src/PartnerApi.Api/Controllers/PartnersController.cs:49-91 | conversely, a named form whose JSON decodes gets exactly the reply the built partner decides: 201 with it after its uploads and the record, or 500 after the uploads made before a null segment |
| Partners.NullSegmentFailsCreate | src/PartnerApi.Api/Controllers/PartnersController.cs:74-90 | when the first null segment k is paired with a file, the uploads run up to file k, the reply is 500 "Internal server error" and no record is created |
| Partners.CreateAssignsSegmentImages | src/PartnerApi.Api/Controllers/PartnersController.cs:74-80 | a created partner has no null segment paired with a file, and its segments carry the segment-file uploads index by index |
| Partners.Replaced | src/PartnerApi.Api/Controllers/PartnersController.cs:100-126 | PUT sets name, slug and texts from the form unconditionally; profile and segments from non-empty JSON; images and brochure replaced only when a file is sent |
| Partners.Update | src/PartnerApi.Api/Controllers/PartnersController.cs:95-130 | 400 on a blank name, then 404 for a missing id; for a found id, an uncaught 500 iff a JSON member is malformed and 200 iff both decode; 200 stores the replaced partner last, with a valid slug |
| Partners.UpdateSucceeds | src/PartnerApi.Api/Controllers/PartnersController.cs:95-130 | conversely, a named form for a stored partner whose JSON decodes gets 200 with exactly the replaced partner, after its file writes and the record |
| Partners.PutIgnoresSegmentFiles | src/PartnerApi.Api/Controllers/PartnersController.cs:95-130 | PUT never uploads segment files |
| Partners.PutNullProfileEmptiesIt | src/PartnerApi.Api/Controllers/PartnersController.cs:106-107 | profile JSON `null` empties the company profile |
| Partners.PutProfileOrphansBrochure | src/PartnerApi.Api/Controllers/PartnersController.cs:106-126 | with a new profile lacking `brochure_url`, no deletion of the old brochure is ever written |
| Partners.PutIsIdempotent | src/PartnerApi.Api/Controllers/PartnersController.cs:100-110 | repeating a PUT without logo, building or brochure file against the partner it stored gives the same reply |
| Partners.Patched | src/PartnerApi.Api/Controllers/PartnersController.cs:139-159 | PATCH changes name and slug together, each text only when non-null, profile/segments only from non-empty, non-null JSON; images only when files are sent |
| Partners.Patch | src/PartnerApi.Api/Controllers/PartnersController.cs:134-163 | 404 for a missing id; for a found id, an uncaught 500 iff a JSON member is malformed and 200 iff both decode; 200 stores the patched partner last |
| Partners.PatchSucceeds | src/PartnerApi.Api/Controllers/PartnersController.cs:134-163 | conversely, a PATCH of a stored partner whose JSON decodes gets 200 with exactly the patched partner, after its file writes and the record |
| Partners.EmptyPatchKeepsPartner | src/PartnerApi.Api/Controllers/PartnersController.cs:139-148 | an empty PATCH stores the partner unchanged and uploads nothing |
| Partners.PatchIgnoresBrochureAndSegmentFiles | src/PartnerApi.Api/Controllers/PartnersController.cs:134-163 | PATCH never uploads the brochure or segment files it receives |
| Partners.PatchNullJsonKeepsValue | src/PartnerApi.Api/Controllers/PartnersController.cs:144-148 | JSON `null` keeps the stored profile and segments |
| Partners.PatchedIsReplaced | src/PartnerApi.Api/Controllers/PartnersController.cs:100-148 | a PATCH carrying every text and JSON member stores what PUT stores, brochure aside |
| Partners.FullPatchIsPut | src/PartnerApi.Api/Controllers/PartnersController.cs:95-163 | with every text member present, no brochure and no JSON `null`, PATCH and PUT give the same reply |
| Partners.SegmentDeletes | src/PartnerApi.Api/Controllers/PartnersController.cs:175 | one deletion per segment image, in order, stopping at the first null segment; all of them iff none is null |
| Partners.Delete | src/PartnerApi.Api/Controllers/PartnersController.cs:167-179 | 404 with no writes for a missing id; 204 iff the partner exists and has no null segment, with one deletion per stored file, then the record's deletion last; otherwise a bare 500 after file deletions only |
| Partners.DeleteRemovesEveryFile | src/PartnerApi.Api/Controllers/PartnersController.cs:172-175 | the deletions cover logo, building image, brochure (when present) and the segment images in order up to the first null segment, where they stop |
| Partners.DeleteRecordIffNoNullSegment | src/PartnerApi.Api/Controllers/PartnersController.cs:175-177 | the record is deleted iff no stored segment is null |
| Partners.FileDeletesThen | src/PartnerApi.Api/Controllers/PartnersController.cs:172-175 | whatever follows them, the file deletions come first in their order |
| Products.GetById | src/ProductApi.Api/Controllers/ProductsController.cs:50-63 | no writes; 200 with the product when found, else 404 |
| Products.NonEmptyFiles | src/ProductApi.Api/Controllers/ProductsController.cs:197 | keeps exactly the files of positive length, in order |
| Products.NonEmptyFilesIdempotent | src/ProductApi.Api/Controllers/ProductsController.cs:197 | filtering twice equals filtering once |
| Products.SaveAll | src/ProductApi.Api/Controllers/ProductsController.cs:197-200 | one save per file, in order, each name the store's answer |
| Products.DeleteAll | src/ProductApi.Api/Controllers/ProductsController.cs:238 | one deletion per name, in order |
| Products.AddToBucket | src/ProductApi.Api/Controllers/ProductsController.cs:262-264 | adding to a document type creates its bucket when absent and keeps the other types |
| Products.AddToBucketFiles | src/ProductApi.Api/Controllers/ProductsController.cs:262-264 | the type's files gain the new names at the end; other types are unchanged |
| Products.AddToBucketUnique | src/ProductApi.Api/Controllers/ProductsController.cs:262 | adding keeps the document types unique |
| Products.MapDocumentsAppends | src/ProductApi.Api/Controllers/ProductsController.cs:258-287 | each type's files become the stored ones followed by the saved non-empty uploads; nothing is removed |
| Products.MapDocumentsKinds | src/ProductApi.Api/Controllers/ProductsController.cs:258-287 | the types afterwards are the stored ones plus those whose list was sent |
| Products.MapDocumentsUnique | src/ProductApi.Api/Controllers/ProductsController.cs:258-287 | document types stay unique |
| Products.MapDocumentsOnlySaves | src/ProductApi.Api/Controllers/ProductsController.cs:258-287 | document mapping only saves files, never deletes |
| Products.FormDocumentsPerType | src/ProductApi.Api/Controllers/ProductsController.cs:260-286 | for each of the four types, the files gained are the saved non-empty files of that type's list, in the type's folder |
| Products.Overwrite | src/ProductApi.Api/Controllers/ProductsController.cs:154-159 | a text member is replaced iff the form's value is non-empty |
| Products.OverwriteList | src/ProductApi.Api/Controllers/ProductsController.cs:161-162 | a list is replaced iff the form's list is non-empty |
| Products.OverviewRules | src/ProductApi.Api/Controllers/ProductsController.cs:165-184 | non-empty OverviewJson replaces the whole overview; else details and specifications are each replaced only when given; else unchanged; fails iff a given JSON is malformed |
| Products.UpdateOverviewIdempotent | src/ProductApi.Api/Controllers/ProductsController.cs:165-184 | applying the same overview members twice equals applying them once |
| Products.ReplaceMainImage | src/ProductApi.Api/Controllers/ProductsController.cs:187-191 | only a file of positive length replaces the image: old one deleted, then new one saved |
| Products.ReplaceRelated | src/ProductApi.Api/Controllers/ProductsController.cs:193-201 | when some file is non-empty, every old image is deleted and the list becomes the saved non-empty files in order; otherwise unchanged |
| Products.Revised | src/ProductApi.Api/Controllers/ProductsController.cs:150-210 | PUT keeps the id, sets the name, overwrites texts and lists only with non-empty values, and writes image, related and document files in that order |
| Products.Update | src/ProductApi.Api/Controllers/ProductsController.cs:142-222 | 400 on a blank name; 404 for a missing id; for a found id, 500 with no writes iff an overview JSON that is read is malformed, and otherwise 200 or 400 "Update failed"; the revised product is stored last |
| Products.UpdateSucceeds | src/ProductApi.Api/Controllers/ProductsController.cs:142-222 | conversely, a named form for a stored product whose overview decodes writes the revised files and record, and gets 200 with the product iff the store reports the row updated, else 400 "Update failed" |
| Products.UpdateAlwaysRenames | src/ProductApi.Api/Controllers/ProductsController.cs:154 | a successful PUT always stores the form's name |
| Products.UpdateMissingWritesNothing | src/ProductApi.Api/Controllers/ProductsController.cs:146-147 | a missing product gets 400 or 404 and no write |
| Products.EmptyUpdateKeepsProduct | src/ProductApi.Api/Controllers/ProductsController.cs:150-212 | a PUT with only the current name stores the product unchanged and writes no file |
| Products.Fresh | src/ProductApi.Api/Controllers/ProductsController.cs:76-123 | a new product copies the form's members; the image is saved whenever a file is sent; every related file is saved, empty ones too; documents are mapped onto none |
| Products.Create | src/ProductApi.Api/Controllers/ProductsController.cs:70-135 | 400 iff the name is blank; 500 with no writes iff an overview JSON is malformed; 201 iff the name is given and the overview decodes, with the product under the store's new id, created last |
| Products.CreateSucceeds | src/ProductApi.Api/Controllers/ProductsController.cs:70-135 | conversely, a named form whose overview decodes gets 201 with exactly the new product, after its saves and the record |
| Products.CreateKeepsEmptyRelatedFiles | src/ProductApi.Api/Controllers/ProductsController.cs:114-120 | POST keeps one related image per file sent, whatever its length |
| Products.DocumentDeletes | src/ProductApi.Api/Controllers/ProductsController.cs:239-245 | the document cleanup consists of deletions only |
| Products.DocumentDeletesCover | src/ProductApi.Api/Controllers/ProductsController.cs:239-245 | every stored document file is deleted from its type's folder |
| Products.Delete | src/ProductApi.Api/Controllers/ProductsController.cs:229-256 | 404 with no writes for a missing id; else file deletions, then the record's deletion last; 204, or 404 when the store deletes no row |
| Products.DeleteRemovesEveryFile | src/ProductApi.Api/Controllers/ProductsController.cs:236-245 | the main image, every related image and every document are deleted before the record |
| TargetMarkets.GetById | src/TargetMarketApi.Api/Controllers/TargetMarketsController.cs:49-62 | no writes; 200 with the market when found, else 404 |
| TargetMarkets.DropImage | src/TargetMarketApi.Api/Controllers/TargetMarketsController.cs:169-172 | the stored image is deleted iff its URL is non-empty |
| TargetMarkets.ReplaceImage | src/TargetMarketApi.Api/Controllers/TargetMarketsController.cs:107-114 | a sent file replaces the image: the old one is deleted when it has a URL, then the new one uploaded; no file keeps it |
| TargetMarkets.ReplaceImageDeletes | src/TargetMarketApi.Api/Controllers/TargetMarketsController.cs:141-148 | an image is deleted iff a file is sent and the stored URL is non-empty, and then before the upload |
| TargetMarkets.Create | src/TargetMarketApi.Api/Controllers/TargetMarketsController.cs:66-92 | 400 on a blank name; else 201 with the form's members, the uploaded image when a file is sent, and the store's new id |
| TargetMarkets.Replaced | src/TargetMarketApi.Api/Controllers/TargetMarketsController.cs:103-114 | PUT sets name, description and sub-items from the form unconditionally |
| TargetMarkets.Update | src/TargetMarketApi.Api/Controllers/TargetMarketsController.cs:96-126 | 400 on a blank name; 404 for a missing id; else the replaced market is stored last, 200, or 400 "Update failed" |
| TargetMarkets.PutIsIdempotent | src/TargetMarketApi.Api/Controllers/TargetMarketsController.cs:103-114 | the same PUT twice stores the same market as once |
| TargetMarkets.PutClearsOmittedMembers | src/TargetMarketApi.Api/Controllers/TargetMarketsController.cs:103-105 | a PUT without description or sub-items clears them |
| TargetMarkets.Patched | src/TargetMarketApi.Api/Controllers/TargetMarketsController.cs:137-148 | PATCH replaces name, description and sub-items each only when non-null |
| TargetMarkets.Patch | src/TargetMarketApi.Api/Controllers/TargetMarketsController.cs:130-158 | 404 for a missing id; else the patched market is stored last, 200, or 400 "Patch failed" |
| TargetMarkets.EmptyPatchKeepsMarket | src/TargetMarketApi.Api/Controllers/TargetMarketsController.cs:137-150 | an empty PATCH writes the stored market back unchanged and touches no file |
| TargetMarkets.FullPatchIsPut | src/TargetMarketApi.Api/Controllers/TargetMarketsController.cs:103-148 | a PATCH with every member present stores what PUT stores, with the same file writes |
| TargetMarkets.PatchIsIdempotent | src/TargetMarketApi.Api/Controllers/TargetMarketsController.cs:137-148 | the same PATCH twice stores the same market as once |
| TargetMarkets.Delete | src/TargetMarketApi.Api/Controllers/TargetMarketsController.cs:162-182 | 404 for a missing id; else the image is deleted when it has a URL, then the record; 204, or 400 "Delete failed" |
| TargetMarkets.MissingIdIsNotFound | src/TargetMarketApi.Api/Controllers/TargetMarketsController.cs:53-167 | GetById, Update (once validated), Patch and Delete all answer a missing id with 404 and no write |
| Orders.ItemErrors | src/OrderApi.Api/DTOs/CreateOrderRequest.cs:20-30 | an item has no errors iff its product id is non-blank, its quantity is in [1, int.MaxValue] and its price is at least one cent |
| Orders.ValidityIsPerItem | src/OrderApi.Api/DTOs/CreateOrderRequest.cs:16-30 | the request is valid iff the item list is present and every line is a JSON null or a valid item |
| Orders.EmptyItemsPassAnnotations | src/OrderApi.Api/DTOs/CreateOrderRequest.cs:16-17 | `[Required]` accepts an empty item list |
| Orders.ItemsErrorsName | src/OrderApi.Api/DTOs/CreateOrderRequest.cs:20-30 | an error names line j iff line j is an invalid item; a null line is never named |
| Orders.ToItems | src/OrderApi.Api/Controllers/OrdersController.cs:44-49 | for lines that are all non-null, one entity per line, in order |
| Orders.ToOrder | src/OrderApi.Api/Controllers/OrdersController.cs:39-50 | the order copies customer, total and request id, with status "Received" and id 0 |
| Orders.MappingRoundTrip | src/OrderApi.Api/Controllers/OrdersController.cs:39-50 | reading the entities back gives the request's lines: product id, quantity and price are copied one to one |
| Orders.CreateOrderAction | src/OrderApi.Api/Controllers/OrdersController.cs:24-79 | invalid gives 400 with no writes; empty gives 400 EMPTY_ORDER with no writes; a null line gives a bare 500 with no writes; otherwise create, then notify with the returned id, then 200 {id, "Created"}; a failure of either gives 500 INTERNAL_ERROR |
| Orders.LogisticsGetsTheStoredId | src/OrderApi.Api/Controllers/OrdersController.cs:56-70 | logistics is notified only after the store answered, with the id it answered |
| Orders.LogisticsFailureAfterStore | src/OrderApi.Api/Controllers/OrdersController.cs:56-78 | a failing logistics call answers 500 although the order was written |
| Orders.NullLineIsUnhandled | src/OrderApi.Api/Controllers/OrdersController.cs:27-50 | a list holding one null line passes the annotations, yet the mapping fails on it: a bare 500, nothing written |

## Left out

- Program.cs files, middleware, rate limiting, CORS, Swagger and metrics: framework configuration with no logic.
- `[Authorize]` role checks: they are enforced by middleware before any action runs.
- Repository implementations and stored procedures: each read is an unconstrained function, and each write is a recorded effect.
- The Cloudinary and file services, the mailer, and the logistics gateway's delay: these are I/O. Uploads and saves are functions from the file and folder to the stored name.
- JWT signing and password hashing: these are opaque functions of the model's services.
- Randomness and GUIDs: `Otp.GenerateOtp` takes its random number as a parameter, and the identity controller receives the passcode it hands out and the fresh refresh token as parameters.
- The clock: each action reads one `now`.
- Timestamps that the store or the controllers set, such as CreatedAt, UpdatedAt, LastLoginAt and the RefreshToken's CreatedAt: the values the store writes into them are not modelled. Stored values are read as given; `Users.User` carries createdAt and lastLoginAt, and the profile, listing and current-user replies return them.
- JSON (de)serialization: it is a parser parameter returning malformed, null or a value.
- Multipart form binding: a form member is given directly as an optional value.
- Culture-sensitive `ToLower` and `EmailAddress()`: lower-casing is ASCII only, and `EmailAddress()` is a predicate parameter.
- Exceptions thrown by repositories or services other than those modelled: the modelled ones are JSON parsing, `int.Parse`, and the order services.
- Otp.GenerateOtp: lengths of 10 or more are excluded, because `(uint)Math.Pow(10, length)` overflows for them.
- DateTime range overflow when adding minutes or days is not modelled.
- A .NET string holding an unpaired surrogate: it cannot be written as a sequence of Unicode scalar values, so it is not modelled.
- PasswordValidator.ValidatePassword: the common-password comparison ignores ASCII case only. `OrdinalIgnoreCase` also maps a few other letters onto ASCII ones, such as the dotless 'ı' onto 'I', and the service reports such a variant of a common password as too common where the model does not. Such a variant has no special character, so the service and the model agree on whether it is valid.
- The login request validator: it is not part of this model, so its validation problem is an input to `AuthController.Login`.
- The request classes of registration, login and forgot-password are not part of this model, so any data annotations they carry are not modelled. The annotations of `VerifyOtpRequest` and `PasswordResetVerifyRequest` are modelled.
- AuthController.Register: the 400 body is the framework's validation problem. The model gives its entries, property by property in rule order, with their messages. It does not model the problem's title, type and trace id, or how the property names are cased in JSON. The same holds for `AuthController.Login` and `AuthController.ForgotPassword`.
- `EmailAddress`: the `[EmailAddress]` attribute and FluentValidation's `EmailAddress()` are the same predicate parameter, `isEmailAddress`.
- Logging, `GetStatistics` (a pass-through of a stored procedure), and the GetAll endpoints of the catalogue services (pass-throughs with paging done in SQL).
- SQL collation: the repository decides email equality and slug equality.
- Orders: decimal amounts are whole cents, so a price below one cent but above zero is not representable.
- Orders.CreateOrderAction: a null body and a body that fails JSON binding are refused by the framework, which is not modelled. JSON `null` lines in `Items` are modelled.
- Products.UpdateOverview: a stored product with a null overview is not modelled, because the entity initialises the overview to an empty one.
- Partners.Update: the repository's update result is ignored by the source and is not modelled.
- Partners.Delete: the repository's delete result is ignored by the source and is not modelled.
- `Partners.Segment`: a JSON `null` title of a segment, and a JSON `null` value in the company profile, are not represented. The actions never read a title. A null brochure URL would be passed to the file store's delete, which does nothing for it.
- UserController.UpdateProfile: a JSON `null` for a value-typed property of `User`, such as `isActive`, fails JSON binding and gets a framework 400. That is not modelled; only the four non-nullable string properties are checked.

=== FILE: auth_controller.dfy ===
/** The session endpoints of the identity service: registration with an
    emailed passcode, email verification, login with lockout, refresh,
    password reset and logout.  Each action is a function of the request,
    the repository's reads, the services, the caller, the current instant
    and the passcode or token value the injected generators hand out, and
    returns the HTTP status, the body and the writes it makes, in order. */
module AuthController {
  import opened Wrappers
  import opened Text
  import opened Users
  import opened Decimal
  import opened AuthStore
  import RegisterValidator
  import ForgotPasswordValidator
  import opened Validation

  /** `AddMinutes(15)`: the lifetime of an emailed passcode. */
  const OtpLifetime: int := 15 * SecondsPerMinute
  /** `AddDays(7)`: the token lifetime after email verification, and the
      lifetime of the refresh-token cookie. */
  const FixedTokenDays: int := 7
  /** The text `JwtSettings:RefreshTokenExpirationDays` falls back to. */
  const DefaultExpirationDaysSetting: string := "7"

  /** The fixed texts of the replies; `Says` gives the words. */
  datatype Note =
    | EmailTaken
    | UserExists
    | RegistrationDone
    | BadOtp
    | EmailVerifiedWelcome
    | InvalidCredentials
    | VerifyEmailFirst
    | LoginError
    | TokenRequired
    | BadRefreshToken
    | UserNotFound
    | EmailRequired
    | ResetOtpSent
    | ResetFieldsRequired
    | ResetDone
    | LoggedOutNote
    | InvalidToken

  function Says(note: Note): string {
    match note
    case EmailTaken => "User with this email already exists"
    case UserExists => "User already exists"
    case RegistrationDone => "Registration successful! Please check your email for the verification OTP."
    case BadOtp => "Invalid or expired OTP"
    case EmailVerifiedWelcome => "Email verified successfully! You are now logged in."
    case InvalidCredentials => "Invalid email or password"
    case VerifyEmailFirst => "Please verify your email address. A new OTP has been sent."
    case LoginError => "An error occurred during login"
    case TokenRequired => "Refresh token is required"
    case BadRefreshToken => "Invalid or expired refresh token"
    case UserNotFound => "User not found"
    case EmailRequired => "Email is required"
    case ResetOtpSent => "If the email exists, a password reset OTP has been sent"
    case ResetFieldsRequired => "Email, OTP and new password are required"
    case ResetDone => "Password reset successfully. Please login with your new password."
    case LoggedOutNote => "Logged out successfully"
    case InvalidToken => "Invalid token"
  }

  /** The public part of an account that the session replies carry. */
  datatype Summary = Summary(id: int, email: string, firstName: Option<string>, lastName: Option<string>, role: string)

  function SummaryOf(u: User): (s: Summary)
    ensures s.id == u.id && s.email == u.email && s.role == u.role
    ensures s.firstName == u.firstName && s.lastName == u.lastName
  {
    Summary(u.id, u.email, u.firstName, u.lastName, u.role)
  }

  datatype Body =
    | Message(note: Note)
    /** The framework's reply when a validator of the request fails
        before the action runs. */
    | ValidationProblem(errors: seq<FieldErrors>)
    /** The framework's reply when a data annotation of the request is
        violated; its default messages are not part of this model. */
    | Invalid
    | Registered(userId: int, email: string, note: Note)
    | Session(greeting: Option<Note>, accessToken: string, refreshToken: string, user: Summary)
    | VerifyFirst(note: Note, email: string)
    /** "Account is locked. Please try again after <end> UTC". */
    | Locked(until: Time)
    | Refreshed(accessToken: string, refreshToken: string)
    | CurrentUser(user: Summary, createdAt: Time, lastLoginAt: Option<Time>)

  datatype Reply = Reply(status: int, body: Body, effects: seq<Effect>)

  datatype LoginRequest = LoginRequest(email: string, password: string)
  datatype VerifyOtpRequest = VerifyOtpRequest(email: string, otp: string)
  datatype ResetRequest = ResetRequest(email: Option<string>, otp: Option<string>, newPassword: Option<string>)

  /** The length `[StringLength(6, MinimumLength = 6)]` demands of a passcode. */
  const OtpLength: nat := 6
  /** The length `[MinLength(8)]` demands of a new password. */
  const MinNewPasswordLength: nat := 8

  /** The data annotations of `VerifyOtpRequest`: `[Required]` and
      `[EmailAddress]` on the email, `[Required]` and exactly six code units
      on the passcode.  `isEmailAddress` is the `EmailAddress` check. */
  predicate VerifyOtpAnnotationsHold(request: VerifyOtpRequest, isEmailAddress: string -> bool) {
    && !AllWhiteSpace(request.email) && isEmailAddress(request.email)
    && !AllWhiteSpace(request.otp) && Utf16Length(request.otp) == OtpLength
  }

  /** The data annotations of `PasswordResetVerifyRequest`: those of
      `VerifyOtpRequest`, and `[Required]` and at least eight code units on
      the new password. */
  predicate ResetAnnotationsHold(request: ResetRequest, isEmailAddress: string -> bool) {
    && !IsNullOrWhiteSpace(request.email) && isEmailAddress(request.email.value)
    && !IsNullOrWhiteSpace(request.otp) && Utf16Length(request.otp.value) == OtpLength
    && !IsNullOrWhiteSpace(request.newPassword) && Utf16Length(request.newPassword.value) >= MinNewPasswordLength
  }

  // ---------------------------------------------------------------- Register

  /** `POST register`.  `isEmailAddress` is the validator's `EmailAddress()`
      rule and `otp` the passcode the injected OTP service hands out (its
      generator is `Otp.GenerateOtp`).  The framework runs the registration
      validator before the action and answers a failure with its validation
      problem, so the action's own run of the same validator never fails. */
  function Register(request: RegisterValidator.RegisterRequest, isEmailAddress: string -> bool,
                    store: Store, services: Services, client: Client, otp: string, now: Time): (r: Reply)
    ensures r.status == 400 <==> RegisterValidator.Validate(request, isEmailAddress) != []
    ensures r.status == 400 ==> r == Reply(400, ValidationProblem(RegisterValidator.Problem(request, isEmailAddress)), [])
    ensures r.status == 200 ==> request.email.Some? && r.body.Registered? && r.body.email == request.email.value
    ensures r.status in {200, 400, 409}
    ensures r.status != 200 ==> forall e | e in r.effects :: e.CreateUser?
  {
    var errors := RegisterValidator.Validate(request, isEmailAddress);
    if errors != [] then Reply(400, ValidationProblem(RegisterValidator.Problem(request, isEmailAddress)), [])
    else
      var email := request.email.value;
      if store.userByEmail(email).Some? then
        Reply(409, Message(EmailTaken), [])
      else
        var user := NewUser(email, services.hash(request.password.value), request.firstName, request.lastName);
        var userId := store.createUser(user);
        if userId == -1 then Reply(409, Message(UserExists), [CreateUser(user)])
        else
          Reply(200,
                Registered(userId, email, RegistrationDone),
                [ CreateUser(user),
                  SetEmailVerificationOtp(userId, otp, now + OtpLifetime),
                  SendEmail(email, VerificationMail(otp)),
                  LogAudit(Audit(Some(userId), RegisteredOtpSent, client, NoDetails, true)) ])
  }

  /** An email that is already registered is a conflict, and nothing is
      written, sent or logged. */
  lemma RegisterExistingEmailConflicts(request: RegisterValidator.RegisterRequest, isEmailAddress: string -> bool,
                                       store: Store, services: Services, client: Client, otp: string, now: Time)
    requires RegisterValidator.Validate(request, isEmailAddress) == []
    requires store.userByEmail(request.email.value).Some?
    ensures var r := Register(request, isEmailAddress, store, services, client, otp, now);
            r.status == 409 && r.body == Message(EmailTaken) && r.effects == []
  {
  }


  /** A request the rule set rejects is answered with all its messages,
      grouped by property, and nothing is written. */
  lemma RegisterInvalidWritesNothing(request: RegisterValidator.RegisterRequest, isEmailAddress: string -> bool,
                                     store: Store, services: Services, client: Client, otp: string, now: Time)
    requires RegisterValidator.Validate(request, isEmailAddress) != []
    ensures var r := Register(request, isEmailAddress, store, services, client, otp, now);
            && r.body.ValidationProblem? && r.effects == []
            && AllMessages(r.body.errors) == RegisterValidator.Messages(RegisterValidator.Validate(request, isEmailAddress))
            && r.body.errors != [] && NoEmptyEntry(r.body.errors)
  {
  }


  /** A successful registration creates one account from the email, the
      hashed password and the names only -- phone and country are not passed
      on -- then stores a passcode valid for fifteen minutes, mails that
      passcode to the new address, and logs one audit entry for the new id. */
  lemma RegisterSuccess(request: RegisterValidator.RegisterRequest, isEmailAddress: string -> bool,
                        store: Store, services: Services, client: Client, otp: string, now: Time)
    requires Register(request, isEmailAddress, store, services, client, otp, now).status == 200
    ensures var r := Register(request, isEmailAddress, store, services, client, otp, now);
            var email := request.email.value;
            var user := NewUser(email, services.hash(request.password.value), request.firstName, request.lastName);
            var id := store.createUser(user);
            && RegisterValidator.IsValidRequest(request, isEmailAddress)
            && store.userByEmail(email).None? && id != -1
            && user.phone.None? && user.country.None? && user.role == "User"
            && r.effects == [ CreateUser(user),
                              SetEmailVerificationOtp(id, otp, now + 900),
                              SendEmail(email, VerificationMail(otp)),
                              LogAudit(Audit(Some(id), RegisteredOtpSent, client, NoDetails, true)) ]
            && r.body.userId == id
  {
  }


  /** Conversely, a valid request for an unused address whose account the
      store creates is answered 200 with the new id, after the account, the
      passcode, the mail and the audit entry. */
  lemma RegisterSucceeds(request: RegisterValidator.RegisterRequest, isEmailAddress: string -> bool,
                         store: Store, services: Services, client: Client, otp: string, now: Time)
    requires RegisterValidator.IsValidRequest(request, isEmailAddress)
    requires store.userByEmail(request.email.value).None?
    requires store.createUser(NewUser(request.email.value, services.hash(request.password.value),
                                      request.firstName, request.lastName)) != -1
    ensures var email := request.email.value;
            var user := NewUser(email, services.hash(request.password.value), request.firstName, request.lastName);
            var id := store.createUser(user);
            Register(request, isEmailAddress, store, services, client, otp, now)
              == Reply(200, Registered(id, email, RegistrationDone),
                       [ CreateUser(user),
                         SetEmailVerificationOtp(id, otp, now + 900),
                         SendEmail(email, VerificationMail(otp)),
                         LogAudit(Audit(Some(id), RegisteredOtpSent, client, NoDetails, true)) ])
  {
  }

  // ------------------------------------------------------------- VerifyEmail

  /** `POST verify-email`.  `store.verifyEmailOtp` is `sp_VerifyEmailOTP`,
      which decides on its own whether the passcode matches and is current.
      A request that violates its data annotations is refused by the
      framework before the repository is asked. */
  function VerifyEmail(request: VerifyOtpRequest, isEmailAddress: string -> bool, store: Store, services: Services,
                       client: Client, freshToken: string, now: Time): (r: Reply)
    ensures !VerifyOtpAnnotationsHold(request, isEmailAddress) ==> r == Reply(400, Invalid, [])
    ensures r.status == 200 <==>
              VerifyOtpAnnotationsHold(request, isEmailAddress) && store.verifyEmailOtp(request.email, request.otp).Some?
    ensures VerifyOtpAnnotationsHold(request, isEmailAddress) && r.status != 200 ==> r == Reply(400, Message(BadOtp), [])
    ensures r.status == 200 ==> r.body.Session? && r.body.refreshToken == freshToken
  {
    if !VerifyOtpAnnotationsHold(request, isEmailAddress) then Reply(400, Invalid, [])
    else match store.verifyEmailOtp(request.email, request.otp)
    case None => Reply(400, Message(BadOtp), [])
    case Some(user) =>
      Reply(200,
            Session(Some(EmailVerifiedWelcome),
                    services.accessToken(user), freshToken, SummaryOf(user)),
            [ CreateRefreshToken(RefreshToken(user.id, freshToken, now + FixedTokenDays * SecondsPerDay)),
              SetRefreshCookie(freshToken, now + FixedTokenDays * SecondsPerDay),
              LogAudit(Audit(Some(user.id), EmailConfirmed, client, NoDetails, true)) ])
  }

  /** A verified passcode logs the account in: exactly one refresh token,
      valid for seven days, and one EMAIL_VERIFIED entry for that account. */
  lemma VerifyEmailIssuesOneToken(request: VerifyOtpRequest, isEmailAddress: string -> bool, store: Store,
                                  services: Services, client: Client, freshToken: string, now: Time, l: Ledger)
    requires VerifyOtpAnnotationsHold(request, isEmailAddress)
    requires store.verifyEmailOtp(request.email, request.otp).Some?
    ensures var user := store.verifyEmailOtp(request.email, request.otp).value;
            var r := VerifyEmail(request, isEmailAddress, store, services, client, freshToken, now);
            && TokensCreated(r.effects) == [RefreshToken(user.id, freshToken, now + 7 * 86400)]
            && AuditsLogged(r.effects) == [Audit(Some(user.id), EmailConfirmed, client, NoDetails, true)]
            && Commit(l, r.effects).tokens == l.tokens + [RefreshToken(user.id, freshToken, now + 7 * 86400)]
            && r.body.user == SummaryOf(user)
  {
    var es := VerifyEmail(request, isEmailAddress, store, services, client, freshToken, now).effects;
    assert es[0..] == es && es[3..] == [];
    ProjectAt(es, 0); ProjectAt(es, 1); ProjectAt(es, 2);
    CommitAppends(l, es);
  }

  // ------------------------------------------------------------------- Login

  /** How a login attempt ends, in the order the checks are made, with the
      account found and, on success, the configured token lifetime. */
  datatype LoginOutcome =
    | UnknownEmail
    | LockedOut(user: User, until: Time)
    | WrongPassword(user: User)
    | Unverified(user: User)
    | BadExpirySetting(user: User)
    | LoggedIn(user: User, days: int)

  /** `int.Parse` of `JwtSettings:RefreshTokenExpirationDays`, read as "7"
      when unset; `None` where `int.Parse` throws. */
  function ExpiryDays(expirySetting: Option<string>): Option<int> {
    TryParseInt32(expirySetting.GetOr(DefaultExpirationDaysSetting))
  }

  /** The account the email names exists and is not locked out at `now`. */
  predicate Unlocked(request: LoginRequest, store: Store, now: Time) {
    store.userByEmail(request.email).Some? && !IsLockedOut(store.userByEmail(request.email).value, now)
  }

  /** The password given matches the stored hash of the account the email
      names. */
  predicate PasswordMatches(request: LoginRequest, store: Store, services: Services)
    requires store.userByEmail(request.email).Some?
  {
    services.verify(request.password, store.userByEmail(request.email).value.passwordHash)
  }

  /** The account passes every check before the lifetime setting is read:
      found, not locked, the right password, and a verified address. */
  predicate Admitted(request: LoginRequest, store: Store, services: Services, now: Time) {
    && Unlocked(request, store, now) && PasswordMatches(request, store, services)
    && store.userByEmail(request.email).value.isEmailVerified
  }

  /** The checks of `POST login`: the account, the lockout, the password,
      the verification flag and the configured lifetime, in that order; each
      outcome is reached exactly when every earlier check passes and its own
      check fails. */
  function LoginOutcomeOf(request: LoginRequest, store: Store, services: Services, expirySetting: Option<string>, now: Time): (outcome: LoginOutcome)
    ensures outcome.UnknownEmail? <==> store.userByEmail(request.email).None?
    ensures !outcome.UnknownEmail? ==> store.userByEmail(request.email) == Some(outcome.user)
    ensures outcome.LockedOut? <==> !outcome.UnknownEmail? && IsLockedOut(outcome.user, now)
    ensures outcome.LockedOut? ==> outcome.user.lockoutEnd == Some(outcome.until)
    ensures outcome.WrongPassword? <==> Unlocked(request, store, now) && !PasswordMatches(request, store, services)
    ensures outcome.Unverified? <==>
              && Unlocked(request, store, now) && PasswordMatches(request, store, services)
              && !store.userByEmail(request.email).value.isEmailVerified
    ensures outcome.BadExpirySetting? <==> Admitted(request, store, services, now) && ExpiryDays(expirySetting).None?
    ensures outcome.LoggedIn? <==> Admitted(request, store, services, now) && ExpiryDays(expirySetting).Some?
    ensures outcome.LoggedIn? ==> ExpiryDays(expirySetting) == Some(outcome.days)
  {
    match store.userByEmail(request.email)
    case None => UnknownEmail
    case Some(user) =>
      if IsLockedOut(user, now) then LockedOut(user, user.lockoutEnd.value)
      else if !services.verify(request.password, user.passwordHash) then WrongPassword(user)
      else if !user.isEmailVerified then Unverified(user)
      else match ExpiryDays(expirySetting)
        case None => BadExpirySetting(user)
        case Some(days) => LoggedIn(user, days)
  }

  /** The status each outcome is answered with: the three refusals share
      401, so the reply does not tell them apart. */
  function StatusOf(outcome: LoginOutcome): int {
    match outcome
    case UnknownEmail | LockedOut(_, _) | WrongPassword(_) => 401
    case Unverified(_) => 403
    case BadExpirySetting(_) => 500
    case LoggedIn(_, _) => 200
  }

  /** `POST login`.  `loginProblem` is the validation problem of the login
      request validator, which the framework runs before the action and
      which is not part of this model; `expirySetting` is the configuration
      value `JwtSettings:RefreshTokenExpirationDays`. */
  function Login(request: LoginRequest, loginProblem: seq<FieldErrors>, store: Store, services: Services,
                 expirySetting: Option<string>, client: Client, otp: string, freshToken: string, now: Time): (r: Reply)
    ensures loginProblem != [] ==> r == Reply(400, ValidationProblem(loginProblem), [])
    ensures loginProblem == [] ==> r.status == StatusOf(LoginOutcomeOf(request, store, services, expirySetting, now))
  {
    if loginProblem != [] then Reply(400, ValidationProblem(loginProblem), [])
    else
      var outcome := LoginOutcomeOf(request, store, services, expirySetting, now);
      if outcome.LoggedIn? then Welcome(outcome.user, outcome.days, services, client, freshToken, now)
      else Refusal(outcome, request.email, client, otp, now)
  }

  /** The answer to a login that is refused, by outcome. */
  function Refusal(outcome: LoginOutcome, email: string, client: Client, otp: string, now: Time): (r: Reply)
    requires !outcome.LoggedIn?
    ensures r.status == StatusOf(outcome)
    ensures forall k | 0 <= k < |r.effects| :: !r.effects[k].CreateRefreshToken?
  {
    match outcome
    case UnknownEmail =>
      Reply(401, Message(InvalidCredentials),
            [LogAudit(Audit(None, LoginFailed, client, UnknownAddress(email), false))])
    case LockedOut(user, until) =>
      Reply(401, Locked(until), [LogAudit(Audit(Some(user.id), LoginBlocked, client, LockedUntil(until), false))])
    case WrongPassword(user) =>
      Reply(401, Message(InvalidCredentials),
            [ RecordFailedLogin(email),
              LogAudit(Audit(Some(user.id), LoginFailed, client, PasswordMismatch, false)) ])
    case Unverified(user) =>
      Reply(403, VerifyFirst(VerifyEmailFirst, user.email),
            [ SetEmailVerificationOtp(user.id, otp, now + OtpLifetime),
              SendEmail(user.email, VerificationMail(otp)) ])
    case BadExpirySetting(user) =>
      // `int.Parse` throws; the handler answers 500 after the counter reset
      Reply(500, Message(LoginError), [ResetFailedLoginAttempts(user.id)])
  }

  /** The answer to a login that succeeds. */
  function Welcome(user: User, days: int, services: Services, client: Client, freshToken: string, now: Time): (r: Reply)
    ensures r.status == 200
  {
    Reply(200, Session(None, services.accessToken(user), freshToken, SummaryOf(user)),
          [ ResetFailedLoginAttempts(user.id),
            CreateRefreshToken(RefreshToken(user.id, freshToken, now + days * SecondsPerDay)),
            UpdateLastLogin(user.id),
            LogAudit(Audit(Some(user.id), LoginSucceeded, client, NoDetails, true)),
            SetRefreshCookie(freshToken, now + FixedTokenDays * SecondsPerDay) ])
  }

  /** An unknown email and a wrong password get the same answer.  Only the
      wrong password is counted as a failed attempt, and only its audit
      entry names the account. */
  lemma UnknownEmailLooksLikeWrongPassword(
      unknown: LoginRequest, known: LoginRequest, store: Store, services: Services, expirySetting: Option<string>,
      client: Client, otp: string, freshToken: string, now: Time)
    requires store.userByEmail(unknown.email).None?
    requires Unlocked(known, store, now) && !PasswordMatches(known, store, services)
    ensures var a := Login(unknown, [], store, services, expirySetting, client, otp, freshToken, now);
            var b := Login(known, [], store, services, expirySetting, client, otp, freshToken, now);
            && a.status == b.status == 401
            && a.body == b.body == Message(InvalidCredentials)
            && RecordFailedLogin(unknown.email) !in a.effects
            && (forall e | e in a.effects :: !e.RecordFailedLogin?)
            && RecordFailedLogin(known.email) in b.effects
            && AuditsLogged(a.effects) == [Audit(None, LoginFailed, client, UnknownAddress(unknown.email), false)]
            && AuditsLogged(b.effects) == [Audit(Some(store.userByEmail(known.email).value.id), LoginFailed, client, PasswordMismatch, false)]
            && TokensCreated(a.effects) == TokensCreated(b.effects) == []
  {
    var user := LoginOutcomeOf(known, store, services, expirySetting, now).user;
    var logA := Audit(None, LoginFailed, client, UnknownAddress(unknown.email), false);
    var logB := Audit(Some(user.id), LoginFailed, client, PasswordMismatch, false);
    var a := Login(unknown, [], store, services, expirySetting, client, otp, freshToken, now).effects;
    var b := Login(known, [], store, services, expirySetting, client, otp, freshToken, now).effects;
    assert a == [LogAudit(logA)];
    assert b == [RecordFailedLogin(known.email), LogAudit(logB)];
    FailedLoginProjections(unknown.email, known.email, logA, logB);
  }

  lemma FailedLoginProjections(unknown: string, known: string, logA: AuditLog, logB: AuditLog)
    ensures TokensCreated([LogAudit(logA)]) == [] && AuditsLogged([LogAudit(logA)]) == [logA]
    ensures var b := [RecordFailedLogin(known), LogAudit(logB)];
            TokensCreated(b) == [] && AuditsLogged(b) == [logB]
  {
    var a, b := [LogAudit(logA)], [RecordFailedLogin(known), LogAudit(logB)];
    assert a[0..] == a && a[1..] == [];
    assert b[0..] == b && b[2..] == [];
    ProjectAt(a, 0); ProjectAt(b, 0); ProjectAt(b, 1);
  }

  /** A locked account is turned away before the password is looked at:
      the reply is the same whichever password is given and however the
      hasher answers, no failed attempt is recorded and no token issued. */
  lemma LockoutCheckedBeforePassword(
      request: LoginRequest, other: string, store: Store, services: Services, verify: (string, string) -> bool,
      expirySetting: Option<string>, client: Client, otp: string, freshToken: string, now: Time)
    requires store.userByEmail(request.email).Some? && IsLockedOut(store.userByEmail(request.email).value, now)
    ensures var user := store.userByEmail(request.email).value;
            var r := Login(request, [], store, services, expirySetting, client, otp, freshToken, now);
            && r == Login(request.(password := other), [], store, services.(verify := verify), expirySetting, client, otp, freshToken, now)
            && r.status == 401 && r.body == Locked(user.lockoutEnd.value)
            && r.effects == [LogAudit(Audit(Some(user.id), LoginBlocked, client, LockedUntil(user.lockoutEnd.value), false))]
            && TokensCreated(r.effects) == []
  {
    var user := store.userByEmail(request.email).value;
    assert LoginOutcomeOf(request, store, services, expirySetting, now) == LockedOut(user, user.lockoutEnd.value);
    assert LoginOutcomeOf(request.(password := other), store, services.(verify := verify), expirySetting, now) == LockedOut(user, user.lockoutEnd.value);
    var es := Login(request, [], store, services, expirySetting, client, otp, freshToken, now).effects;
    assert es[0..] == es && es[1..] == [];
    ProjectAt(es, 0);
  }

  /** The right password on an unverified account: 403, a fresh passcode
      valid until fifteen minutes from now mailed to the account, and no
      token, counter reset or last-login update. */
  lemma UnverifiedAccountGetsNewOtp(
      request: LoginRequest, store: Store, services: Services, expirySetting: Option<string>,
      client: Client, otp: string, freshToken: string, now: Time)
    requires Unlocked(request, store, now) && PasswordMatches(request, store, services)
    requires !store.userByEmail(request.email).value.isEmailVerified
    ensures var user := store.userByEmail(request.email).value;
            var r := Login(request, [], store, services, expirySetting, client, otp, freshToken, now);
            && r.status == 403
            && r.effects == [ SetEmailVerificationOtp(user.id, otp, now + 900),
                              SendEmail(user.email, VerificationMail(otp)) ]
            && TokensCreated(r.effects) == [] && AuditsLogged(r.effects) == []
            && ResetFailedLoginAttempts(user.id) !in r.effects
  {
    var user := LoginOutcomeOf(request, store, services, expirySetting, now).user;
    var es := Login(request, [], store, services, expirySetting, client, otp, freshToken, now).effects;
    assert es == [SetEmailVerificationOtp(user.id, otp, now + OtpLifetime), SendEmail(user.email, VerificationMail(otp))];
    QuietEffects(es);
  }

  /** The password is checked before the verification flag: a wrong
      password on an account that is not locked gets the plain 401 and one
      counted failure, verified or not, and no passcode is stored or mailed. */
  lemma PasswordCheckedBeforeVerification(
      request: LoginRequest, store: Store, services: Services, expirySetting: Option<string>,
      client: Client, otp: string, freshToken: string, now: Time)
    requires Unlocked(request, store, now) && !PasswordMatches(request, store, services)
    ensures var user := store.userByEmail(request.email).value;
            var r := Login(request, [], store, services, expirySetting, client, otp, freshToken, now);
            && r.status == 401 && r.body == Message(InvalidCredentials)
            && r.effects == [ RecordFailedLogin(request.email),
                              LogAudit(Audit(Some(user.id), LoginFailed, client, PasswordMismatch, false)) ]
            && forall e | e in r.effects :: !e.SendEmail? && !e.SetEmailVerificationOtp?
  {
    var user := store.userByEmail(request.email).value;
    assert LoginOutcomeOf(request, store, services, expirySetting, now) == WrongPassword(user);
  }

  /** The writes of a successful login, in order. */
  lemma LoginSuccessEffects(
      request: LoginRequest, store: Store, services: Services, expirySetting: Option<string>,
      client: Client, otp: string, freshToken: string, now: Time)
    requires LoginOutcomeOf(request, store, services, expirySetting, now).LoggedIn?
    ensures var user := store.userByEmail(request.email).value;
            var days := ExpiryDays(expirySetting).value;
            var r := Login(request, [], store, services, expirySetting, client, otp, freshToken, now);
            && r.status == 200
            && r.body == Session(None, services.accessToken(user), freshToken, SummaryOf(user))
            && r.effects == [ ResetFailedLoginAttempts(user.id),
                              CreateRefreshToken(RefreshToken(user.id, freshToken, now + days * 86400)),
                              UpdateLastLogin(user.id),
                              LogAudit(Audit(Some(user.id), LoginSucceeded, client, NoDetails, true)),
                              SetRefreshCookie(freshToken, now + 7 * 86400) ]
  {
    var user := store.userByEmail(request.email).value;
    var days := ExpiryDays(expirySetting).value;
    LoginIsWelcome(request, store, services, expirySetting, client, otp, freshToken, now);
    WelcomeReply(user, days, services, client, freshToken, now);
  }

  lemma LoginIsWelcome(
      request: LoginRequest, store: Store, services: Services, expirySetting: Option<string>,
      client: Client, otp: string, freshToken: string, now: Time)
    requires LoginOutcomeOf(request, store, services, expirySetting, now).LoggedIn?
    ensures Login(request, [], store, services, expirySetting, client, otp, freshToken, now)
         == Welcome(store.userByEmail(request.email).value, ExpiryDays(expirySetting).value, services, client, freshToken, now)
  {
    var outcome := LoginOutcomeOf(request, store, services, expirySetting, now);
    assert outcome.user == store.userByEmail(request.email).value;
    assert outcome.days == ExpiryDays(expirySetting).value;
  }

  lemma WelcomeReply(user: User, days: int, services: Services, client: Client, freshToken: string, now: Time)
    ensures var r := Welcome(user, days, services, client, freshToken, now);
            && r.body == Session(None, services.accessToken(user), freshToken, SummaryOf(user))
            && r.effects == [ ResetFailedLoginAttempts(user.id),
                              CreateRefreshToken(RefreshToken(user.id, freshToken, now + days * 86400)),
                              UpdateLastLogin(user.id),
                              LogAudit(Audit(Some(user.id), LoginSucceeded, client, NoDetails, true)),
                              SetRefreshCookie(freshToken, now + 7 * 86400) ]
  {
  }

  /** A successful login issues exactly one refresh token, valid for the
      configured number of days, and logs exactly one LOGIN_SUCCESS entry. */
  lemma LoginSuccess(
      request: LoginRequest, store: Store, services: Services, expirySetting: Option<string>,
      client: Client, otp: string, freshToken: string, now: Time)
    requires LoginOutcomeOf(request, store, services, expirySetting, now).LoggedIn?
    ensures var user := store.userByEmail(request.email).value;
            var days := ExpiryDays(expirySetting).value;
            var token := RefreshToken(user.id, freshToken, now + days * 86400);
            var r := Login(request, [], store, services, expirySetting, client, otp, freshToken, now);
            && TokensCreated(r.effects) == [token]
            && AuditsLogged(r.effects) == [Audit(Some(user.id), LoginSucceeded, client, NoDetails, true)]
  {
    var user := store.userByEmail(request.email).value;
    var token := RefreshToken(user.id, freshToken, now + ExpiryDays(expirySetting).value * SecondsPerDay);
    var entry := Audit(Some(user.id), LoginSucceeded, client, NoDetails, true);
    var es := Login(request, [], store, services, expirySetting, client, otp, freshToken, now).effects;
    LoginSuccessEffects(request, store, services, expirySetting, client, otp, freshToken, now);
    FiveProjections(es, ResetFailedLoginAttempts(user.id), token, UpdateLastLogin(user.id), entry, SetRefreshCookie(freshToken, now + FixedTokenDays * SecondsPerDay));
  }

  /** In the ledger, a successful login appends that one token. */
  lemma LoginSuccessLedger(
      request: LoginRequest, store: Store, services: Services, expirySetting: Option<string>,
      client: Client, otp: string, freshToken: string, now: Time, l: Ledger)
    requires LoginOutcomeOf(request, store, services, expirySetting, now).LoggedIn?
    ensures var user := store.userByEmail(request.email).value;
            var days := ExpiryDays(expirySetting).value;
            var r := Login(request, [], store, services, expirySetting, client, otp, freshToken, now);
            && Commit(l, r.effects).tokens == l.tokens + [RefreshToken(user.id, freshToken, now + days * 86400)]
            && |Commit(l, r.effects).audit| == |l.audit| + 1
  {
    LoginSuccess(request, store, services, expirySetting, client, otp, freshToken, now);
    CommitAppends(l, Login(request, [], store, services, expirySetting, client, otp, freshToken, now).effects);
  }

  lemma FiveProjections(es: seq<Effect>, a: Effect, t: RefreshToken, c: Effect, log: AuditLog, e: Effect)
    requires es == [a, CreateRefreshToken(t), c, LogAudit(log), e]
    requires !a.CreateRefreshToken? && !a.LogAudit? && !c.CreateRefreshToken? && !c.LogAudit?
    requires !e.CreateRefreshToken? && !e.LogAudit?
    ensures TokensCreated(es) == [t] && AuditsLogged(es) == [log]
  {
    assert es[0..] == es && es[5..] == [];
    ProjectAt(es, 0); ProjectAt(es, 1); ProjectAt(es, 2); ProjectAt(es, 3); ProjectAt(es, 4);
  }

  /** Without the setting a refresh token lasts seven days. */
  lemma DefaultExpiryIsSevenDays()
    ensures ExpiryDays(None) == Some(7)
  {
    var s := DefaultExpirationDaysSetting;
    assert s == "7" && AllDigits(s);
    ParseDigits(s);
    assert DecimalValue(s) == 7;
  }

  /** The cookie always lasts seven days, whatever lifetime the token gets
      from the configuration: two settings give the same cookie, and the
      same token exactly when they parse to the same number of days. */
  lemma CookieIgnoresConfiguredLifetime(
      request: LoginRequest, store: Store, services: Services, setting: string, other: string,
      client: Client, otp: string, freshToken: string, now: Time)
    requires LoginOutcomeOf(request, store, services, Some(setting), now).LoggedIn?
    requires LoginOutcomeOf(request, store, services, Some(other), now).LoggedIn?
    ensures var a := Login(request, [], store, services, Some(setting), client, otp, freshToken, now);
            var b := Login(request, [], store, services, Some(other), client, otp, freshToken, now);
            && SetRefreshCookie(freshToken, now + 7 * 86400) in a.effects
            && SetRefreshCookie(freshToken, now + 7 * 86400) in b.effects
            && (TokensCreated(a.effects) == TokensCreated(b.effects) <==> TryParseInt32(setting) == TryParseInt32(other))
  {
    LoginSuccessEffects(request, store, services, Some(setting), client, otp, freshToken, now);
    LoginSuccessEffects(request, store, services, Some(other), client, otp, freshToken, now);
    LoginSuccess(request, store, services, Some(setting), client, otp, freshToken, now);
    LoginSuccess(request, store, services, Some(other), client, otp, freshToken, now);
    var user := store.userByEmail(request.email).value;
    var d1, d2 := ExpiryDays(Some(setting)).value, ExpiryDays(Some(other)).value;
    if d1 != d2 {
      assert RefreshToken(user.id, freshToken, now + d1 * 86400) != RefreshToken(user.id, freshToken, now + d2 * 86400);
    }
  }

  /** A setting `int.Parse` cannot read turns the login into a 500 after the
      failure counter has already been reset; no token is issued. */
  lemma BadExpirySettingFailsAfterReset(
      request: LoginRequest, store: Store, services: Services, expirySetting: Option<string>,
      client: Client, otp: string, freshToken: string, now: Time)
    requires LoginOutcomeOf(request, store, services, expirySetting, now).BadExpirySetting?
    ensures var r := Login(request, [], store, services, expirySetting, client, otp, freshToken, now);
            && r.status == 500
            && r.effects == [ResetFailedLoginAttempts(store.userByEmail(request.email).value.id)]
  {
    var outcome := LoginOutcomeOf(request, store, services, expirySetting, now);
    assert outcome.user == store.userByEmail(request.email).value;
    assert Login(request, [], store, services, expirySetting, client, otp, freshToken, now) == Refusal(outcome, request.email, client, otp, now);
  }

  /** A token is only ever issued on the LoggedIn path. */
  lemma LoginIssuesTokenOnlyOnSuccess(
      request: LoginRequest, loginProblem: seq<FieldErrors>, store: Store, services: Services, expirySetting: Option<string>,
      client: Client, otp: string, freshToken: string, now: Time)
    ensures var r := Login(request, loginProblem, store, services, expirySetting, client, otp, freshToken, now);
            TokensCreated(r.effects) != [] <==> loginProblem == [] && LoginOutcomeOf(request, store, services, expirySetting, now).LoggedIn?
  {
    var r := Login(request, loginProblem, store, services, expirySetting, client, otp, freshToken, now);
    var outcome := LoginOutcomeOf(request, store, services, expirySetting, now);
    if loginProblem != [] {
      assert r.effects == [];
    } else if outcome.LoggedIn? {
      LoginSuccess(request, store, services, expirySetting, client, otp, freshToken, now);
    } else {
      RefusedLoginIsTokenless(request, store, services, expirySetting, client, otp, freshToken, now);
    }
  }

  lemma RefusedLoginIsTokenless(
      request: LoginRequest, store: Store, services: Services, expirySetting: Option<string>,
      client: Client, otp: string, freshToken: string, now: Time)
    requires !LoginOutcomeOf(request, store, services, expirySetting, now).LoggedIn?
    ensures TokensCreated(Login(request, [], store, services, expirySetting, client, otp, freshToken, now).effects) == []
  {
    var outcome := LoginOutcomeOf(request, store, services, expirySetting, now);
    assert Login(request, [], store, services, expirySetting, client, otp, freshToken, now) == Refusal(outcome, request.email, client, otp, now);
    TokenlessEffects(Refusal(outcome, request.email, client, otp, now).effects);
  }

  // ------------------------------------------------------------ RefreshToken

  /** `POST refresh-token`.  `store.validateRefreshToken` is
      `sp_ValidateRefreshToken`, which alone decides what counts as valid. */
  function Refresh(token: Option<string>, store: Store, services: Services): (r: Reply)
    ensures r.effects == []
    ensures r.status == 400 <==> IsNullOrWhiteSpace(token)
    ensures r.status == 200 ==>
              && token.Some?
              && store.validateRefreshToken(token.value).Some?
              && store.userById(store.validateRefreshToken(token.value).value.userId).Some?
    ensures r.status in {200, 400, 401}
  {
    if IsNullOrWhiteSpace(token) then Reply(400, Message(TokenRequired), [])
    else match store.validateRefreshToken(token.value)
    case None => Reply(401, Message(BadRefreshToken), [])
    case Some(stored) =>
      match store.userById(stored.userId)
      case None => Reply(401, Message(UserNotFound), [])
      case Some(user) => Reply(200, Refreshed(services.accessToken(user), token.value), [])
  }

  /** No rotation: a refresh hands back the very token it was given, and the
      ledger is untouched whatever the outcome. */
  lemma RefreshKeepsToken(token: Option<string>, store: Store, services: Services, l: Ledger)
    ensures var r := Refresh(token, store, services);
            && (r.status == 200 ==> r.body.refreshToken == token.value)
            && Commit(l, r.effects) == l
  {
  }


  /** Conversely, a non-blank token that the store validates, for an account
      that still exists, is answered 200 with a fresh access token for that
      account and the same refresh token. */
  lemma RefreshSucceeds(token: Option<string>, store: Store, services: Services)
    requires !IsNullOrWhiteSpace(token)
    requires store.validateRefreshToken(token.value).Some?
    requires store.userById(store.validateRefreshToken(token.value).value.userId).Some?
    ensures var user := store.userById(store.validateRefreshToken(token.value).value.userId).value;
            Refresh(token, store, services) == Reply(200, Refreshed(services.accessToken(user), token.value), [])
  {
  }

  // ---------------------------------------------------------- ForgotPassword

  /** `POST forgot-password`.  The framework runs the reset request's
      validator before the action and answers a failure with its validation
      problem; `isEmailAddress` is that validator's `EmailAddress()` rule.
      The action's own test for a blank address therefore never fires. */
  function ForgotPassword(email: Option<string>, isEmailAddress: string -> bool, store: Store, client: Client,
                          otp: string, now: Time): (r: Reply)
    ensures r.status == 400 <==> ForgotPasswordValidator.Validate(email, isEmailAddress) != []
    ensures r.status == 400 ==> r == Reply(400, ValidationProblem(ForgotPasswordValidator.Problem(email, isEmailAddress)), [])
    ensures r.status != 400 ==> r.status == 200 && r.body == Message(ResetOtpSent)
    ensures r.effects != [] <==> ForgotPasswordValidator.Validate(email, isEmailAddress) == [] && store.userByEmail(email.value).Some?
    ensures r.body != Message(EmailRequired)
  {
    if ForgotPasswordValidator.Validate(email, isEmailAddress) != [] then
      Reply(400, ValidationProblem(ForgotPasswordValidator.Problem(email, isEmailAddress)), [])
    else if IsNullOrWhiteSpace(email) then Reply(400, Message(EmailRequired), [])
    else match store.userByEmail(email.value)
    case None => Reply(200, Message(ResetOtpSent), [])
    case Some(user) =>
      Reply(200, Message(ResetOtpSent),
            [ SetPasswordResetOtp(user.id, otp, now + OtpLifetime),
              LogAudit(Audit(Some(user.id), ResetRequested, client, NoDetails, true)),
              SendEmail(user.email, ResetMail(otp)) ])
  }

  /** The reply does not reveal whether an address is registered; only for
      a registered one is a reset passcode valid for fifteen minutes stored,
      mailed and audited. */
  lemma ForgotPasswordDoesNotEnumerate(email: string, isEmailAddress: string -> bool, known: Store, unknown: Store,
                                       client: Client, otp: string, now: Time)
    requires !AllWhiteSpace(email) && isEmailAddress(email)
    requires known.userByEmail(email).Some? && unknown.userByEmail(email).None?
    ensures var a := ForgotPassword(Some(email), isEmailAddress, known, client, otp, now);
            var b := ForgotPassword(Some(email), isEmailAddress, unknown, client, otp, now);
            var user := known.userByEmail(email).value;
            && a.status == b.status == 200 && a.body == b.body
            && b.effects == []
            && a.effects[0] == SetPasswordResetOtp(user.id, otp, now + 900)
            && AuditsLogged(a.effects) == [Audit(Some(user.id), ResetRequested, client, NoDetails, true)]
            && a.effects[2] == SendEmail(user.email, ResetMail(otp))
  {
    var es := ForgotPassword(Some(email), isEmailAddress, known, client, otp, now).effects;
    assert es[0..] == es && es[3..] == [];
    ProjectAt(es, 0); ProjectAt(es, 1); ProjectAt(es, 2);
  }

  // ----------------------------------------------------------- ResetPassword

  /** `POST reset-password`.  `store.verifyPasswordResetOtp` is
      `sp_VerifyPasswordResetOTP`.  A request that violates its data
      annotations is refused by the framework before the action runs, so the
      action's own test for blank fields never fires. */
  function ResetPassword(request: ResetRequest, isEmailAddress: string -> bool, store: Store, services: Services,
                         client: Client): (r: Reply)
    ensures !ResetAnnotationsHold(request, isEmailAddress) ==> r == Reply(400, Invalid, [])
    ensures r.status == 400 ==> r.effects == []
    ensures r.status == 200 <==>
              && ResetAnnotationsHold(request, isEmailAddress)
              && store.verifyPasswordResetOtp(request.email.value, request.otp.value)
              && store.userByEmail(request.email.value).Some?
    ensures r.status in {200, 400, 404}
    ensures r.body != Message(ResetFieldsRequired)
  {
    if !ResetAnnotationsHold(request, isEmailAddress) then Reply(400, Invalid, [])
    else if IsNullOrWhiteSpace(request.email) || IsNullOrWhiteSpace(request.otp) || IsNullOrWhiteSpace(request.newPassword) then
      Reply(400, Message(ResetFieldsRequired), [])
    else if !store.verifyPasswordResetOtp(request.email.value, request.otp.value) then
      Reply(400, Message(BadOtp), [])
    else match store.userByEmail(request.email.value)
    case None => Reply(404, Message(UserNotFound), [])
    case Some(user) =>
      Reply(200, Message(ResetDone),
            [ UpdatePassword(user.id, services.hash(request.newPassword.value)),
              LogAudit(Audit(Some(user.id), ResetSucceeded, client, NoDetails, true)) ])
  }

  /** A reset stores the hash of the new password for the account the email
      names, and nothing else is changed; every other outcome changes no
      password. */
  lemma ResetPasswordStoresNewHash(request: ResetRequest, isEmailAddress: string -> bool, store: Store,
                                   services: Services, client: Client)
    ensures var r := ResetPassword(request, isEmailAddress, store, services, client);
            && (r.status == 200 ==>
                  r.effects == [ UpdatePassword(store.userByEmail(request.email.value).value.id, services.hash(request.newPassword.value)),
                                 LogAudit(Audit(Some(store.userByEmail(request.email.value).value.id), ResetSucceeded, client, NoDetails, true)) ])
            && (r.status != 200 ==> r.effects == [])
  {
  }


  // ------------------------------------------------------------------ Logout

  /** `POST logout`.  `claim` is the caller's `NameIdentifier` claim. */
  function Logout(token: Option<string>, claim: Option<string>, client: Client): (r: Reply)
    ensures r.status == 400 <==> IsNullOrWhiteSpace(token)
    ensures r.status == 400 ==> r.effects == []
    ensures r.status != 400 ==>
              && r.status == 200 && 2 <= |r.effects| <= 3
              && r.effects[0] == RevokeRefreshToken(token.value) && r.effects[|r.effects| - 1] == DeleteRefreshCookie
  {
    if IsNullOrWhiteSpace(token) then Reply(400, Message(TokenRequired), [])
    else
      var audit := if claim.Some? && TryParseInt32(claim.value).Some?
                   then [LogAudit(Audit(Some(TryParseInt32(claim.value).value), LoggedOut, client, NoDetails, true))]
                   else [];
      Reply(200, Message(LoggedOutNote), [RevokeRefreshToken(token.value)] + audit + [DeleteRefreshCookie])
  }

  /** Logout revokes exactly the token given, creates none, and audits only
      when the caller's id claim is a number. */
  lemma LogoutRevokesGivenToken(token: string, claim: Option<string>, client: Client, l: Ledger)
    requires !AllWhiteSpace(token)
    ensures var r := Logout(Some(token), claim, client);
            && Commit(l, r.effects).revoked == l.revoked + {token}
            && Commit(l, r.effects).tokens == l.tokens
            && (|AuditsLogged(r.effects)| == 1 <==> claim.Some? && TryParseInt32(claim.value).Some?)
            && |AuditsLogged(r.effects)| <= 1
  {
    var es := Logout(Some(token), claim, client).effects;
    if claim.Some? && TryParseInt32(claim.value).Some? {
      var log := Audit(Some(TryParseInt32(claim.value).value), LoggedOut, client, NoDetails, true);
      assert es == [RevokeRefreshToken(token), LogAudit(log), DeleteRefreshCookie];
      AuditedLogoutProjections(token, log);
    } else {
      assert es == [RevokeRefreshToken(token), DeleteRefreshCookie];
      QuietLogoutProjections(token);
    }
    CommitAppends(l, es);
  }

  lemma AuditedLogoutProjections(token: string, log: AuditLog)
    ensures var es := [RevokeRefreshToken(token), LogAudit(log), DeleteRefreshCookie];
            Revoked(es) == {token} && TokensCreated(es) == [] && AuditsLogged(es) == [log]
  {
    var es := [RevokeRefreshToken(token), LogAudit(log), DeleteRefreshCookie];
    assert es[0..] == es && es[3..] == [];
    ProjectAt(es, 0); ProjectAt(es, 1); ProjectAt(es, 2);
  }

  lemma QuietLogoutProjections(token: string)
    ensures var es := [RevokeRefreshToken(token), DeleteRefreshCookie];
            Revoked(es) == {token} && TokensCreated(es) == [] && AuditsLogged(es) == []
  {
    var es := [RevokeRefreshToken(token), DeleteRefreshCookie];
    assert es[0..] == es && es[2..] == [];
    ProjectAt(es, 0); ProjectAt(es, 1);
  }

  // ---------------------------------------------------------- GetCurrentUser

  /** `GET me`. */
  function GetCurrentUser(claim: Option<string>, store: Store): (r: Reply)
    ensures r.effects == []
    ensures r.status == 401 <==> IsNullOrEmpty(claim) || TryParseInt32(claim.value).None?
    ensures r.status == 200 ==>
              && claim.Some? && TryParseInt32(claim.value).Some?
              && store.userById(TryParseInt32(claim.value).value).Some?
              && r.body.CurrentUser? && r.body.user == SummaryOf(store.userById(TryParseInt32(claim.value).value).value)
    ensures r.status in {200, 401, 404}
  {
    if IsNullOrEmpty(claim) || TryParseInt32(claim.value).None? then Reply(401, Message(InvalidToken), [])
    else match store.userById(TryParseInt32(claim.value).value)
    case None => Reply(404, Message(UserNotFound), [])
    case Some(user) => Reply(200, CurrentUser(SummaryOf(user), user.createdAt, user.lastLoginAt), [])
  }
}

=== FILE: auth_store.dfy ===
/** What the identity service's controllers see of their repository and
    services, and the writes they ask for.

    Every repository call is a stored procedure whose body is not part of
    this model, so each read is an unconstrained function in `Store`, and
    each write is an `Effect` an action returns, in the order it is made.
    The part of the state whose evolution the actions fully determine -- the
    refresh tokens created and revoked and the audit trail -- is the
    `Ledger`, which `Commit` advances. */
module AuthStore {
  import opened Wrappers
  import opened Users

  /** A refresh token as the controllers hand it to `CreateRefreshTokenAsync`,
      which stores the user id, the token value and the expiry. */
  datatype RefreshToken = RefreshToken(userId: int, token: string, expiresAt: Time)

  /** The `Action` column of an audit entry; `ActionName` gives the text
      stored. */
  datatype Action =
    | RegisteredOtpSent
    | EmailConfirmed
    | LoginFailed
    | LoginBlocked
    | LoginSucceeded
    | ResetRequested
    | ResetSucceeded
    | LoggedOut

  function ActionName(a: Action): string {
    match a
    case RegisteredOtpSent => "USER_REGISTERED_OTP_SENT"
    case EmailConfirmed => "EMAIL_VERIFIED"
    case LoginFailed => "LOGIN_FAILED"
    case LoginBlocked => "LOGIN_BLOCKED_LOCKOUT"
    case LoginSucceeded => "LOGIN_SUCCESS"
    case ResetRequested => "PASSWORD_RESET_REQUESTED"
    case ResetSucceeded => "PASSWORD_RESET_SUCCESS"
    case LoggedOut => "LOGOUT"
  }

  /** The free-text `Details` of an audit entry: none, "User not found: "
      followed by the address, "Invalid password", or the end of a lockout,
      kept as an instant rather than as its culture-dependent rendering. */
  datatype Details = NoDetails | UnknownAddress(email: string) | PasswordMismatch | LockedUntil(end: Time)

  /** An emailed passcode: the verification mail ("Verify Your Email") or
      the reset mail ("Password Reset OTP"), each saying the code expires in
      15 minutes. */
  datatype Mail = VerificationMail(otp: string) | ResetMail(otp: string)

  function Subject(m: Mail): string {
    match m
    case VerificationMail(_) => "Verify Your Email"
    case ResetMail(_) => "Password Reset OTP"
  }

  /** The HTML body of the mail. */
  function Html(m: Mail): string {
    match m
    case VerificationMail(otp) => "Your verification code is: <strong>" + otp + "</strong>. It expires in 15 minutes."
    case ResetMail(otp) => "Your password reset code is: <strong>" + otp + "</strong>. It expires in 15 minutes."
  }

  /** One `AuditLog` row as built by a controller; the id and timestamp are
      assigned by the store. */
  datatype AuditLog = AuditLog(
    userId: Option<int>,
    action: Action,
    ipAddress: Option<string>,
    userAgent: string,
    details: Details,
    success: bool)

  /** The caller's connection: `RemoteIpAddress?.ToString()` and the
      `User-Agent` header, which reads as "" when absent. */
  datatype Client = Client(ipAddress: Option<string>, userAgent: string)

  function Audit(userId: Option<int>, action: Action, client: Client, details: Details, success: bool): (a: AuditLog)
    ensures a.userId == userId && a.action == action && a.details == details && a.success == success
    ensures a.ipAddress == client.ipAddress && a.userAgent == client.userAgent
  {
    AuditLog(userId, action, client.ipAddress, client.userAgent, details, success)
  }

  /** A write requested from the repository, the mailer or the response
      cookies. */
  datatype Effect =
    | CreateUser(user: User)
    | SetEmailVerificationOtp(userId: int, otp: string, expiry: Time)
    | SendEmail(to: string, mail: Mail)
    | LogAudit(entry: AuditLog)
    | CreateRefreshToken(refreshToken: RefreshToken)
    | SetRefreshCookie(value: string, expires: Time)
    | RecordFailedLogin(email: string)
    | ResetFailedLoginAttempts(userId: int)
    | UpdateLastLogin(userId: int)
    | SetPasswordResetOtp(userId: int, otp: string, expiry: Time)
    | UpdatePassword(userId: int, passwordHash: string)
    | RevokeRefreshToken(token: string)
    | DeleteRefreshCookie
    | UpdateUser(user: User)
    | SaveFcmToken(userId: int, fcmToken: string)
    | UpdateUserRole(userId: int, role: string)
    | DeactivateUser(userId: int)

  /** The repository's reads, each an arbitrary function: the stored
      procedures decide what they return.  `createUser` is the new id that
      `sp_CreateUser` reports, -1 when the email is taken. */
  datatype Store = Store(
    userByEmail: string -> Option<User>,
    userById: int -> Option<User>,
    createUser: User -> int,
    verifyEmailOtp: (string, string) -> Option<User>,
    validateRefreshToken: string -> Option<RefreshToken>,
    verifyPasswordResetOtp: (string, string) -> bool,
    updateUser: User -> bool,
    updateUserRole: (int, string) -> bool,
    deleteUser: int -> bool,
    allUsers: seq<User>)

  /** The password hasher and the token issuer, whose cryptography is not
      part of this model. */
  datatype Services = Services(
    hash: string -> string,
    verify: (string, string) -> bool,
    accessToken: User -> string)

  /** Refresh tokens issued, token values revoked, and the audit trail. */
  datatype Ledger = Ledger(tokens: seq<RefreshToken>, revoked: set<string>, audit: seq<AuditLog>)

  function TokenOf(e: Effect): seq<RefreshToken> {
    if e.CreateRefreshToken? then [e.refreshToken] else []
  }

  function AuditOf(e: Effect): seq<AuditLog> {
    if e.LogAudit? then [e.entry] else []
  }

  function RevokedBy(e: Effect): set<string> {
    if e.RevokeRefreshToken? then {e.token} else {}
  }

  /** The refresh tokens a list of effects creates, in order. */
  function TokensCreated(effects: seq<Effect>): (created: seq<RefreshToken>)
    ensures |created| <= |effects|
  {
    if effects == [] then [] else TokenOf(effects[0]) + TokensCreated(effects[1..])
  }

  /** The audit entries a list of effects appends, in order. */
  function AuditsLogged(effects: seq<Effect>): (logged: seq<AuditLog>)
    ensures |logged| <= |effects|
  {
    if effects == [] then [] else AuditOf(effects[0]) + AuditsLogged(effects[1..])
  }

  /** The token values a list of effects revokes. */
  function Revoked(effects: seq<Effect>): set<string> {
    if effects == [] then {} else RevokedBy(effects[0]) + Revoked(effects[1..])
  }

  /** One step of each projection at position `k` of a list. */
  lemma ProjectAt(effects: seq<Effect>, k: nat)
    requires k < |effects|
    ensures TokensCreated(effects[k..]) == TokenOf(effects[k]) + TokensCreated(effects[k + 1..])
    ensures AuditsLogged(effects[k..]) == AuditOf(effects[k]) + AuditsLogged(effects[k + 1..])
    ensures Revoked(effects[k..]) == RevokedBy(effects[k]) + Revoked(effects[k + 1..])
  {
    assert effects[k..][1..] == effects[k + 1..];
  }

  /** Effects that neither create a token nor log leave both projections
      empty. */
  lemma {:induction false} QuietEffects(effects: seq<Effect>)
    requires forall k | 0 <= k < |effects| :: !effects[k].CreateRefreshToken? && !effects[k].LogAudit?
    ensures TokensCreated(effects) == [] && AuditsLogged(effects) == []
  {
    if effects != [] {
      QuietEffects(effects[1..]);
    }
  }

  /** Effects that create no token leave the token projection empty. */
  lemma {:induction false} TokenlessEffects(effects: seq<Effect>)
    requires forall k | 0 <= k < |effects| :: !effects[k].CreateRefreshToken?
    ensures TokensCreated(effects) == []
  {
    if effects != [] {
      TokenlessEffects(effects[1..]);
    }
  }

  /** The three projections pick out exactly the matching effects. */
  lemma {:induction false} ProjectionsAreExact(effects: seq<Effect>)
    ensures forall t :: t in TokensCreated(effects) <==> CreateRefreshToken(t) in effects
    ensures forall a :: a in AuditsLogged(effects) <==> LogAudit(a) in effects
    ensures forall v :: v in Revoked(effects) <==> RevokeRefreshToken(v) in effects
  {
    if effects != [] {
      ProjectionsAreExact(effects[1..]);
      assert forall e :: e in effects <==> e == effects[0] || e in effects[1..];
    }
  }

  function Step(l: Ledger, e: Effect): Ledger {
    match e
    case CreateRefreshToken(t) => l.(tokens := l.tokens + [t])
    case RevokeRefreshToken(v) => l.(revoked := l.revoked + {v})
    case LogAudit(a) => l.(audit := l.audit + [a])
    case _ => l
  }

  /** The ledger after the effects, applied one after another. */
  function Commit(l: Ledger, effects: seq<Effect>): Ledger
    decreases |effects|
  {
    if effects == [] then l else Commit(Step(l, effects[0]), effects[1..])
  }

  /** Committing appends the created tokens and the logged entries and adds
      the revoked values; nothing already recorded is lost. */
  lemma CommitAppends(l: Ledger, effects: seq<Effect>)
    ensures Commit(l, effects).tokens == l.tokens + TokensCreated(effects)
    ensures Commit(l, effects).audit == l.audit + AuditsLogged(effects)
    ensures Commit(l, effects).revoked == l.revoked + Revoked(effects)
  {
    CommitTokens(l, effects);
    CommitAudit(l, effects);
    CommitRevoked(l, effects);
  }

  lemma {:induction false} CommitTokens(l: Ledger, effects: seq<Effect>)
    ensures Commit(l, effects).tokens == l.tokens + TokensCreated(effects)
    decreases |effects|
  {
    if effects != [] {
      var e := effects[0];
      CommitTokens(Step(l, e), effects[1..]);
      var rest := TokensCreated(effects[1..]);
      if e.CreateRefreshToken? {
        assert TokensCreated(effects) == [e.refreshToken] + rest;
        assert l.tokens + [e.refreshToken] + rest == l.tokens + ([e.refreshToken] + rest);
      } else {
        assert TokensCreated(effects) == rest;
        assert Step(l, e).tokens == l.tokens;
      }
    }
  }

  lemma {:induction false} CommitAudit(l: Ledger, effects: seq<Effect>)
    ensures Commit(l, effects).audit == l.audit + AuditsLogged(effects)
    decreases |effects|
  {
    if effects != [] {
      var e := effects[0];
      CommitAudit(Step(l, e), effects[1..]);
      var rest := AuditsLogged(effects[1..]);
      if e.LogAudit? {
        assert AuditsLogged(effects) == [e.entry] + rest;
        assert l.audit + [e.entry] + rest == l.audit + ([e.entry] + rest);
      } else {
        assert AuditsLogged(effects) == rest;
        assert Step(l, e).audit == l.audit;
      }
    }
  }

  lemma {:induction false} CommitRevoked(l: Ledger, effects: seq<Effect>)
    ensures Commit(l, effects).revoked == l.revoked + Revoked(effects)
    decreases |effects|
  {
    if effects != [] {
      var e := effects[0];
      CommitRevoked(Step(l, e), effects[1..]);
      if e.RevokeRefreshToken? {
        assert Revoked(effects) == {e.token} + Revoked(effects[1..]);
      } else {
        assert Revoked(effects) == Revoked(effects[1..]);
        assert Step(l, e).revoked == l.revoked;
      }
    }
  }

  /** Whatever an action asks for, the audit trail and the issued tokens only
      grow: every earlier entry keeps its place. */
  lemma LedgerIsAppendOnly(l: Ledger, effects: seq<Effect>)
    ensures l.audit <= Commit(l, effects).audit
    ensures l.tokens <= Commit(l, effects).tokens
    ensures l.revoked <= Commit(l, effects).revoked
  {
    CommitAppends(l, effects);
  }

  /** Effects are applied in order: committing a concatenation is committing
      its parts one after the other. */
  lemma {:induction false} CommitConcat(l: Ledger, a: seq<Effect>, b: seq<Effect>)
    ensures Commit(l, a + b) == Commit(Commit(l, a), b)
    decreases |a|
  {
    if a != [] {
      assert (a + b)[0] == a[0] && (a + b)[1..] == a[1..] + b;
      CommitConcat(Step(l, a[0]), a[1..], b);
    } else {
      assert a + b == b;
    }
  }
}

=== FILE: decimal.dfy ===
/** Decimal numerals: the value of a digit string, `ToString()` of a
    non-negative integer, and `int.Parse` / `int.TryParse` with the default
    `NumberStyles.Integer` (surrounding white space, one optional sign, ASCII
    digits, a value that fits in 32 bits, and a run of '\0' characters at
    the very end, which the .NET number parser skips as trailing zeros). */
module Decimal {
  import opened Wrappers
  import opened Text

  const Int32Min: int := -0x8000_0000
  const Int32Max: int := 0x7FFF_FFFF

  predicate IsInt32(n: int) {
    Int32Min <= n <= Int32Max
  }

  function Pow10(n: nat): (p: nat)
    ensures p >= 1
  {
    if n == 0 then 1 else 10 * Pow10(n - 1)
  }

  predicate AllDigits(s: string) {
    forall i | 0 <= i < |s| :: IsAsciiDigit(s[i])
  }

  function DigitChar(d: nat): (c: char)
    requires d < 10
    ensures IsAsciiDigit(c)
  {
    ('0' as int + d) as char
  }

  function DigitValue(c: char): (d: nat)
    requires IsAsciiDigit(c)
    ensures d < 10
  {
    c as int - '0' as int
  }

  /** The number a string of decimal digits denotes, most significant first. */
  function DecimalValue(s: string): nat
    requires AllDigits(s)
  {
    if s == [] then 0 else DecimalValue(s[..|s| - 1]) * 10 + DigitValue(s[|s| - 1])
  }

  /** `uint.ToString()`: the shortest decimal numeral, "0" for zero. */
  function ToDecimal(n: nat): (s: string)
    ensures AllDigits(s) && |s| >= 1
    ensures DecimalValue(s) == n
    ensures |s| > 1 ==> s[0] != '0'
  {
    if n < 10 then [DigitChar(n)]
    else
      var prefix := ToDecimal(n / 10);
      var s := prefix + [DigitChar(n % 10)];
      assert s[..|s| - 1] == prefix;
      s
  }

  lemma AllDigitsAppend(a: string, b: string)
    requires AllDigits(a) && AllDigits(b)
    ensures AllDigits(a + b)
  {
    var ab := a + b;
    forall i | 0 <= i < |ab| ensures IsAsciiDigit(ab[i]) {
      if i < |a| { assert ab[i] == a[i]; } else { assert ab[i] == b[i - |a|]; }
    }
  }

  lemma ShiftStep(x: int, p: int, y: int, d: int)
    ensures (x * p + y) * 10 + d == x * (p * 10) + (y * 10 + d)
  {
  }

  /** Appending digits shifts the value of the prefix. */
  lemma {:induction false} DecimalValueAppend(a: string, b: string)
    requires AllDigits(a) && AllDigits(b)
    ensures AllDigits(a + b)
    ensures DecimalValue(a + b) == DecimalValue(a) * Pow10(|b|) + DecimalValue(b)
  {
    AllDigitsAppend(a, b);
    var ab := a + b;
    if b != [] {
      var b', d := b[..|b| - 1], DigitValue(b[|b| - 1]);
      assert AllDigits(b');
      assert ab[..|ab| - 1] == a + b';
      assert ab[|ab| - 1] == b[|b| - 1];
      DecimalValueAppend(a, b');
      assert DecimalValue(ab) == DecimalValue(a + b') * 10 + d;
      assert DecimalValue(b) == DecimalValue(b') * 10 + d;
      assert Pow10(|b|) == Pow10(|b'|) * 10;
      ShiftStep(DecimalValue(a), Pow10(|b'|), DecimalValue(b'), d);
    } else {
      assert ab == a;
    }
  }

  /** A number below 10^k has a numeral of at most k digits. */
  lemma {:induction false} DecimalLength(n: nat, k: nat)
    requires k >= 1 && n < Pow10(k)
    ensures |ToDecimal(n)| <= k
  {
    if n >= 10 {
      assert k >= 2;
      assert n / 10 < Pow10(k - 1);
      DecimalLength(n / 10, k - 1);
    }
  }

  /** Two numerals of the same width and value are the same string: the
      padded passcode is the only `length`-digit spelling of its value. */
  lemma {:induction false} FixedWidthUnique(a: string, b: string)
    requires AllDigits(a) && AllDigits(b) && |a| == |b|
    requires DecimalValue(a) == DecimalValue(b)
    ensures a == b
  {
    if a != [] {
      var a', b' := a[..|a| - 1], b[..|b| - 1];
      LastDigit(a);
      LastDigit(b);
      FixedWidthUnique(a', b');
      assert a == a' + [a[|a| - 1]] && b == b' + [b[|b| - 1]];
      assert DigitValue(a[|a| - 1]) == DigitValue(b[|b| - 1]);
    }
  }

  /** The last digit of a numeral is its value modulo ten, the rest its
      quotient. */
  lemma LastDigit(s: string)
    requires AllDigits(s) && s != []
    ensures DecimalValue(s) % 10 == DigitValue(s[|s| - 1])
    ensures DecimalValue(s) / 10 == DecimalValue(s[..|s| - 1])
  {
    var n, q, d := DecimalValue(s), DecimalValue(s[..|s| - 1]), DigitValue(s[|s| - 1]);
    assert n == q * 10 + d;
    DivModTen(n, q, d);
  }

  lemma DivModTen(n: int, q: int, d: int)
    requires 0 <= d < 10 && n == q * 10 + d
    ensures n % 10 == d && n / 10 == q
  {
  }

  /** The white space `NumberStyles.Integer` skips around a number:
      U+0009..U+000D and U+0020. */
  predicate IsNumberSpace(c: char) {
    ('\t' <= c <= '\r') || c == ' '
  }

  function StripLeading(s: string): string {
    if s != [] && IsNumberSpace(s[0]) then StripLeading(s[1..]) else s
  }

  /** `StripLeading` removes exactly the leading run of number white space. */
  lemma {:induction false} StripLeadingSpec(s: string)
    ensures var r := StripLeading(s);
            && |r| <= |s| && r == s[|s| - |r|..]
            && (r == [] || !IsNumberSpace(r[0]))
            && forall i | 0 <= i < |s| - |r| :: IsNumberSpace(s[i])
  {
    if s != [] && IsNumberSpace(s[0]) {
      StripLeadingSpec(s[1..]);
      var r := StripLeading(s[1..]);
      assert forall i | 1 <= i < |s| - |r| :: s[i] == s[1..][i - 1];
    }
  }

  function StripTrailing(s: string): string {
    if s != [] && IsNumberSpace(s[|s| - 1]) then StripTrailing(s[..|s| - 1]) else s
  }

  /** `StripTrailing` removes exactly the trailing run of number white space. */
  lemma {:induction false} StripTrailingSpec(s: string)
    ensures var r := StripTrailing(s);
            && |r| <= |s| && r == s[..|r|]
            && (r == [] || !IsNumberSpace(r[|r| - 1]))
            && forall i | |r| <= i < |s| :: IsNumberSpace(s[i])
  {
    if s != [] && IsNumberSpace(s[|s| - 1]) {
      StripTrailingSpec(s[..|s| - 1]);
      var r := StripTrailing(s[..|s| - 1]);
      assert forall i | |r| <= i < |s| - 1 :: s[i] == s[..|s| - 1][i];
    }
  }

  /** After the trailing white space .NET also skips a final run of '\0'
      characters, and nothing else. */
  function StripTrailingNul(s: string): string {
    if s != [] && s[|s| - 1] == '\0' then StripTrailingNul(s[..|s| - 1]) else s
  }

  /** `StripTrailingNul` removes exactly the final run of '\0'. */
  lemma {:induction false} StripTrailingNulSpec(s: string)
    ensures var r := StripTrailingNul(s);
            && |r| <= |s| && r == s[..|r|]
            && (r == [] || r[|r| - 1] != '\0')
            && forall i | |r| <= i < |s| :: s[i] == '\0'
  {
    if s != [] && s[|s| - 1] == '\0' {
      StripTrailingNulSpec(s[..|s| - 1]);
      var r := StripTrailingNul(s[..|s| - 1]);
      assert forall i | |r| <= i < |s| - 1 :: s[i] == s[..|s| - 1][i];
    }
  }

  /** The signed value a trimmed numeral denotes, if it is one: an optional
      '+' or '-' followed by at least one ASCII digit. */
  function SignedValue(t: string): Option<int> {
    if t == [] then None
    else if t[0] == '-' || t[0] == '+' then
      var digits := t[1..];
      if digits == [] || !AllDigits(digits) then None
      else if t[0] == '-' then Some(-(DecimalValue(digits) as int))
      else Some(DecimalValue(digits))
    else if AllDigits(t) then Some(DecimalValue(t))
    else None
  }

  /** `int.TryParse(s, out n)`: `Some(n)` on success.  `int.Parse(s)`
      accepts the same strings and throws where this gives `None`. */
  function TryParseInt32(s: string): (r: Option<int>)
    ensures r.Some? ==> IsInt32(r.value)
  {
    var v := SignedValue(StripTrailing(StripTrailingNul(StripLeading(s))));
    if v.Some? && IsInt32(v.value) then v else None
  }

  /** `n.ToString()` for a 32-bit integer. */
  function FormatInt32(n: int): (s: string)
    requires IsInt32(n)
    ensures |s| > 0
  {
    if n < 0 then "-" + ToDecimal(-n) else ToDecimal(n)
  }

  /** Parsing reads back what formatting wrote. */
  lemma ParseFormatRoundTrip(n: int)
    requires IsInt32(n)
    ensures TryParseInt32(FormatInt32(n)) == Some(n)
  {
    var s := FormatInt32(n);
    assert s[0] == '-' || IsAsciiDigit(s[0]);
    assert IsAsciiDigit(s[|s| - 1]);
    assert StripLeading(s) == s;
    assert StripTrailingNul(s) == s;
    assert StripTrailing(s) == s;
    if n < 0 {
      assert s[1..] == ToDecimal(-n);
    }
  }

  /** A plain run of digits parses to its value when that fits in 32 bits,
      and to nothing otherwise. */
  lemma ParseDigits(s: string)
    requires |s| > 0 && AllDigits(s)
    ensures TryParseInt32(s) == if DecimalValue(s) <= Int32Max then Some(DecimalValue(s)) else None
  {
    assert IsAsciiDigit(s[0]) && IsAsciiDigit(s[|s| - 1]);
    assert StripLeading(s) == s;
    assert StripTrailingNul(s) == s;
    assert StripTrailing(s) == s;
    assert SignedValue(s) == Some(DecimalValue(s));
  }

  /** A string holding a character that is neither a digit, a sign nor
      number white space never parses, unless it is a '\0' of the final
      run of them. */
  lemma ParseRejectsForeign(s: string, i: nat)
    requires i < |s| && !IsAsciiDigit(s[i]) && !IsNumberSpace(s[i]) && s[i] !in "+-"
    requires s[i] != '\0' || exists k | i < k < |s| :: s[k] != '\0'
    ensures TryParseInt32(s).None?
  {
    var l := StripLeading(s);
    var n := StripTrailingNul(l);
    var t := StripTrailing(n);
    StripLeadingSpec(s);
    StripTrailingNulSpec(l);
    StripTrailingSpec(n);
    var j := i - (|s| - |l|);
    assert 0 <= j < |l| && l[j] == s[i];
    assert j < |n| by {
      if s[i] == '\0' {
        var k :| i < k < |s| && s[k] != '\0';
        assert l[k - (|s| - |l|)] == s[k];
      }
    }
    assert 0 <= j < |t| && t[j] == s[i];
    if t[0] in "+-" {
      assert t[1..][j - 1] == t[j];
    }
  }

  predicate AllNul(z: string) {
    forall i | 0 <= i < |z| :: z[i] == '\0'
  }

  lemma {:induction false} StripTrailingNulAppend(s: string, z: string)
    requires AllNul(z)
    ensures StripTrailingNul(s + z) == StripTrailingNul(s)
  {
    if z != [] {
      assert (s + z)[..|s + z| - 1] == s + z[..|z| - 1];
      StripTrailingNulAppend(s, z[..|z| - 1]);
    } else {
      assert s + z == s;
    }
  }

  lemma {:induction false} StripLeadingAppend(s: string, z: string)
    requires AllNul(z)
    ensures StripLeading(s + z) == StripLeading(s) + z
  {
    if s != [] && IsNumberSpace(s[0]) {
      assert (s + z)[1..] == s[1..] + z;
      StripLeadingAppend(s[1..], z);
    } else if s == [] {
      assert s + z == z;
      if z != [] { assert !IsNumberSpace(z[0]); }
    }
  }

  /** A run of '\0' appended to any text does not change what it parses to. */
  lemma TrailingNulsIgnored(s: string, z: string)
    requires AllNul(z)
    ensures TryParseInt32(s + z) == TryParseInt32(s)
  {
    StripLeadingAppend(s, z);
    StripTrailingNulAppend(StripLeading(s), z);
  }
}

=== FILE: forgot_password_validator.dfy ===
/** The rule set applied to a password-reset request: the address must not
    be empty and must look like an address.  Both rules are evaluated and
    each failure is reported, with the same messages as the registration
    rules for the email. */
module ForgotPasswordValidator {
  import opened Wrappers
  import opened Text
  import opened Validation
  import opened RegisterValidator

  /** `ForgotPasswordRequestValidator`: `NotEmpty()`, then `EmailAddress()`,
      which skips null. */
  function Validate(email: Option<string>, isEmailAddress: string -> bool): (errors: seq<RegisterError>)
    ensures (EmailRequired in errors) <==> !NotEmpty(email)
    ensures (EmailInvalid in errors) <==> (email.Some? && !isEmailAddress(email.value))
    ensures errors == [] <==> NotEmpty(email) && isEmailAddress(email.value)
    ensures forall e | e in errors :: e == EmailRequired || e == EmailInvalid
  {
    Check(NotEmpty(email), EmailRequired) + Check(NullOr(email, isEmailAddress), EmailInvalid)
  }

  /** The validation problem the framework answers with: at most one entry,
      for the `Email` property. */
  function Problem(email: Option<string>, isEmailAddress: string -> bool): (entries: seq<FieldErrors>)
    ensures entries == [] <==> NotEmpty(email) && isEmailAddress(email.value)
    ensures entries != [] ==> entries == [FieldErrors("Email", Messages(Validate(email, isEmailAddress)))]
  {
    Entry("Email", Messages(Validate(email, isEmailAddress)))
  }

  /** The reset rules are the registration rules for the email without the
      length limit: registration reports the same errors, followed by the
      length error when the address is over 100 code units. */
  lemma RegistrationAddsOnlyTheLengthRule(email: Option<string>, isEmailAddress: string -> bool)
    ensures EmailErrors(email, isEmailAddress)
         == Validate(email, isEmailAddress)
            + (if email.Some? && Utf16Length(email.value) > MaxEmailLength then [EmailTooLong] else [])
  {
  }

  /** So an address registration accepts is accepted here, and the two
      agree on every address of at most 100 code units. */
  lemma RegisteredAddressesPass(email: Option<string>, isEmailAddress: string -> bool)
    ensures EmailErrors(email, isEmailAddress) == [] ==> Validate(email, isEmailAddress) == []
    ensures email.Some? && Utf16Length(email.value) <= MaxEmailLength ==>
              (EmailErrors(email, isEmailAddress) == [] <==> Validate(email, isEmailAddress) == [])
  {
    RegistrationAddsOnlyTheLengthRule(email, isEmailAddress);
  }
}

=== FILE: forms.dfy ===
/** What the catalogue controllers receive in a multipart form besides plain
    text: uploaded files and JSON-encoded members. */
module Forms {
  /** An uploaded `IFormFile`: its name and its length in bytes.  Its
      content matters only to the storage service, which is not part of this
      model. */
  datatype FormFile = FormFile(fileName: string, length: nat)

  /** The outcome of `JsonSerializer.Deserialize<T>(text)`: malformed text
      throws, the literal `null` yields null, anything else a value. */
  datatype Json<T> = Malformed | JsonNull | Parsed(value: T)

  /** A value together with the writes made while computing it. */
  datatype Staged<T, E> = Staged(value: T, effects: seq<E>)
}

=== FILE: orders.dfy ===
/** The order service's one action (`OrdersController.CreateOrder`): the
    request's annotation checks, the empty-order gate, the mapping of the
    request onto an `Order`, and the two calls that follow -- the
    repository's create and the logistics notification.

    Money is kept in whole cents.  The repository's answer is `Some(id)` or
    `None` when it throws, the gateway's is whether it returned normally. */
module Orders {
  import opened Wrappers
  import opened Text
  import Decimal

  const EmptyOrder := "EMPTY_ORDER"
  const EmptyOrderMessage := "Order must contain at least one item."
  const InternalError := "INTERNAL_ERROR"
  const InternalErrorMessage := "An error occurred while processing the order."
  const CreatedStatus := "Created"
  /** The status a new `Order` carries before the store sees it. */
  const ReceivedStatus := "Received"

  /** One line of the request; an absent `ProductId` is null. */
  datatype ItemRequest = ItemRequest(productId: Option<string>, quantity: int, unitPriceCents: int)

  /** The request body; `RequestId` is the idempotency key.  A line that is
      a JSON `null` is `None`. */
  datatype OrderRequest = OrderRequest(
    customerId: int,
    totalAmountCents: int,
    requestId: string,
    items: Option<seq<Option<ItemRequest>>>)

  /** The entities; the ids are 0 until the store assigns them. */
  datatype OrderItem = OrderItem(id: int, orderId: int, productId: string, quantity: int, unitPriceCents: int)

  datatype Order = Order(
    id: int,
    customerId: int,
    totalAmountCents: int,
    requestId: string,
    status: string,
    items: seq<OrderItem>)

  // ---- Annotation checks ----

  datatype Field = ItemsField | ProductIdField | QuantityField | UnitPriceField

  /** A model-state entry: the member it is about, with the item's index for
      the item members. */
  datatype FieldError = FieldError(index: Option<nat>, field: Field)

  /** `[Required]` on `ProductId` refuses null, empty and blank;
      `[Range(1, int.MaxValue)]` bounds the quantity; `[Range(0.01, …)]` is
      at least one cent. */
  predicate ValidItem(item: ItemRequest) {
    && !IsNullOrWhiteSpace(item.productId)
    && 1 <= item.quantity <= Decimal.Int32Max
    && item.unitPriceCents >= 1
  }

  function ItemErrors(k: nat, item: ItemRequest): (errors: seq<FieldError>)
    ensures errors == [] <==> ValidItem(item)
    ensures forall e | e in errors :: e.index == Some(k) && e.field != ItemsField
  {
    (if IsNullOrWhiteSpace(item.productId) then [FieldError(Some(k), ProductIdField)] else [])
    + (if 1 <= item.quantity <= Decimal.Int32Max then [] else [FieldError(Some(k), QuantityField)])
    + (if item.unitPriceCents >= 1 then [] else [FieldError(Some(k), UnitPriceField)])
  }

  /** Validation skips a null line: it has no members to check. */
  predicate ValidLine(line: Option<ItemRequest>) {
    line.None? || ValidItem(line.value)
  }

  /** The errors of the lines from position `k` on, in order; a null line
      contributes none. */
  function ItemsErrors(items: seq<Option<ItemRequest>>, k: nat): seq<FieldError>
    requires k <= |items|
    decreases |items| - k
  {
    if k == |items| then []
    else if items[k].None? then ItemsErrors(items, k + 1)
    else ItemErrors(k, items[k].value) + ItemsErrors(items, k + 1)
  }

  /** The model state's errors: `[Required]` on `Items` refuses only null;
      the members of the other required value types are always present. */
  function ModelErrors(request: OrderRequest): seq<FieldError> {
    match request.items
    case None => [FieldError(None, ItemsField)]
    case Some(items) => ItemsErrors(items, 0)
  }

  predicate IsValid(request: OrderRequest) {
    ModelErrors(request) == []
  }

  lemma {:induction false} ItemsErrorsEmpty(items: seq<Option<ItemRequest>>, k: nat)
    requires k <= |items|
    ensures ItemsErrors(items, k) == [] <==> forall j | k <= j < |items| :: ValidLine(items[j])
    decreases |items| - k
  {
    if k < |items| {
      ItemsErrorsEmpty(items, k + 1);
      if items[k].Some? {
        var head, tail := ItemErrors(k, items[k].value), ItemsErrors(items, k + 1);
        assert ItemsErrors(items, k) == head + tail;
        assert head + tail == [] <==> head == [] && tail == [] by {
          if head != [] { assert |head + tail| > 0; }
        }
      }
    }
  }

  /** The model state is valid exactly when the item list is present and
      every line is null or a valid item; an empty list is valid. */
  lemma ValidityIsPerItem(request: OrderRequest)
    ensures IsValid(request) <==> request.items.Some? && forall j | 0 <= j < |request.items.value| :: ValidLine(request.items.value[j])
  {
    if request.items.Some? {
      ItemsErrorsEmpty(request.items.value, 0);
    }
  }

  /** An empty item list passes the annotations; only the controller's own
      check refuses it. */
  lemma EmptyItemsPassAnnotations(request: OrderRequest)
    requires request.items == Some([])
    ensures IsValid(request)
  {
  }

  /** Some error in `errors` is about the item at index `j`. */
  predicate Names(errors: seq<FieldError>, j: nat) {
    errors != [] && (errors[0].index == Some(j) || Names(errors[1..], j))
  }

  lemma {:induction false} NamesIsSome(errors: seq<FieldError>, j: nat)
    ensures Names(errors, j) <==> exists e | e in errors :: e.index == Some(j)
  {
    if errors != [] {
      NamesIsSome(errors[1..], j);
      assert errors == [errors[0]] + errors[1..];
    }
  }

  lemma {:induction false} NamesAppend(a: seq<FieldError>, b: seq<FieldError>, j: nat)
    ensures Names(a + b, j) <==> Names(a, j) || Names(b, j)
  {
    if a != [] {
      NamesAppend(a[1..], b, j);
      assert (a + b)[1..] == a[1..] + b;
    } else {
      assert a + b == b;
    }
  }

  lemma ItemErrorsName(k: nat, item: ItemRequest, j: nat)
    ensures Names(ItemErrors(k, item), j) <==> k == j && !ValidItem(item)
  {
    NamesIsSome(ItemErrors(k, item), j);
    var errors := ItemErrors(k, item);
    if k == j && !ValidItem(item) {
      assert errors[0] in errors;
    }
  }

  /** Each error names a line that exists, and a line is named exactly
      when it is an invalid item. */
  lemma {:induction false} ItemsErrorsName(items: seq<Option<ItemRequest>>, k: nat, j: nat)
    requires k <= |items| && j < |items|
    ensures Names(ItemsErrors(items, k), j) <==> k <= j && !ValidLine(items[j])
    decreases |items| - k
  {
    if k == |items| {
      assert ItemsErrors(items, k) == [];
    } else {
      ItemsErrorsName(items, k + 1, j);
      if items[k].Some? {
        ItemLineNames(items, k, j);
      } else {
        assert ItemsErrors(items, k) == ItemsErrors(items, k + 1);
      }
    }
  }

  /** The errors from a non-null line `k` on name item `j` when the line's
      own errors do or those of the later lines do. */
  lemma ItemLineNames(items: seq<Option<ItemRequest>>, k: nat, j: nat)
    requires k < |items| && items[k].Some?
    ensures Names(ItemsErrors(items, k), j) <==> (k == j && !ValidItem(items[k].value)) || Names(ItemsErrors(items, k + 1), j)
  {
    var head, tail := ItemErrors(k, items[k].value), ItemsErrors(items, k + 1);
    assert ItemsErrors(items, k) == head + tail;
    ItemErrorsName(k, items[k].value, j);
    NamesAppend(head, tail, j);
  }

  // ---- Mapping ----

  function ToItem(item: ItemRequest): (r: OrderItem)
    ensures r.id == 0 && r.orderId == 0
  {
    OrderItem(0, 0, item.productId.GetOr(""), item.quantity, item.unitPriceCents)
  }

  predicate NoNullLine(items: seq<Option<ItemRequest>>) {
    forall j | 0 <= j < |items| :: items[j].Some?
  }

  /** The item list is present and has no null line: the mapping, which
      reads the members of every line, completes. */
  predicate Mappable(request: OrderRequest) {
    request.items.Some? && NoNullLine(request.items.value)
  }

  /** `Items.Select(...)`: one entity per line, in order. */
  function ToItems(items: seq<Option<ItemRequest>>): (r: seq<OrderItem>)
    requires NoNullLine(items)
    ensures |r| == |items|
    ensures forall j | 0 <= j < |items| :: r[j] == ToItem(items[j].value)
  {
    if items == [] then [] else [ToItem(items[0].value)] + ToItems(items[1..])
  }

  function ToOrder(request: OrderRequest): (order: Order)
    requires Mappable(request)
    ensures order.id == 0 && order.status == ReceivedStatus
    ensures order.customerId == request.customerId
    ensures order.totalAmountCents == request.totalAmountCents
    ensures order.requestId == request.requestId
  {
    Order(0, request.customerId, request.totalAmountCents, request.requestId, ReceivedStatus, ToItems(request.items.value))
  }

  /** The request line an order item came from, as far as the item keeps it. */
  function FromItem(item: OrderItem): ItemRequest {
    ItemRequest(Some(item.productId), item.quantity, item.unitPriceCents)
  }

  /** For valid lines the mapping loses nothing: reading the entities back
      gives the request's lines. */
  lemma MappingRoundTrip(request: OrderRequest)
    requires Mappable(request) && IsValid(request)
    ensures |ToOrder(request).items| == |request.items.value|
    ensures forall j | 0 <= j < |request.items.value| :: FromItem(ToOrder(request).items[j]) == request.items.value[j].value
  {
    ValidityIsPerItem(request);
  }

  // ---- The action ----

  datatype Effect = CreateOrder(order: Order) | NotifyLogistics(orderId: int)

  datatype Body =
    | NoBody
    | Invalid
    | Error(errorCode: string, message: string)
    | Created(orderId: int, status: string)

  datatype Reply = Reply(status: int, body: Body, effects: seq<Effect>)

  /** The repository's `CreateOrderAsync` (the new id, or the existing one
      for a repeated request id; `None` when it throws) and whether the
      logistics call returns normally. */
  datatype Services = Services(create: Order -> Option<int>, notify: int -> bool)

  /** The host's answer to an exception that escapes the action. */
  const Unhandled := Reply(500, NoBody, [])

  /** `POST`.  A null line passes the annotations and the empty-order check,
      then the mapping dereferences it before the `try`: the exception
      escapes and nothing is written. */
  function CreateOrderAction(request: OrderRequest, services: Services): (r: Reply)
    ensures !IsValid(request) ==> r == Reply(400, Invalid, [])
    ensures IsValid(request) && request.items == Some([]) ==> r == Reply(400, Error(EmptyOrder, EmptyOrderMessage), [])
    ensures r.status in {200, 400, 500}
    ensures r.status == 400 <==> !IsValid(request) || request.items == Some([])
    ensures r.status != 400 && !Mappable(request) ==> r == Unhandled
    ensures r.effects != [] <==> r.status != 400 && Mappable(request)
    ensures r.status != 400 && Mappable(request) ==> r.effects[0] == CreateOrder(ToOrder(request))
    ensures r.status == 200 <==>
              && r.status != 400
              && Mappable(request)
              && services.create(ToOrder(request)).Some?
              && services.notify(services.create(ToOrder(request)).value)
    ensures r.status == 200 && Mappable(request) ==>
              var id := services.create(ToOrder(request)).value;
              r == Reply(200, Created(id, CreatedStatus), [CreateOrder(ToOrder(request)), NotifyLogistics(id)])
    ensures r.status == 500 && Mappable(request) ==> r.body == Error(InternalError, InternalErrorMessage)
  {
    if !IsValid(request) then Reply(400, Invalid, [])
    else if request.items.None? || request.items.value == [] then Reply(400, Error(EmptyOrder, EmptyOrderMessage), [])
    else if !NoNullLine(request.items.value) then Unhandled
    else
      var order := ToOrder(request);
      match services.create(order)
      case None => Reply(500, Error(InternalError, InternalErrorMessage), [CreateOrder(order)])
      case Some(id) =>
        var effects := [CreateOrder(order), NotifyLogistics(id)];
        if services.notify(id) then Reply(200, Created(id, CreatedStatus), effects)
        else Reply(500, Error(InternalError, InternalErrorMessage), effects)
  }

  /** Logistics is told about the order only after the repository has
      answered, and with the id it answered. */
  lemma LogisticsGetsTheStoredId(request: OrderRequest, services: Services, id: int)
    requires NotifyLogistics(id) in CreateOrderAction(request, services).effects
    ensures services.create(ToOrder(request)) == Some(id)
    ensures CreateOrderAction(request, services).effects == [CreateOrder(ToOrder(request)), NotifyLogistics(id)]
  {
  }

  /** A failing logistics call answers 500 although the order has been
      stored. */
  lemma LogisticsFailureAfterStore(request: OrderRequest, services: Services)
    requires IsValid(request) && request.items != Some([]) && Mappable(request)
    requires services.create(ToOrder(request)).Some? && !services.notify(services.create(ToOrder(request)).value)
    ensures CreateOrderAction(request, services).status == 500
    ensures CreateOrder(ToOrder(request)) in CreateOrderAction(request, services).effects
  {
  }

  /** A null line is not an annotation error, yet the action fails on it:
      a list holding only a null line passes validation and the empty-order
      check and is answered with a bare 500, with nothing written. */
  lemma NullLineIsUnhandled(customerId: int, totalAmountCents: int, requestId: string, services: Services)
    ensures IsValid(OrderRequest(customerId, totalAmountCents, requestId, Some([None])))
    ensures CreateOrderAction(OrderRequest(customerId, totalAmountCents, requestId, Some([None])), services) == Unhandled
  {
    var request := OrderRequest(customerId, totalAmountCents, requestId, Some([None]));
    assert ItemsErrors([None], 1) == [];
    assert !NoNullLine(request.items.value) by {
      assert request.items.value[0].None?;
    }
  }
}

=== FILE: otp.dfy ===
/** Numeric one-time passcodes: a random 32-bit unsigned value reduced modulo
    10^length and written in decimal, left-padded with '0' to the length. */
module Otp {
  import opened Text
  import opened Decimal

  const DefaultLength: nat := 6
  /** Number of distinct `uint` values. */
  const UInt32Range: nat := 0x1_0000_0000

  function Zeros(k: nat): (z: string)
    ensures |z| == k
    ensures forall i | 0 <= i < k :: z[i] == '0'
  {
    if k == 0 then [] else Zeros(k - 1) + ['0']
  }

  /** `s.PadLeft(width, '0')`. */
  function PadLeftZeros(s: string, width: nat): string {
    if |s| >= width then s else Zeros(width - |s|) + s
  }

  /** A non-positive length falls back to the default of six digits. */
  function EffectiveLength(length: int): (n: nat)
    ensures n >= 1
    ensures length <= 0 ==> n == DefaultLength
    ensures length > 0 ==> n == length
  {
    if length <= 0 then DefaultLength else length
  }

  /** `OtpService.GenerateOtp(length)`, with the four random bytes read as a
      little-endian `uint` passed in as `random`.  Lengths of ten or more
      are outside the model: there `(uint)Math.Pow(10, length)` no longer
      fits in 32 bits. */
  function GenerateOtp(random: nat, length: int): (otp: string)
    requires random < UInt32Range
    requires length <= 9
    ensures |otp| == EffectiveLength(length)
    ensures AllDigits(otp)
    ensures DecimalValue(otp) == random % Pow10(EffectiveLength(length))
    ensures var digits := ToDecimal(random % Pow10(EffectiveLength(length)));
            && |digits| <= |otp|
            && otp[|otp| - |digits|..] == digits
            && forall i | 0 <= i < |otp| - |digits| :: otp[i] == '0'
  {
    var n := EffectiveLength(length);
    var v := random % Pow10(n);
    DecimalLength(v, n);
    PadLeftZerosFacts(ToDecimal(v), n);
    PadLeftZeros(ToDecimal(v), n)
  }

  /** Padding a numeral to a width it does not exceed keeps its digits at the
      end, fills the front with '0' and keeps its value. */
  lemma PadLeftZerosFacts(s: string, width: nat)
    requires AllDigits(s) && |s| <= width
    ensures var p := PadLeftZeros(s, width);
            && |p| == width && AllDigits(p)
            && DecimalValue(p) == DecimalValue(s)
            && p[width - |s|..] == s
            && forall i | 0 <= i < width - |s| :: p[i] == '0'
  {
    ZerosPrefixValue(width - |s|, s);
    var p := PadLeftZeros(s, width);
    if |s| < width {
      assert p == Zeros(width - |s|) + s;
    } else {
      assert p == s;
      assert Zeros(0) + s == s;
    }
  }

  lemma {:induction false} ZerosValue(k: nat)
    ensures AllDigits(Zeros(k)) && DecimalValue(Zeros(k)) == 0
  {
    if k > 0 {
      ZerosValue(k - 1);
      assert Zeros(k)[..k - 1] == Zeros(k - 1);
    }
  }

  /** Leading zeros do not change the value of a numeral. */
  lemma ZerosPrefixValue(k: nat, s: string)
    requires AllDigits(s)
    ensures AllDigits(Zeros(k) + s) && DecimalValue(Zeros(k) + s) == DecimalValue(s)
  {
    ZerosValue(k);
    DecimalValueAppend(Zeros(k), s);
  }

  /** The default length is six digits, and non-positive lengths mean the
      default. */
  lemma DefaultLengthIsSix(random: nat, length: int)
    requires random < UInt32Range && length <= 0
    ensures GenerateOtp(random, length) == GenerateOtp(random, DefaultLength)
    ensures |GenerateOtp(random, length)| == 6
  {
  }

  /** Any `length`-digit string whose value is `random mod 10^length` is the
      generated passcode. */
  lemma GeneratedOtpIsCanonical(random: nat, length: int, s: string)
    requires random < UInt32Range && length <= 9
    requires AllDigits(s) && |s| == EffectiveLength(length)
    requires DecimalValue(s) == random % Pow10(EffectiveLength(length))
    ensures s == GenerateOtp(random, length)
  {
    FixedWidthUnique(s, GenerateOtp(random, length));
  }
}

=== FILE: partners.dfy ===
/** The partner catalogue's HTTP actions (`PartnersController`): lookup by
    id or slug, and create, replace, patch and delete with the logo, building
    image, brochure and product-segment images kept in a file store.

    The repository's reads and the new id are functions in `Store`; uploads
    return the URL `Cloud` gives for a file and folder; JSON members are
    decoded by `Parsers`.  Each action returns its writes, in order. */
module Partners {
  import opened Wrappers
  import opened Text
  import opened Decimal
  import opened Forms
  import Slug

  /** The company-profile key under which the brochure's URL is kept. */
  const BrochureKey := "brochure_url"
  const LogoFolder := "partners/logos"
  const BuildingFolder := "partners/buildings"
  const BrochureFolder := "partners/brochures"
  const SegmentFolder := "partners/segments"
  const CreateFailed := "Internal server error"

  datatype Segment = Segment(title: string, imageUrl: Option<string>)

  /** A partner's segment list as `List<ProductSegment>` holds it: the JSON
      `[null]` deserializes to a list with a null element, and the store
      keeps and reloads it as it is.  `None` is such an element. */
  type Segments = seq<Option<Segment>>

  /** A partner record; the timestamps the store assigns are left out. */
  datatype Partner = Partner(
    id: int,
    name: string,
    slug: string,
    shortDescription: Option<string>,
    longDescriptionTitle: Option<string>,
    longDescription: Option<string>,
    logoUrl: Option<string>,
    buildingImageUrl: Option<string>,
    companyProfile: map<string, string>,
    productSegments: Segments)

  /** The multipart form of POST, PUT and PATCH; absent members are null.
      POST and PUT declare `Name` required. */
  datatype PartnerForm = PartnerForm(
    name: Option<string>,
    shortDescription: Option<string>,
    longDescriptionTitle: Option<string>,
    longDescription: Option<string>,
    companyProfileJson: Option<string>,
    productSegmentsJson: Option<string>,
    logoFile: Option<FormFile>,
    buildingImageFile: Option<FormFile>,
    brochureFile: Option<FormFile>,
    productSegmentFiles: Option<seq<FormFile>>)

  /** The repository's reads and `CreateAsync`'s new id. */
  datatype Store = Store(
    byId: int -> Option<Partner>,
    bySlug: string -> Option<Partner>,
    create: Partner -> int)

  /** The URL the file store returns for an image or a raw file. */
  datatype Cloud = Cloud(
    uploadImage: (FormFile, string) -> string,
    uploadFile: (FormFile, string) -> string)

  datatype Parsers = Parsers(
    profile: string -> Json<map<string, string>>,
    segments: string -> Json<Segments>)

  datatype Effect =
    | UploadImage(file: FormFile, folder: string)
    | UploadFile(file: FormFile, folder: string)
    | DeleteFile(url: Option<string>)
    | CreatePartner(partner: Partner)
    | UpdatePartner(partner: Partner)
    | DeletePartner(id: int)

  /** `Invalid` is the framework's automatic validation-problem reply. */
  datatype Body = NoBody | Invalid | Message(text: string) | PartnerBody(partner: Partner)

  datatype Reply = Reply(status: int, body: Body, effects: seq<Effect>)

  /** An exception that no handler catches: a bare 500. */
  const Unhandled := Reply(500, NoBody, [])

  /** No segment that a file is paired with is null. */
  predicate SegmentsTakeFiles(segments: Segments, files: seq<FormFile>) {
    forall i | 0 <= i < |segments| && i < |files| :: segments[i].Some?
  }

  /** No segment is null. */
  predicate NoNullSegment(segments: Segments) {
    forall i | 0 <= i < |segments| :: segments[i].Some?
  }

  // ---- Get ----

  datatype Lookup = ById(id: int) | BySlug(slug: string)

  /** An id lookup when the parameter parses as an `int`, a slug lookup on
      its lower-cased text otherwise. */
  function Route(idOrSlug: string): Lookup {
    match TryParseInt32(idOrSlug)
    case Some(id) => ById(id)
    case None => BySlug(ToLowerAscii(idOrSlug))
  }

  function Find(store: Store, lookup: Lookup): Option<Partner> {
    match lookup
    case ById(id) => store.byId(id)
    case BySlug(slug) => store.bySlug(slug)
  }

  function Get(idOrSlug: string, store: Store): (r: Reply)
    ensures r.effects == []
    ensures r.status == 200 <==> Find(store, Route(idOrSlug)).Some?
    ensures r.status == 200 ==> r.body == PartnerBody(Find(store, Route(idOrSlug)).value)
    ensures r.status != 200 ==> r == Reply(404, NoBody, [])
  {
    match Find(store, Route(idOrSlug))
    case None => Reply(404, NoBody, [])
    case Some(p) => Reply(200, PartnerBody(p), [])
  }

  lemma SlugIsLowerCase(s: string)
    requires Slug.IsSlug(s)
    ensures ToLowerAscii(s) == s
  {
    Slug.LowerFixesSlug(s);
  }

  /** A slug with a letter in it is looked up as that slug. */
  lemma SlugWithLetterRoutesBySlug(s: string, i: nat)
    requires Slug.IsSlug(s) && i < |s| && IsAsciiLower(s[i])
    ensures Route(s) == BySlug(s)
  {
    ParseRejectsForeign(s, i);
    SlugIsLowerCase(s);
  }

  /** A name made only of digits keeps itself as its slug, yet that slug is
      read back as an id: such a partner cannot be fetched by slug. */
  lemma NumericNameRoutesById(name: string)
    requires 0 < |name| <= Slug.MaxSlugLength && AllDigits(name)
    requires DecimalValue(name) <= Int32Max
    ensures Slug.GenerateSlug(name) == name
    ensures Route(Slug.GenerateSlug(name)) == ById(DecimalValue(name))
  {
    assert Slug.IsWord(name);
    assert Slug.Join([name], ' ') == name && Slug.Join([name], '-') == name;
    Slug.SlugOfWords([name]);
    ParseDigits(name);
  }

  // ---- Shared steps ----

  /** A JSON member that is absent, empty, or text that deserializes. */
  predicate Decodes<T>(json: Option<string>, parse: string -> Json<T>) {
    IsNullOrEmpty(json) || !parse(json.value).Malformed?
  }

  /** Both JSON members of the form deserialize. */
  predicate FormDecodes(request: PartnerForm, parsers: Parsers) {
    Decodes(request.companyProfileJson, parsers.profile) && Decodes(request.productSegmentsJson, parsers.segments)
  }

  /** `if (!string.IsNullOrEmpty(json)) value = Deserialize(json) ?? fallback;`
      with `None` when deserializing throws. */
  function ReadJson<T>(json: Option<string>, parse: string -> Json<T>, current: T, fallback: T): (r: Option<T>)
    ensures r.Some? <==> Decodes(json, parse)
  {
    if IsNullOrEmpty(json) then Some(current)
    else match parse(json.value)
      case Malformed => None
      case JsonNull => Some(fallback)
      case Parsed(v) => Some(v)
  }

  /** An image member set from an optional upload.  `replace` first deletes
      the previous URL, which PUT and PATCH do even when it is null. */
  function SetImage(previous: Option<string>, file: Option<FormFile>, folder: string, cloud: Cloud, replace: bool): (r: Staged<Option<string>, Effect>)
    ensures r.value == if file.Some? then Some(cloud.uploadImage(file.value, folder)) else previous
  {
    match file
    case None => Staged(previous, [])
    case Some(f) =>
      Staged(Some(cloud.uploadImage(f, folder)), (if replace then [DeleteFile(previous)] else []) + [UploadImage(f, folder)])
  }

  /** The brochure's URL stored under `BrochureKey`; `replace` first deletes
      the URL found there, if any. */
  function SetBrochure(profile: map<string, string>, file: Option<FormFile>, cloud: Cloud, replace: bool): (r: Staged<map<string, string>, Effect>)
    ensures r.value == if file.Some? then profile[BrochureKey := cloud.uploadFile(file.value, BrochureFolder)] else profile
  {
    match file
    case None => Staged(profile, [])
    case Some(f) =>
      var stale := if replace && BrochureKey in profile then [DeleteFile(Some(profile[BrochureKey]))] else [];
      Staged(profile[BrochureKey := cloud.uploadFile(f, BrochureFolder)], stale + [UploadFile(f, BrochureFolder)])
  }

  /** Segment `i` gets the image uploaded from file `i`, for every `i` below
      both counts; further files and further segments are left alone.  The
      upload for a null segment is made before its `ImageUrl` is set, which
      then throws: the value is `None`, and the uploads made so far end
      with that one. */
  function SegmentImages(segments: Segments, files: seq<FormFile>, cloud: Cloud): (r: Staged<Option<Segments>, Effect>)
    ensures r.value.Some? <==> SegmentsTakeFiles(segments, files)
    ensures r.value.Some? ==> |r.value.value| == |segments|
    ensures r.value.Some? ==> forall i | 0 <= i < |segments| ::
              r.value.value[i] == if i < |files| then Some(segments[i].value.(imageUrl := Some(cloud.uploadImage(files[i], SegmentFolder))))
                                  else segments[i]
    ensures |r.effects| <= |segments| && |r.effects| <= |files|
    ensures r.value.Some? ==> |r.effects| == if |files| < |segments| then |files| else |segments|
    ensures r.value.None? ==>
              && |r.effects| > 0 && segments[|r.effects| - 1].None?
              && forall j | 0 <= j < |r.effects| - 1 :: segments[j].Some?
    ensures forall i | 0 <= i < |r.effects| :: r.effects[i] == UploadImage(files[i], SegmentFolder)
  {
    var paired := if |files| < |segments| then |files| else |segments|;
    var stop := FirstNull(segments);
    var uploads := if stop < paired then stop + 1 else paired;
    var effects := seq(uploads, i requires 0 <= i < uploads && i < |files| => UploadImage(files[i], SegmentFolder));
    if stop < paired then Staged(None, effects)
    else
      var value := seq(|segments|, i requires 0 <= i < |segments| =>
                         if i < |files| then Some(segments[i].value.(imageUrl := Some(cloud.uploadImage(files[i], SegmentFolder))))
                         else segments[i]);
      Staged(Some(value), effects)
  }

  /** The index of the first null segment, or the count when there is none. */
  function FirstNull(segments: Segments): (n: nat)
    ensures n <= |segments|
    ensures n < |segments| ==> segments[n].None?
    ensures forall j | 0 <= j < n :: segments[j].Some?
  {
    if segments == [] || segments[0].None? then 0
    else
      var n := 1 + FirstNull(segments[1..]);
      assert forall j | 1 <= j < n :: segments[j] == segments[1..][j - 1];
      n
  }

  /** Files beyond the last segment are never uploaded. */
  lemma ExtraSegmentFilesIgnored(segments: Segments, files: seq<FormFile>, extra: seq<FormFile>, cloud: Cloud)
    requires |files| >= |segments|
    ensures SegmentImages(segments, files + extra, cloud) == SegmentImages(segments, files, cloud)
  {
    var a, b := SegmentImages(segments, files + extra, cloud), SegmentImages(segments, files, cloud);
    assert forall i | 0 <= i < |files| :: (files + extra)[i] == files[i];
    assert a.effects == b.effects;
    if a.value.Some? {
      assert a.value.value == b.value.value;
    }
  }


  // ---- Create ----

  /** What POST promises about the partner it creates: the form's text
      members, a slug derived from the name, the uploaded images, and the
      brochure's URL under its key whatever the profile JSON held. */
  predicate CreateFields(request: PartnerForm, p: Partner, cloud: Cloud)
    requires request.name.Some?
  {
    && p.id == 0
    && p.name == request.name.value
    && p.slug == Slug.GenerateSlug(request.name.value)
    && p.shortDescription == request.shortDescription
    && p.longDescriptionTitle == request.longDescriptionTitle
    && p.longDescription == request.longDescription
    && p.logoUrl == (if request.logoFile.Some? then Some(cloud.uploadImage(request.logoFile.value, LogoFolder)) else None)
    && p.buildingImageUrl == (if request.buildingImageFile.Some? then Some(cloud.uploadImage(request.buildingImageFile.value, BuildingFolder)) else None)
    && (request.brochureFile.Some? ==>
          BrochureKey in p.companyProfile && p.companyProfile[BrochureKey] == cloud.uploadFile(request.brochureFile.value, BrochureFolder))
  }

  /** Writes that only upload files. */
  predicate UploadsOnly(effects: seq<Effect>) {
    forall k | 0 <= k < |effects| :: effects[k].UploadImage? || effects[k].UploadFile?
  }

  lemma UploadsOnlyAppend(a: seq<Effect>, b: seq<Effect>)
    requires UploadsOnly(a) && UploadsOnly(b)
    ensures UploadsOnly(a + b)
  {
    assert forall k | |a| <= k < |a + b| :: (a + b)[k] == b[k - |a|];
  }

  /** The partner POST builds from the form and the decoded JSON members,
      with the uploads it makes on the way; `None` when a segment paired
      with a file is null, and then the uploads made before the throw. */
  function NewPartner(request: PartnerForm, profile: map<string, string>, segments: Segments, cloud: Cloud): (r: Staged<Option<Partner>, Effect>)
    requires request.name.Some?
    ensures r.value.Some? <==> SegmentsTakeFiles(segments, request.productSegmentFiles.GetOr([]))
    ensures r.value.Some? ==> CreateFields(request, r.value.value, cloud)
    ensures r.value.Some? ==> r.value.value.companyProfile.Keys <= profile.Keys + {BrochureKey}
    ensures UploadsOnly(r.effects)
  {
    var logo := SetImage(None, request.logoFile, LogoFolder, cloud, false);
    var building := SetImage(None, request.buildingImageFile, BuildingFolder, cloud, false);
    var brochure := SetBrochure(profile, request.brochureFile, cloud, false);
    var images := SegmentImages(segments, request.productSegmentFiles.GetOr([]), cloud);
    var effects := logo.effects + building.effects + brochure.effects + images.effects;
    assert UploadsOnly(effects) by {
      UploadsOnlyAppend(logo.effects, building.effects);
      UploadsOnlyAppend(logo.effects + building.effects, brochure.effects);
      UploadsOnlyAppend(logo.effects + building.effects + brochure.effects, images.effects);
    }
    match images.value
    case None => Staged(None, effects)
    case Some(withImages) =>
      var p := Partner(0, request.name.value, Slug.GenerateSlug(request.name.value),
                       request.shortDescription, request.longDescriptionTitle, request.longDescription,
                       logo.value, building.value, brochure.value, withImages);
      Staged(Some(p), effects)
  }

  /** POST: a new partner from the form.  A blank name is refused by the
      framework's validation; a JSON member that does not decode, or a null
      segment paired with a file, throws inside the `try` and is answered
      with 500. */
  function Create(request: PartnerForm, store: Store, parsers: Parsers, cloud: Cloud): (r: Reply)
    ensures IsNullOrWhiteSpace(request.name) ==> r == Reply(400, Invalid, [])
    ensures r.status == 400 <==> IsNullOrWhiteSpace(request.name)
    ensures r.status == 201 <==>
              && !IsNullOrWhiteSpace(request.name) && FormDecodes(request, parsers)
              && SegmentsTakeFiles(FormSegments(request, parsers), request.productSegmentFiles.GetOr([]))
    ensures !IsNullOrWhiteSpace(request.name) && !FormDecodes(request, parsers) ==> r == Reply(500, Message(CreateFailed), [])
    ensures r.status == 500 ==> r.body == Message(CreateFailed) && forall k | 0 <= k < |r.effects| :: !r.effects[k].CreatePartner?
    ensures r.status in {201, 400, 500}
    ensures r.status == 201 ==>
              && request.name.Some?
              && |r.effects| > 0 && r.effects[|r.effects| - 1].CreatePartner?
              && var p := r.effects[|r.effects| - 1].partner;
              && r.body == PartnerBody(p.(id := store.create(p)))
              && CreateFields(request, p, cloud)
              && (IsNullOrEmpty(request.companyProfileJson) ==> p.companyProfile.Keys <= {BrochureKey})
  {
    if IsNullOrWhiteSpace(request.name) then Reply(400, Invalid, [])
    else
      var profile := ReadJson(request.companyProfileJson, parsers.profile, map[], map[]);
      var segments := ReadJson(request.productSegmentsJson, parsers.segments, [], []);
      if profile.None? || segments.None? then Reply(500, Message(CreateFailed), [])
      else
        var made := NewPartner(request, profile.value, segments.value, cloud);
        match made.value
        case None => Reply(500, Message(CreateFailed), made.effects)
        case Some(p) => Reply(201, PartnerBody(p.(id := store.create(p))), made.effects + [CreatePartner(p)])
  }

  /** Conversely, a form with a name whose JSON members decode gets exactly
      the reply `NewPartner` decides: 201 with the partner built from the
      decoded members after its uploads and the record, or, when a segment
      paired with a file is null, 500 after the uploads made so far. */
  lemma CreateSucceeds(request: PartnerForm, store: Store, parsers: Parsers, cloud: Cloud)
    requires !IsNullOrWhiteSpace(request.name) && FormDecodes(request, parsers)
    ensures var profile := ReadJson(request.companyProfileJson, parsers.profile, map[], map[]).value;
            var segments := ReadJson(request.productSegmentsJson, parsers.segments, [], []).value;
            var made := NewPartner(request, profile, segments, cloud);
            Create(request, store, parsers, cloud)
              == if made.value.Some? then
                   Reply(201, PartnerBody(made.value.value.(id := store.create(made.value.value))), made.effects + [CreatePartner(made.value.value)])
                 else Reply(500, Message(CreateFailed), made.effects)
  {
  }

  /** A null segment paired with a file: the segment uploads run up to and
      including its file, then the action answers 500 and creates nothing. */
  lemma NullSegmentFailsCreate(request: PartnerForm, store: Store, parsers: Parsers, cloud: Cloud, k: nat)
    requires !IsNullOrWhiteSpace(request.name) && FormDecodes(request, parsers)
    requires var files := request.productSegmentFiles.GetOr([]);
             var segments := FormSegments(request, parsers);
             && k < |segments| && k < |files| && segments[k].None?
             && forall j | 0 <= j < k :: segments[j].Some?
    ensures var r := Create(request, store, parsers, cloud);
            var files := request.productSegmentFiles.GetOr([]);
            && r.status == 500 && r.body == Message(CreateFailed)
            && |r.effects| > 0 && r.effects[|r.effects| - 1] == UploadImage(files[k], SegmentFolder)
            && forall e | e in r.effects :: !e.CreatePartner?
  {
    var files := request.productSegmentFiles.GetOr([]);
    var segments := FormSegments(request, parsers);
    var images := SegmentImages(segments, files, cloud);
    assert !SegmentsTakeFiles(segments, files);
  }

  /** The segments a created partner starts with: those the form's JSON
      decodes to, or none. */
  function FormSegments(request: PartnerForm, parsers: Parsers): Segments {
    ReadJson(request.productSegmentsJson, parsers.segments, [], []).GetOr([])
  }

  /** Create gives segment `i` the image of file `i` for every `i` below
      both counts and keeps every other segment as decoded. */
  lemma CreateAssignsSegmentImages(request: PartnerForm, store: Store, parsers: Parsers, cloud: Cloud)
    requires Create(request, store, parsers, cloud).status == 201
    ensures var r := Create(request, store, parsers, cloud);
            var segments := r.effects[|r.effects| - 1].partner.productSegments;
            var decoded := FormSegments(request, parsers);
            var files := request.productSegmentFiles.GetOr([]);
            && SegmentsTakeFiles(decoded, files)
            && |segments| == |decoded|
            && forall i | 0 <= i < |decoded| ::
                 segments[i] == if i < |files| then Some(decoded[i].value.(imageUrl := Some(cloud.uploadImage(files[i], SegmentFolder))))
                                else decoded[i]
  {
  }

  // ---- Update (PUT) ----

  /** What PUT promises about the partner it stores: the same id, every text
      member from the form, the slug derived from the new name, and an image
      replaced only when a file for it is sent. */
  predicate PutFields(existing: Partner, request: PartnerForm, p: Partner, cloud: Cloud)
    requires request.name.Some?
  {
    && p.id == existing.id
    && p.name == request.name.value
    && p.slug == Slug.GenerateSlug(request.name.value)
    && p.shortDescription == request.shortDescription
    && p.longDescriptionTitle == request.longDescriptionTitle
    && p.longDescription == request.longDescription
    && p.logoUrl == (if request.logoFile.Some? then Some(cloud.uploadImage(request.logoFile.value, LogoFolder)) else existing.logoUrl)
    && p.buildingImageUrl == (if request.buildingImageFile.Some? then Some(cloud.uploadImage(request.buildingImageFile.value, BuildingFolder)) else existing.buildingImageUrl)
  }

  /** The partner PUT stores, given the decoded JSON members, with the file
      writes made on the way. */
  function Replaced(existing: Partner, request: PartnerForm, profile: map<string, string>, segments: Segments, cloud: Cloud): (r: Staged<Partner, Effect>)
    requires request.name.Some?
    ensures PutFields(existing, request, r.value, cloud)
    ensures r.value.productSegments == segments
    ensures r.value.companyProfile ==
              if request.brochureFile.Some? then profile[BrochureKey := cloud.uploadFile(request.brochureFile.value, BrochureFolder)] else profile
  {
    var logo := SetImage(existing.logoUrl, request.logoFile, LogoFolder, cloud, true);
    var building := SetImage(existing.buildingImageUrl, request.buildingImageFile, BuildingFolder, cloud, true);
    var brochure := SetBrochure(profile, request.brochureFile, cloud, true);
    var p := Partner(existing.id, request.name.value, Slug.GenerateSlug(request.name.value),
                     request.shortDescription, request.longDescriptionTitle, request.longDescription,
                     logo.value, building.value, brochure.value, segments);
    assert p.companyProfile == brochure.value;
    Staged(p, logo.effects + building.effects + brochure.effects)
  }

  /** PUT: replace the partner's members with the form's.  A blank name is
      refused by the framework's validation before the lookup; a JSON member
      that does not decode throws. */
  function Update(id: int, request: PartnerForm, store: Store, parsers: Parsers, cloud: Cloud): (r: Reply)
    ensures IsNullOrWhiteSpace(request.name) ==> r == Reply(400, Invalid, [])
    ensures !IsNullOrWhiteSpace(request.name) && store.byId(id).None? ==> r == Reply(404, NoBody, [])
    ensures r.status in {200, 400, 404, 500}
    ensures r.status == 500 ==> r == Unhandled
    ensures r.status == 500 <==> !IsNullOrWhiteSpace(request.name) && store.byId(id).Some? && !FormDecodes(request, parsers)
    ensures r.status == 200 <==> !IsNullOrWhiteSpace(request.name) && store.byId(id).Some? && FormDecodes(request, parsers)
    ensures r.status == 200 ==>
              && store.byId(id).Some? && request.name.Some? && r.body.PartnerBody?
              && |r.effects| > 0 && r.effects[|r.effects| - 1] == UpdatePartner(r.body.partner)
              && var existing, p := store.byId(id).value, r.body.partner;
              && PutFields(existing, request, p, cloud)
              && Slug.IsSlug(p.slug) && |p.slug| <= Slug.MaxSlugLength
              && (IsNullOrEmpty(request.companyProfileJson) && request.brochureFile.None? ==> p.companyProfile == existing.companyProfile)
              && (IsNullOrEmpty(request.productSegmentsJson) ==> p.productSegments == existing.productSegments)
  {
    if IsNullOrWhiteSpace(request.name) then Reply(400, Invalid, [])
    else match store.byId(id)
      case None => Reply(404, NoBody, [])
      case Some(existing) =>
        Slug.GenerateSlugShape(request.name.value);
        var profile := ReadJson(request.companyProfileJson, parsers.profile, existing.companyProfile, map[]);
        var segments := ReadJson(request.productSegmentsJson, parsers.segments, existing.productSegments, []);
        if profile.None? || segments.None? then Unhandled
        else
          var made := Replaced(existing, request, profile.value, segments.value, cloud);
          Reply(200, PartnerBody(made.value), made.effects + [UpdatePartner(made.value)])
  }

  /** Conversely, a form with a name for a stored partner whose JSON members
      decode stores what `Replaced` builds from the decoded members, after
      its file writes, and answers 200 with it. */
  lemma UpdateSucceeds(id: int, request: PartnerForm, store: Store, parsers: Parsers, cloud: Cloud)
    requires !IsNullOrWhiteSpace(request.name) && store.byId(id).Some? && FormDecodes(request, parsers)
    ensures var existing := store.byId(id).value;
            var profile := ReadJson(request.companyProfileJson, parsers.profile, existing.companyProfile, map[]).value;
            var segments := ReadJson(request.productSegmentsJson, parsers.segments, existing.productSegments, []).value;
            var made := Replaced(existing, request, profile, segments, cloud);
            Update(id, request, store, parsers, cloud) == Reply(200, PartnerBody(made.value), made.effects + [UpdatePartner(made.value)])
  {
  }

  /** PUT takes no segment images: the files are ignored. */
  lemma PutIgnoresSegmentFiles(id: int, request: PartnerForm, store: Store, parsers: Parsers, cloud: Cloud)
    ensures Update(id, request, store, parsers, cloud) == Update(id, request.(productSegmentFiles := None), store, parsers, cloud)
  {
  }

  /** A profile member that decodes to `null` empties the profile under PUT. */
  lemma PutNullProfileEmptiesIt(id: int, request: PartnerForm, store: Store, parsers: Parsers, cloud: Cloud)
    requires !IsNullOrEmpty(request.companyProfileJson) && parsers.profile(request.companyProfileJson.value).JsonNull?
    requires request.brochureFile.None?
    requires Update(id, request, store, parsers, cloud).status == 200
    ensures Update(id, request, store, parsers, cloud).body.partner.companyProfile == map[]
  {
  }

  /** A new profile replaces the old one before the brochure is handled, so
      when it lacks a brochure entry the old brochure's file is never
      deleted: it stays in the file store, referenced by nothing. */
  lemma PutProfileOrphansBrochure(existing: Partner, request: PartnerForm, profile: map<string, string>, segments: Segments, cloud: Cloud)
    requires request.name.Some? && BrochureKey in existing.companyProfile && BrochureKey !in profile
    requires request.logoFile.None? && request.buildingImageFile.None?
    ensures Replaced(existing, request, profile, segments, cloud).effects
         == if request.brochureFile.Some? then [UploadFile(request.brochureFile.value, BrochureFolder)] else []
  {
  }

  /** Repeating a PUT without files over its own result stores the same
      partner again. */
  lemma PutIsIdempotent(id: int, request: PartnerForm, store: Store, after: Store, parsers: Parsers, cloud: Cloud)
    requires request.logoFile.None? && request.buildingImageFile.None? && request.brochureFile.None?
    requires Update(id, request, store, parsers, cloud).status == 200
    requires after.byId(id) == Some(Update(id, request, store, parsers, cloud).body.partner)
    ensures Update(id, request, after, parsers, cloud) == Update(id, request, store, parsers, cloud)
  {
    var p := Update(id, request, store, parsers, cloud).body.partner;
    var existing := store.byId(id).value;
    var profile := ReadJson(request.companyProfileJson, parsers.profile, existing.companyProfile, map[]).value;
    var segments := ReadJson(request.productSegmentsJson, parsers.segments, existing.productSegments, []).value;
    assert p == Replaced(existing, request, profile, segments, cloud).value;
    assert ReadJson(request.companyProfileJson, parsers.profile, p.companyProfile, map[]) == Some(profile);
    assert ReadJson(request.productSegmentsJson, parsers.segments, p.productSegments, []) == Some(segments);
    assert Replaced(p, request, profile, segments, cloud) == Staged(p, []);
  }

  // ---- Patch ----

  /** What PATCH promises: each supplied member replaces the stored one, a
      new name brings a new slug, and everything else is kept. */
  predicate PatchFields(existing: Partner, request: PartnerForm, p: Partner, cloud: Cloud) {
    && p.id == existing.id
    && p.name == request.name.GetOr(existing.name)
    && p.slug == (if request.name.Some? then Slug.GenerateSlug(request.name.value) else existing.slug)
    && p.shortDescription == (if request.shortDescription.Some? then request.shortDescription else existing.shortDescription)
    && p.longDescriptionTitle == (if request.longDescriptionTitle.Some? then request.longDescriptionTitle else existing.longDescriptionTitle)
    && p.longDescription == (if request.longDescription.Some? then request.longDescription else existing.longDescription)
    && p.logoUrl == (if request.logoFile.Some? then Some(cloud.uploadImage(request.logoFile.value, LogoFolder)) else existing.logoUrl)
    && p.buildingImageUrl == (if request.buildingImageFile.Some? then Some(cloud.uploadImage(request.buildingImageFile.value, BuildingFolder)) else existing.buildingImageUrl)
  }

  /** The partner PATCH stores, given the decoded JSON members, with the
      file writes made on the way.  The second postcondition says the
      profile and the segments are the decoded ones: setting them changes
      nothing. */
  function Patched(existing: Partner, request: PartnerForm, profile: map<string, string>, segments: Segments, cloud: Cloud): (r: Staged<Partner, Effect>)
    ensures PatchFields(existing, request, r.value, cloud)
    ensures r.value == r.value.(companyProfile := profile, productSegments := segments)
  {
    var logo := SetImage(existing.logoUrl, request.logoFile, LogoFolder, cloud, true);
    var building := SetImage(existing.buildingImageUrl, request.buildingImageFile, BuildingFolder, cloud, true);
    var p := Partner(
      existing.id,
      request.name.GetOr(existing.name),
      if request.name.Some? then Slug.GenerateSlug(request.name.value) else existing.slug,
      if request.shortDescription.Some? then request.shortDescription else existing.shortDescription,
      if request.longDescriptionTitle.Some? then request.longDescriptionTitle else existing.longDescriptionTitle,
      if request.longDescription.Some? then request.longDescription else existing.longDescription,
      logo.value, building.value, profile, segments);
    Staged(p, logo.effects + building.effects)
  }

  /** PATCH: change only the members the form supplies.  A JSON member that
      decodes to `null` keeps the stored value; one that does not decode
      throws. */
  function Patch(id: int, request: PartnerForm, store: Store, parsers: Parsers, cloud: Cloud): (r: Reply)
    ensures store.byId(id).None? ==> r == Reply(404, NoBody, [])
    ensures r.status in {200, 404, 500}
    ensures r.status == 500 ==> r == Unhandled
    ensures r.status == 500 <==> store.byId(id).Some? && !FormDecodes(request, parsers)
    ensures r.status == 200 <==> store.byId(id).Some? && FormDecodes(request, parsers)
    ensures r.status == 200 ==>
              && store.byId(id).Some? && r.body.PartnerBody?
              && |r.effects| > 0 && r.effects[|r.effects| - 1] == UpdatePartner(r.body.partner)
              && var existing, p := store.byId(id).value, r.body.partner;
              && PatchFields(existing, request, p, cloud)
              && (IsNullOrEmpty(request.companyProfileJson) ==> p.companyProfile == existing.companyProfile)
              && (IsNullOrEmpty(request.productSegmentsJson) ==> p.productSegments == existing.productSegments)
  {
    match store.byId(id)
    case None => Reply(404, NoBody, [])
    case Some(existing) =>
      var profile := ReadJson(request.companyProfileJson, parsers.profile, existing.companyProfile, existing.companyProfile);
      var segments := ReadJson(request.productSegmentsJson, parsers.segments, existing.productSegments, existing.productSegments);
      if profile.None? || segments.None? then Unhandled
      else
        var made := Patched(existing, request, profile.value, segments.value, cloud);
        Reply(200, PartnerBody(made.value), made.effects + [UpdatePartner(made.value)])
  }

  /** Conversely, a PATCH of a stored partner whose JSON members decode
      stores what `Patched` builds from them, after its file writes, and
      answers 200 with it. */
  lemma PatchSucceeds(id: int, request: PartnerForm, store: Store, parsers: Parsers, cloud: Cloud)
    requires store.byId(id).Some? && FormDecodes(request, parsers)
    ensures var existing := store.byId(id).value;
            var profile := ReadJson(request.companyProfileJson, parsers.profile, existing.companyProfile, existing.companyProfile).value;
            var segments := ReadJson(request.productSegmentsJson, parsers.segments, existing.productSegments, existing.productSegments).value;
            var made := Patched(existing, request, profile, segments, cloud);
            Patch(id, request, store, parsers, cloud) == Reply(200, PartnerBody(made.value), made.effects + [UpdatePartner(made.value)])
  {
  }

  /** An empty PATCH stores the partner exactly as it was. */
  lemma EmptyPatchKeepsPartner(id: int, store: Store, parsers: Parsers, cloud: Cloud)
    requires store.byId(id).Some?
    ensures var empty := PartnerForm(None, None, None, None, None, None, None, None, None, None);
            var existing := store.byId(id).value;
            Patch(id, empty, store, parsers, cloud) == Reply(200, PartnerBody(existing), [UpdatePartner(existing)])
  {
  }

  /** PATCH takes no brochure and no segment images: those files are
      ignored. */
  lemma PatchIgnoresBrochureAndSegmentFiles(id: int, request: PartnerForm, store: Store, parsers: Parsers, cloud: Cloud)
    ensures Patch(id, request, store, parsers, cloud)
         == Patch(id, request.(brochureFile := None, productSegmentFiles := None), store, parsers, cloud)
  {
  }

  /** A JSON member that decodes to `null` keeps the stored value under
      PATCH, where PUT would reset it. */
  lemma PatchNullJsonKeepsValue(id: int, request: PartnerForm, store: Store, parsers: Parsers, cloud: Cloud)
    requires store.byId(id).Some?
    requires !IsNullOrEmpty(request.companyProfileJson) && parsers.profile(request.companyProfileJson.value).JsonNull?
    requires IsNullOrEmpty(request.productSegmentsJson)
    ensures Patch(id, request, store, parsers, cloud).status == 200
    ensures Patch(id, request, store, parsers, cloud).body.partner.companyProfile == store.byId(id).value.companyProfile
  {
  }

  /** With every text member supplied and no brochure, patching and
      replacing build the same partner. */
  lemma PatchedIsReplaced(existing: Partner, request: PartnerForm, profile: map<string, string>, segments: Segments, cloud: Cloud)
    requires request.name.Some?
    requires request.shortDescription.Some? && request.longDescriptionTitle.Some? && request.longDescription.Some?
    requires request.brochureFile.None?
    ensures Patched(existing, request, profile, segments, cloud) == Replaced(existing, request, profile, segments, cloud)
  {
  }

  /** A PATCH that supplies every text member and no brochure, and whose JSON
      members do not decode to `null`, does what PUT does. */
  lemma FullPatchIsPut(id: int, request: PartnerForm, store: Store, parsers: Parsers, cloud: Cloud)
    requires !IsNullOrWhiteSpace(request.name)
    requires request.shortDescription.Some? && request.longDescriptionTitle.Some? && request.longDescription.Some?
    requires request.brochureFile.None?
    requires !IsNullOrEmpty(request.companyProfileJson) ==> !parsers.profile(request.companyProfileJson.value).JsonNull?
    requires !IsNullOrEmpty(request.productSegmentsJson) ==> !parsers.segments(request.productSegmentsJson.value).JsonNull?
    ensures Patch(id, request, store, parsers, cloud) == Update(id, request, store, parsers, cloud)
  {
    if store.byId(id).Some? {
      var existing := store.byId(id).value;
      var profile := ReadJson(request.companyProfileJson, parsers.profile, existing.companyProfile, map[]);
      var segments := ReadJson(request.productSegmentsJson, parsers.segments, existing.productSegments, []);
      assert ReadJson(request.companyProfileJson, parsers.profile, existing.companyProfile, existing.companyProfile) == profile;
      assert ReadJson(request.productSegmentsJson, parsers.segments, existing.productSegments, existing.productSegments) == segments;
      if profile.Some? && segments.Some? {
        PatchedIsReplaced(existing, request, profile.value, segments.value, cloud);
      }
    }
  }

  // ---- Delete ----

  /** One deletion per segment image, in order, up to the first null
      segment, whose `ImageUrl` throws. */
  function SegmentDeletes(segments: Segments): (r: seq<Effect>)
    ensures |r| <= |segments|
    ensures forall i | 0 <= i < |r| :: segments[i].Some? && r[i] == DeleteFile(segments[i].value.imageUrl)
    ensures |r| < |segments| ==> segments[|r|].None?
    ensures |r| == |segments| <==> NoNullSegment(segments)
  {
    if segments == [] || segments[0].None? then []
    else
      var rest := SegmentDeletes(segments[1..]);
      var r := [DeleteFile(segments[0].value.imageUrl)] + rest;
      assert forall i | 1 <= i < |r| :: r[i] == rest[i - 1] && segments[i] == segments[1..][i - 1];
      assert NoNullSegment(segments[1..]) <==> NoNullSegment(segments) by {
        assert forall i | 1 <= i < |segments| :: segments[i] == segments[1..][i - 1];
        assert forall i | 0 <= i < |segments[1..]| :: segments[1..][i] == segments[i + 1];
      }
      r
  }

  /** How many files a partner has in the file store: logo, building
      image, the brochure when the profile names one, and one per segment. */
  function FileCount(p: Partner): nat {
    2 + (if BrochureKey in p.companyProfile then 1 else 0) + |p.productSegments|
  }

  /** The deletion of the brochure, when the profile names one. */
  function BrochureDelete(p: Partner): seq<Effect> {
    if BrochureKey in p.companyProfile then [DeleteFile(Some(p.companyProfile[BrochureKey]))] else []
  }

  /** The stored files of a partner, deleted in the order DELETE does it,
      as far as it gets: all of them when no segment is null. */
  function FileDeletes(p: Partner): (r: seq<Effect>)
    ensures NoNullSegment(p.productSegments) ==> |r| == FileCount(p)
    ensures |r| <= FileCount(p)
    ensures forall k | 0 <= k < |r| :: r[k].DeleteFile?
  {
    [DeleteFile(p.logoUrl), DeleteFile(p.buildingImageUrl)] + BrochureDelete(p) + SegmentDeletes(p.productSegments)
  }

  /** DELETE: remove every stored file of the partner, then the record.  A
      null segment throws once the files before it are deleted; nothing
      handles it and the record stays. */
  function Delete(id: int, store: Store): (r: Reply)
    ensures store.byId(id).None? ==> r == Reply(404, NoBody, [])
    ensures r.status in {204, 404, 500}
    ensures r.status == 204 <==> store.byId(id).Some? && NoNullSegment(store.byId(id).value.productSegments)
    ensures r.status == 204 ==>
              && r.body == NoBody
              && |r.effects| == FileCount(store.byId(id).value) + 1
              && r.effects[|r.effects| - 1] == DeletePartner(id)
              && forall k | 0 <= k < |r.effects| - 1 :: r.effects[k].DeleteFile?
    ensures r.status == 500 ==> r.body == NoBody && forall k | 0 <= k < |r.effects| :: r.effects[k].DeleteFile?
  {
    match store.byId(id)
    case None => Reply(404, NoBody, [])
    case Some(p) =>
      Reply(if NoNullSegment(p.productSegments) then 204 else 500, NoBody, FileDeletes(p) + RecordDelete(p, id))
  }

  /** The record's deletion, reached only when no segment is null. */
  function RecordDelete(p: Partner, id: int): seq<Effect> {
    if NoNullSegment(p.productSegments) then [DeletePartner(id)] else []
  }

  lemma FileDeletesInOrder(p: Partner)
    ensures var f := FileDeletes(p);
            var first := FileCount(p) - |p.productSegments|;
            var segments := SegmentDeletes(p.productSegments);
            && f[0] == DeleteFile(p.logoUrl) && f[1] == DeleteFile(p.buildingImageUrl)
            && (BrochureKey in p.companyProfile ==> f[2] == DeleteFile(Some(p.companyProfile[BrochureKey])))
            && |f| == first + |segments|
            && forall i | 0 <= i < |segments| :: f[first + i] == DeleteFile(p.productSegments[i].value.imageUrl)
  {
    var head := [DeleteFile(p.logoUrl), DeleteFile(p.buildingImageUrl)] + BrochureDelete(p);
    var segments := SegmentDeletes(p.productSegments);
    assert FileDeletes(p) == head + segments;
    assert forall i | 0 <= i < |segments| :: (head + segments)[|head| + i] == segments[i];
  }

  /** Whatever follows the file deletions, they come first, in order. */
  lemma FileDeletesThen(p: Partner, tail: seq<Effect>)
    ensures var e := FileDeletes(p) + tail;
            var first := FileCount(p) - |p.productSegments|;
            var deleted := |SegmentDeletes(p.productSegments)|;
            && e[0] == DeleteFile(p.logoUrl) && e[1] == DeleteFile(p.buildingImageUrl)
            && (BrochureKey in p.companyProfile ==> e[2] == DeleteFile(Some(p.companyProfile[BrochureKey])))
            && (forall i | 0 <= i < deleted :: e[first + i] == DeleteFile(p.productSegments[i].value.imageUrl))
            && (deleted < |p.productSegments| ==> p.productSegments[deleted].None? && |e| == first + deleted + |tail|)
  {
    var files := FileDeletes(p);
    var e := files + tail;
    FileDeletesInOrder(p);
    var first := FileCount(p) - |p.productSegments|;
    assert forall k | 0 <= k < |files| :: e[k] == files[k];
    forall i | 0 <= i < |SegmentDeletes(p.productSegments)| ensures e[first + i] == DeleteFile(p.productSegments[i].value.imageUrl) {
      assert e[first + i] == files[first + i];
    }
  }

  /** Delete removes the logo, the building image, the brochure the profile
      names and the segment images in order up to the first null segment,
      where it stops. */
  lemma DeleteRemovesEveryFile(id: int, store: Store)
    requires store.byId(id).Some?
    ensures var p, e := store.byId(id).value, Delete(id, store).effects;
            var first := FileCount(p) - |p.productSegments|;
            var deleted := |SegmentDeletes(p.productSegments)|;
            && e[0] == DeleteFile(p.logoUrl) && e[1] == DeleteFile(p.buildingImageUrl)
            && (BrochureKey in p.companyProfile ==> e[2] == DeleteFile(Some(p.companyProfile[BrochureKey])))
            && (forall i | 0 <= i < deleted :: e[first + i] == DeleteFile(p.productSegments[i].value.imageUrl))
            && (deleted < |p.productSegments| ==> p.productSegments[deleted].None? && |e| == first + deleted)
  {
    var p := store.byId(id).value;
    FileDeletesThen(p, RecordDelete(p, id));
  }

  /** The record is deleted, after every file, exactly when no segment is
      null: a null segment leaves the partner stored. */
  lemma DeleteRecordIffNoNullSegment(id: int, store: Store)
    requires store.byId(id).Some?
    ensures var p, e := store.byId(id).value, Delete(id, store).effects;
            (DeletePartner(id) in e <==> NoNullSegment(p.productSegments))
  {
    var p := store.byId(id).value;
    var e := Delete(id, store).effects;
    if !NoNullSegment(p.productSegments) {
      assert DeletePartner(id) !in e by {
        forall k | 0 <= k < |e| ensures e[k] != DeletePartner(id) { assert e[k].DeleteFile?; }
      }
    }
  }
}

=== FILE: password_validator.dfy ===
/** The password-strength policy of the identity service: a blank check,
    a minimum length, four character classes and a list of common passwords
    rejected regardless of letter case. */
module PasswordValidator {
  import opened Wrappers
  import opened Text

  const MinimumLength: nat := 8
  const SpecialCharacters: string := "@$!%*?&#"

  /** The passwords rejected as too common, compared ignoring case. */
  const CommonPasswords: seq<string> := [
    "password", "password123", "12345678", "qwerty", "abc123",
    "monkey", "1234567890", "letmein", "trustno1", "dragon",
    "baseball", "iloveyou", "master", "sunshine", "ashley",
    "bailey", "passw0rd", "shadow", "123123", "654321"
  ]

  /** One failed rule; `Message` gives the text the service reports. */
  datatype PasswordError =
    | Required
    | TooShort
    | MissingUppercase
    | MissingLowercase
    | MissingDigit
    | MissingSpecial
    | TooCommon

  function Message(e: PasswordError): string {
    match e
    case Required => "Password is required"
    case TooShort => "Password must be at least 8 characters long"
    case MissingUppercase => "Password must contain at least one uppercase letter"
    case MissingLowercase => "Password must contain at least one lowercase letter"
    case MissingDigit => "Password must contain at least one digit"
    case MissingSpecial => "Password must contain at least one special character (@$!%*?&#)"
    case TooCommon => "This password is too common. Please choose a more secure password"
  }

  /** Position of a rule in the fixed evaluation order. */
  function Rank(e: PasswordError): nat {
    match e
    case Required => 0
    case TooShort => 1
    case MissingUppercase => 2
    case MissingLowercase => 3
    case MissingDigit => 4
    case MissingSpecial => 5
    case TooCommon => 6
  }

  predicate IsSpecial(c: char) { c in SpecialCharacters }

  /** The regular expressions `[A-Z]`, `[a-z]`, `[0-9]` and `[@$!%*?&#]`
      find a match somewhere in the string. */
  predicate HasUppercase(s: string) { exists i | 0 <= i < |s| :: IsAsciiUpper(s[i]) }
  predicate HasLowercase(s: string) { exists i | 0 <= i < |s| :: IsAsciiLower(s[i]) }
  predicate HasDigit(s: string) { exists i | 0 <= i < |s| :: IsAsciiDigit(s[i]) }
  predicate HasSpecial(s: string) { exists i | 0 <= i < |s| :: IsSpecial(s[i]) }

  predicate IsCommon(s: string) {
    exists j | 0 <= j < |CommonPasswords| :: EqualsIgnoreCase(s, CommonPasswords[j])
  }

  predicate StrictlyOrdered(errors: seq<PasswordError>) {
    forall i, j | 0 <= i < j < |errors| :: Rank(errors[i]) < Rank(errors[j])
  }

  datatype Verdict = Verdict(isValid: bool, errors: seq<PasswordError>)

  /** One rule of the policy: whether it failed and the error it reports. */
  datatype Rule = Rule(failed: bool, error: PasswordError)

  predicate RanksIncrease(rules: seq<Rule>) {
    forall i, j | 0 <= i < j < |rules| :: Rank(rules[i].error) < Rank(rules[j].error)
  }

  /** The errors of the failed rules, in rule order. */
  function Collect(rules: seq<Rule>): (errors: seq<PasswordError>)
    ensures |errors| <= |rules|
    ensures forall e :: e in errors <==> exists i | 0 <= i < |rules| :: rules[i].failed && rules[i].error == e
    ensures errors == [] <==> forall i | 0 <= i < |rules| :: !rules[i].failed
  {
    if rules == [] then []
    else
      var rest := Collect(rules[1..]);
      assert forall i | 1 <= i < |rules| :: rules[i] == rules[1..][i - 1];
      (if rules[0].failed then [rules[0].error] else []) + rest
  }

  /** Rules listed in rank order report their errors in rank order. */
  lemma {:induction false} CollectOrdered(rules: seq<Rule>)
    requires RanksIncrease(rules)
    ensures StrictlyOrdered(Collect(rules))
  {
    if rules != [] {
      var rest := Collect(rules[1..]);
      CollectOrdered(rules[1..]);
      if rules[0].failed {
        var errors := Collect(rules);
        assert errors == [rules[0].error] + rest;
        forall j | 0 < j < |errors| ensures Rank(rules[0].error) < Rank(errors[j]) {
          assert errors[j] in rest;
          var i :| 0 <= i < |rules[1..]| && rules[1..][i].failed && rules[1..][i].error == errors[j];
          assert rules[1..][i] == rules[i + 1];
        }
      }
    }
  }

  /** The errors of the six rules after the blank check, given which of them
      failed, in rule order. */
  function RuleErrors(short: bool, noUpper: bool, noLower: bool, noDigit: bool, noSpecial: bool, common: bool): (errors: seq<PasswordError>)
    ensures TooShort in errors <==> short
    ensures MissingUppercase in errors <==> noUpper
    ensures MissingLowercase in errors <==> noLower
    ensures MissingDigit in errors <==> noDigit
    ensures MissingSpecial in errors <==> noSpecial
    ensures TooCommon in errors <==> common
    ensures Required !in errors
    ensures |errors| <= 6
    ensures errors == [] <==> !(short || noUpper || noLower || noDigit || noSpecial || common)
    ensures StrictlyOrdered(errors)
  {
    var rules := [Rule(short, TooShort), Rule(noUpper, MissingUppercase), Rule(noLower, MissingLowercase),
                  Rule(noDigit, MissingDigit), Rule(noSpecial, MissingSpecial), Rule(common, TooCommon)];
    assert RanksIncrease(rules);
    CollectOrdered(rules);
    CollectHas(rules, 0); CollectHas(rules, 1); CollectHas(rules, 2);
    CollectHas(rules, 3); CollectHas(rules, 4); CollectHas(rules, 5);
    CollectOnly(rules, Required);
    Collect(rules)
  }

  /** With distinct ranks, a rule's error is reported exactly when the rule
      failed. */
  lemma CollectHas(rules: seq<Rule>, k: nat)
    requires RanksIncrease(rules) && k < |rules|
    ensures rules[k].error in Collect(rules) <==> rules[k].failed
  {
    if rules[k].error in Collect(rules) {
      var i :| 0 <= i < |rules| && rules[i].failed && rules[i].error == rules[k].error;
      assert !(i < k) && !(k < i);
    }
  }

  lemma CollectOnly(rules: seq<Rule>, e: PasswordError)
    requires forall i | 0 <= i < |rules| :: rules[i].error != e
    ensures e !in Collect(rules)
  {
  }

  /** `PasswordValidator.ValidatePassword`.  A null or blank password is
      reported with the single error `Required`; otherwise every failed rule
      adds its error, in rule order.  The length rule reads `Length`, which
      counts UTF-16 code units. */
  function ValidatePassword(password: Option<string>): (v: Verdict)
    ensures v.isValid <==> v.errors == []
    ensures IsNullOrWhiteSpace(password) ==> v.errors == [Required]
    ensures !IsNullOrWhiteSpace(password) ==>
              var p := password.value;
              && (TooShort in v.errors <==> Utf16Length(p) < MinimumLength)
              && (MissingUppercase in v.errors <==> !HasUppercase(p))
              && (MissingLowercase in v.errors <==> !HasLowercase(p))
              && (MissingDigit in v.errors <==> !HasDigit(p))
              && (MissingSpecial in v.errors <==> !HasSpecial(p))
              && (TooCommon in v.errors <==> IsCommon(p))
              && Required !in v.errors
              && |v.errors| <= 6
    ensures StrictlyOrdered(v.errors)
  {
    if IsNullOrWhiteSpace(password) then Verdict(false, [Required])
    else
      var p := password.value;
      var errors := RuleErrors(Utf16Length(p) < MinimumLength, !HasUppercase(p), !HasLowercase(p),
                               !HasDigit(p), !HasSpecial(p), IsCommon(p));
      Verdict(|errors| == 0, errors)
  }

  /** The policy in one sentence: a password is accepted exactly when it is
      not blank, has at least eight UTF-16 code units, one character of each class
      and is not a common password. */
  lemma AcceptedExactly(password: Option<string>)
    ensures ValidatePassword(password).isValid <==>
              && password.Some?
              && !AllWhiteSpace(password.value)
              && Utf16Length(password.value) >= MinimumLength
              && HasUppercase(password.value) && HasLowercase(password.value)
              && HasDigit(password.value) && HasSpecial(password.value)
              && !IsCommon(password.value)
  {
  }

  /** No common password contains one of the special characters. */
  lemma CommonPasswordsHaveNoSpecial()
    ensures forall j | 0 <= j < |CommonPasswords| :: !HasSpecial(CommonPasswords[j])
  {
    forall j | 0 <= j < |CommonPasswords| ensures !HasSpecial(CommonPasswords[j]) {
      var w := CommonPasswords[j];
      forall i | 0 <= i < |w| ensures !IsSpecial(w[i]) {
        assert IsAsciiLower(w[i]) || IsAsciiDigit(w[i]);
      }
    }
  }

  /** Lower-casing maps a special character only from itself. */
  lemma LowerKeepsSpecial(a: string, b: string)
    requires ToLowerAscii(a) == ToLowerAscii(b)
    requires HasSpecial(a)
    ensures HasSpecial(b)
  {
    var i :| 0 <= i < |a| && IsSpecial(a[i]);
    SpecialIsNotLetter(a[i]);
    ToLowerAsciiAt(a);
    ToLowerAsciiAt(b);
    assert ToLowerAscii(a)[i] == a[i];
    assert ToLowerChar(b[i]) == a[i];
    assert b[i] == a[i];
  }

  lemma SpecialIsNotLetter(c: char)
    requires IsSpecial(c)
    ensures !IsAsciiUpper(c) && !IsAsciiLower(c)
  {
  }

  /** Consequently a password that passes the special-character rule never
      gets the common-password error: that rule is subsumed. */
  lemma SpecialExcludesCommon(p: string)
    requires HasSpecial(p)
    ensures !IsCommon(p)
  {
    CommonPasswordsHaveNoSpecial();
    if IsCommon(p) {
      var j :| 0 <= j < |CommonPasswords| && EqualsIgnoreCase(p, CommonPasswords[j]);
      LowerKeepsSpecial(p, CommonPasswords[j]);
    }
  }

  /** A non-blank password that fails any rule is reported with at least one
      error and never with `Required`. */
  lemma ErrorsOfNonBlank(p: string)
    requires !AllWhiteSpace(p)
    ensures var v := ValidatePassword(Some(p));
            !v.isValid ==> 1 <= |v.errors| <= 6 && v.errors[0] != Required
  {
  }

  /** A prefix that meets every class rule, followed by anything of at
      least four code units, is accepted. */
  lemma AcceptedAfterClassPrefix(p: string)
    requires |p| >= 4 && p[0] == 'A' && p[1] == 'b' && p[2] == '1' && p[3] == '!'
    requires Utf16Length(p) >= MinimumLength
    ensures ValidatePassword(Some(p)).isValid
  {
    assert HasUppercase(p) by { assert IsAsciiUpper(p[0]); }
    assert HasLowercase(p) by { assert IsAsciiLower(p[1]); }
    assert HasDigit(p) by { assert IsAsciiDigit(p[2]); }
    assert HasSpecial(p) by { assert IsSpecial(p[3]); }
    assert !AllWhiteSpace(p) by { assert !IsWhiteSpace(p[0]); }
    SpecialExcludesCommon(p);
    AcceptedExactly(Some(p));
  }

  /** The length rule counts code units: "Ab1!" and two characters outside
      the Basic Multilingual Plane are six characters but eight units, and
      pass. */
  lemma LengthCountsCodeUnits(a: char, b: char)
    requires !IsBmp(a) && !IsBmp(b)
    ensures |"Ab1!" + [a, b]| < MinimumLength
    ensures ValidatePassword(Some("Ab1!" + [a, b])).isValid
  {
    var p := "Ab1!" + [a, b];
    Utf16LengthAppend("Ab1!", [a, b]);
    assert Utf16Length([a, b]) == 4 by {
      assert [a, b][1..] == [b];
    }
    AcceptedAfterClassPrefix(p);
  }
}

=== FILE: products.dfy ===
/** The product catalogue's HTTP actions (`ProductsController`): create,
    partial update, lookup and delete of products whose main image, related
    images and documents are kept by a file service.

    The repository's answers are functions in `Store`; saving a file returns
    the name `Save` gives it (the service draws a fresh GUID, which is not
    part of this model); JSON members are decoded by `Parsers`.  Each action
    returns its writes in order. */
module Products {
  import opened Wrappers
  import opened Text
  import opened Forms

  const MainFolder := "products/main"
  const RelatedFolder := "products/related"
  const DocumentsPrefix := "documents/"
  const TechnicalDataSheet := "technical_data_sheet"
  const SafetyDataSheet := "safety_data_sheet"
  const SalesBrochure := "sales_brochure"
  const CompanyProfile := "company_profile"
  const ServerError := "Internal server error"
  const UpdateFailed := "Update failed"

  datatype Specification = Specification(title: string, items: seq<string>)

  datatype Overview = Overview(details: Option<string>, specifications: seq<Specification>)

  /** `new Overview()`. */
  const EmptyOverview := Overview(None, [])

  /** One entry of the `Documents` dictionary: a document type and the
      stored file names, in the dictionary's enumeration order. */
  datatype Bucket = Bucket(kind: string, files: seq<string>)

  /** A product record; the timestamps are left out. */
  datatype Product = Product(
    id: int,
    name: string,
    description: Option<string>,
    image: Option<string>,
    relatedImages: seq<string>,
    category: Option<string>,
    subCategory: Option<string>,
    brand: Option<string>,
    applicationRange: Option<string>,
    overview: Overview,
    advantages: seq<string>,
    precautions: seq<string>,
    documents: seq<Bucket>)

  /** The multipart form of POST and PUT.  `Name` is declared required; the
      two lists of strings bind to an empty list when absent. */
  datatype ProductForm = ProductForm(
    name: Option<string>,
    description: Option<string>,
    imageFile: Option<FormFile>,
    relatedImageFiles: Option<seq<FormFile>>,
    category: Option<string>,
    subCategory: Option<string>,
    brand: Option<string>,
    applicationRange: Option<string>,
    overviewDetails: Option<string>,
    specificationsJson: Option<string>,
    overviewJson: Option<string>,
    advantages: seq<string>,
    precautions: seq<string>,
    technicalDataSheetFiles: Option<seq<FormFile>>,
    safetyDataSheetFiles: Option<seq<FormFile>>,
    salesBrochureFiles: Option<seq<FormFile>>,
    companyProfileFiles: Option<seq<FormFile>>)

  /** The repository: lookup, the new id, and whether an update or a
      delete touched a row. */
  datatype Store = Store(
    byId: int -> Option<Product>,
    create: Product -> int,
    update: Product -> bool,
    delete: int -> bool)

  datatype Parsers = Parsers(
    overview: string -> Json<Overview>,
    specifications: string -> Json<seq<Specification>>)

  /** The name the file service stores a file under in a folder. */
  type Save = (FormFile, string) -> string

  datatype Effect =
    | SaveFile(file: FormFile, folder: string)
    | DeleteFile(name: string, folder: string)
    | CreateProduct(product: Product)
    | UpdateProduct(product: Product)
    | DeleteProduct(id: int)

  /** `Invalid` is the framework's automatic validation-problem reply. */
  datatype Body = NoBody | Invalid | Message(text: string) | ProductBody(product: Product)

  datatype Reply = Reply(status: int, body: Body, effects: seq<Effect>)

  // ---- Files ----

  /** `files.Where(f => f.Length > 0)`. */
  function NonEmptyFiles(files: seq<FormFile>): (r: seq<FormFile>)
    ensures |r| <= |files|
    ensures forall i | 0 <= i < |r| :: r[i].length > 0
    ensures forall f :: f in r <==> f in files && f.length > 0
  {
    if files == [] then []
    else if files[0].length > 0 then [files[0]] + NonEmptyFiles(files[1..])
    else NonEmptyFiles(files[1..])
  }

  /** Filtering twice filters nothing more. */
  lemma {:induction false} NonEmptyFilesIdempotent(files: seq<FormFile>)
    ensures NonEmptyFiles(NonEmptyFiles(files)) == NonEmptyFiles(files)
  {
    if files != [] {
      NonEmptyFilesIdempotent(files[1..]);
      if files[0].length > 0 {
        var rest := NonEmptyFiles(files[1..]);
        assert NonEmptyFiles([files[0]] + rest) == [files[0]] + NonEmptyFiles(rest) by {
          assert ([files[0]] + rest)[1..] == rest;
        }
      }
    }
  }

  /** Saving each file in turn into `folder`. */
  function SaveAll(files: seq<FormFile>, folder: string, save: Save): (r: Staged<seq<string>, Effect>)
    ensures |r.value| == |files| && |r.effects| == |files|
    ensures forall i | 0 <= i < |files| :: r.value[i] == save(files[i], folder) && r.effects[i] == SaveFile(files[i], folder)
  {
    if files == [] then Staged([], [])
    else
      var rest := SaveAll(files[1..], folder, save);
      Staged([save(files[0], folder)] + rest.value, [SaveFile(files[0], folder)] + rest.effects)
  }

  /** Deleting each named file in turn from `folder`. */
  function DeleteAll(names: seq<string>, folder: string): (r: seq<Effect>)
    ensures |r| == |names|
    ensures forall i | 0 <= i < |names| :: r[i] == DeleteFile(names[i], folder)
  {
    if names == [] then [] else [DeleteFile(names[0], folder)] + DeleteAll(names[1..], folder)
  }

  // ---- Documents ----

  /** The dictionary's keys. */
  function Kinds(docs: seq<Bucket>): set<string> {
    if docs == [] then {} else {docs[0].kind} + Kinds(docs[1..])
  }

  /** `Documents[kind]`, or nothing when the key is absent. */
  function FilesOf(docs: seq<Bucket>, kind: string): seq<string> {
    if docs == [] then []
    else if docs[0].kind == kind then docs[0].files
    else FilesOf(docs[1..], kind)
  }

  /** No key appears twice, as in a dictionary. */
  predicate UniqueKinds(docs: seq<Bucket>) {
    forall i, j | 0 <= i < j < |docs| :: docs[i].kind != docs[j].kind
  }

  /** `if (!Documents.ContainsKey(kind)) Documents[kind] = new();` followed by
      adding `names` to that list. */
  function AddToBucket(docs: seq<Bucket>, kind: string, names: seq<string>): (r: seq<Bucket>)
    ensures Kinds(r) == Kinds(docs) + {kind}
  {
    if docs == [] then [Bucket(kind, names)]
    else if docs[0].kind == kind then [docs[0].(files := docs[0].files + names)] + docs[1..]
    else [docs[0]] + AddToBucket(docs[1..], kind, names)
  }

  /** Adding to a bucket appends to that document type's list and leaves
      every other type's list as it was. */
  lemma {:induction false} AddToBucketFiles(docs: seq<Bucket>, kind: string, names: seq<string>, other: string)
    ensures FilesOf(AddToBucket(docs, kind, names), other) ==
              if other == kind then FilesOf(docs, kind) + names else FilesOf(docs, other)
  {
    if docs != [] && docs[0].kind != kind {
      AddToBucketFiles(docs[1..], kind, names, other);
      assert ([docs[0]] + AddToBucket(docs[1..], kind, names))[1..] == AddToBucket(docs[1..], kind, names);
    }
  }

  lemma {:induction false} KindsMembers(docs: seq<Bucket>)
    ensures forall k :: k in Kinds(docs) <==> exists i | 0 <= i < |docs| :: docs[i].kind == k
  {
    if docs != [] {
      KindsMembers(docs[1..]);
      forall k ensures k in Kinds(docs) <==> exists i | 0 <= i < |docs| :: docs[i].kind == k {
        if k in Kinds(docs[1..]) {
          var i :| 0 <= i < |docs[1..]| && docs[1..][i].kind == k;
          assert docs[i + 1].kind == k;
        }
        if exists i | 0 <= i < |docs| :: docs[i].kind == k {
          var i :| 0 <= i < |docs| && docs[i].kind == k;
          if i > 0 { assert docs[1..][i - 1].kind == k; }
        }
      }
    }
  }

  /** Adding to a bucket keeps the keys unique. */
  lemma {:induction false} AddToBucketUnique(docs: seq<Bucket>, kind: string, names: seq<string>)
    requires UniqueKinds(docs)
    ensures UniqueKinds(AddToBucket(docs, kind, names))
  {
    if docs != [] {
      var r := AddToBucket(docs, kind, names);
      if docs[0].kind == kind {
        assert forall i | 0 <= i < |r| :: r[i].kind == docs[i].kind;
      } else {
        var rest := AddToBucket(docs[1..], kind, names);
        AddToBucketUnique(docs[1..], kind, names);
        KindsMembers(docs[1..]);
        KindsMembers(rest);
        assert docs[0].kind !in Kinds(docs[1..]);
        assert docs[0].kind !in Kinds(rest);
        forall i, j | 0 <= i < j < |r| ensures r[i].kind != r[j].kind {
          if i == 0 {
            assert r[j] == rest[j - 1];
          } else {
            assert r[i] == rest[i - 1] && r[j] == rest[j - 1];
          }
        }
      }
    }
  }

  /** A document list of the form together with the type it belongs to. */
  datatype DocumentUpload = DocumentUpload(kind: string, files: Option<seq<FormFile>>)

  /** The four document lists, in the order they are handled. */
  function DocumentUploads(form: ProductForm): seq<DocumentUpload> {
    [ DocumentUpload(TechnicalDataSheet, form.technicalDataSheetFiles),
      DocumentUpload(SafetyDataSheet, form.safetyDataSheetFiles),
      DocumentUpload(SalesBrochure, form.salesBrochureFiles),
      DocumentUpload(CompanyProfile, form.companyProfileFiles) ]
  }

  /** One document list: create the bucket if the list is present, then
      save its non-empty files into `documents/<kind>` and append the names. */
  function MapUpload(docs: seq<Bucket>, upload: DocumentUpload, save: Save): Staged<seq<Bucket>, Effect> {
    match upload.files
    case None => Staged(docs, [])
    case Some(files) =>
      var saved := SaveAll(NonEmptyFiles(files), DocumentsPrefix + upload.kind, save);
      Staged(AddToBucket(docs, upload.kind, saved.value), saved.effects)
  }

  /** `MapDocumentsFromRequest`: each document list in turn. */
  function MapDocuments(docs: seq<Bucket>, uploads: seq<DocumentUpload>, save: Save): Staged<seq<Bucket>, Effect>
    decreases |uploads|
  {
    if uploads == [] then Staged(docs, [])
    else
      var first := MapUpload(docs, uploads[0], save);
      var rest := MapDocuments(first.value, uploads[1..], save);
      Staged(rest.value, first.effects + rest.effects)
  }

  /** The names one present list of a type adds: its non-empty files, saved
      into that type's folder. */
  function AddedFor(files: Option<seq<FormFile>>, kind: string, save: Save): seq<string> {
    if files.Some? then SaveAll(NonEmptyFiles(files.value), DocumentsPrefix + kind, save).value else []
  }

  /** The names a list of uploads adds to one document type, stated without
      the dictionary: the saved non-empty files of every present list of that
      type, in order. */
  function Added(uploads: seq<DocumentUpload>, kind: string, save: Save): seq<string> {
    if uploads == [] then []
    else (if uploads[0].kind == kind then AddedFor(uploads[0].files, kind, save) else []) + Added(uploads[1..], kind, save)
  }

  /** The document types whose list is present. */
  function Requested(uploads: seq<DocumentUpload>): set<string> {
    if uploads == [] then {}
    else (if uploads[0].files.Some? then {uploads[0].kind} else {}) + Requested(uploads[1..])
  }

  /** Mapping the documents appends to each type's list exactly the names
      `Added` describes; nothing already stored is removed. */
  lemma {:induction false} MapDocumentsAppends(docs: seq<Bucket>, uploads: seq<DocumentUpload>, save: Save, kind: string)
    ensures FilesOf(MapDocuments(docs, uploads, save).value, kind) == FilesOf(docs, kind) + Added(uploads, kind, save)
    decreases |uploads|
  {
    if uploads != [] {
      var first := MapUpload(docs, uploads[0], save);
      MapDocumentsAppends(first.value, uploads[1..], save, kind);
      if uploads[0].files.Some? {
        var saved := SaveAll(NonEmptyFiles(uploads[0].files.value), DocumentsPrefix + uploads[0].kind, save);
        AddToBucketFiles(docs, uploads[0].kind, saved.value, kind);
      }
    }
  }

  /** Every present list leaves a bucket for its type behind, even when none
      of its files is saved; no key is dropped. */
  lemma {:induction false} MapDocumentsKinds(docs: seq<Bucket>, uploads: seq<DocumentUpload>, save: Save)
    ensures Kinds(MapDocuments(docs, uploads, save).value) == Kinds(docs) + Requested(uploads)
    decreases |uploads|
  {
    if uploads != [] {
      var first := MapUpload(docs, uploads[0], save);
      MapDocumentsKinds(first.value, uploads[1..], save);
    }
  }

  /** Mapping the documents keeps the keys unique. */
  lemma {:induction false} MapDocumentsUnique(docs: seq<Bucket>, uploads: seq<DocumentUpload>, save: Save)
    requires UniqueKinds(docs)
    ensures UniqueKinds(MapDocuments(docs, uploads, save).value)
    decreases |uploads|
  {
    if uploads != [] {
      var first := MapUpload(docs, uploads[0], save);
      if uploads[0].files.Some? {
        var saved := SaveAll(NonEmptyFiles(uploads[0].files.value), DocumentsPrefix + uploads[0].kind, save);
        AddToBucketUnique(docs, uploads[0].kind, saved.value);
      }
      MapDocumentsUnique(first.value, uploads[1..], save);
    }
  }

  /** The writes of mapping the documents are saves only. */
  lemma {:induction false} MapDocumentsOnlySaves(docs: seq<Bucket>, uploads: seq<DocumentUpload>, save: Save)
    ensures forall k | 0 <= k < |MapDocuments(docs, uploads, save).effects| :: MapDocuments(docs, uploads, save).effects[k].SaveFile?
    decreases |uploads|
  {
    if uploads != [] {
      var first := MapUpload(docs, uploads[0], save);
      MapDocumentsOnlySaves(first.value, uploads[1..], save);
    }
  }

  /** When a type occurs once among the lists, it gets that list's names. */
  lemma {:induction false} AddedAt(u: seq<DocumentUpload>, j: nat, kind: string, save: Save)
    requires j < |u| && u[j].kind == kind
    requires forall i | 0 <= i < |u| && i != j :: u[i].kind != kind
    ensures Added(u, kind, save) == AddedFor(u[j].files, kind, save)
  {
    if j == 0 {
      AddedOther(u[1..], kind, save);
    } else {
      AddedAt(u[1..], j - 1, kind, save);
    }
  }

  /** Lists of other types add nothing to a type. */
  lemma {:induction false} AddedOther(u: seq<DocumentUpload>, kind: string, save: Save)
    requires forall i | 0 <= i < |u| :: u[i].kind != kind
    ensures Added(u, kind, save) == []
  {
    if u != [] {
      AddedOther(u[1..], kind, save);
    }
  }

  /** For the form's four lists, each type gets exactly the saved non-empty
      files of its own list appended. */
  lemma FormDocumentsPerType(form: ProductForm, docs: seq<Bucket>, save: Save)
    ensures var r := MapDocuments(docs, DocumentUploads(form), save).value;
            && FilesOf(r, TechnicalDataSheet) == FilesOf(docs, TechnicalDataSheet) + AddedFor(form.technicalDataSheetFiles, TechnicalDataSheet, save)
            && FilesOf(r, SafetyDataSheet) == FilesOf(docs, SafetyDataSheet) + AddedFor(form.safetyDataSheetFiles, SafetyDataSheet, save)
            && FilesOf(r, SalesBrochure) == FilesOf(docs, SalesBrochure) + AddedFor(form.salesBrochureFiles, SalesBrochure, save)
            && FilesOf(r, CompanyProfile) == FilesOf(docs, CompanyProfile) + AddedFor(form.companyProfileFiles, CompanyProfile, save)
  {
    FormDocumentsAt(form, docs, save, 0);
    FormDocumentsAt(form, docs, save, 1);
    FormDocumentsAt(form, docs, save, 2);
    FormDocumentsAt(form, docs, save, 3);
  }

  /** The form's list at position `j` is the only one of its type. */
  lemma FormDocumentsAt(form: ProductForm, docs: seq<Bucket>, save: Save, j: nat)
    requires j < 4
    ensures var u := DocumentUploads(form);
            FilesOf(MapDocuments(docs, u, save).value, u[j].kind) == FilesOf(docs, u[j].kind) + AddedFor(u[j].files, u[j].kind, save)
  {
    var u := DocumentUploads(form);
    assert |TechnicalDataSheet| == 20 && |SafetyDataSheet| == 17 && |SalesBrochure| == 14 && |CompanyProfile| == 15;
    MapDocumentsAppends(docs, u, save, u[j].kind);
    AddedAt(u, j, u[j].kind, save);
  }

  // ---- Lookup ----

  function GetById(id: int, store: Store): (r: Reply)
    ensures r.effects == []
    ensures store.byId(id).None? ==> r == Reply(404, NoBody, [])
    ensures store.byId(id).Some? ==> r == Reply(200, ProductBody(store.byId(id).value), [])
  {
    match store.byId(id)
    case None => Reply(404, NoBody, [])
    case Some(p) => Reply(200, ProductBody(p), [])
  }

  // ---- Update (PUT) ----

  /** A text member the form overwrites only with a non-empty value. */
  function Overwrite(current: Option<string>, given: Option<string>): (r: Option<string>)
    ensures r == current || r == given
    ensures r == given <==> !IsNullOrEmpty(given) || given == current
  {
    if IsNullOrEmpty(given) then current else given
  }

  /** A list the form replaces only with a non-empty one. */
  function OverwriteList(current: seq<string>, given: seq<string>): (r: seq<string>)
    ensures r == current || r == given
    ensures r == given <==> given != [] || given == current
  {
    if given == [] then current else given
  }

  /** `Deserialize(json) ?? fallback`, `None` when it throws. */
  function Decode<T>(json: string, parse: string -> Json<T>, fallback: T): Option<T> {
    match parse(json)
    case Malformed => None
    case JsonNull => Some(fallback)
    case Parsed(v) => Some(v)
  }

  /** The overview members that are read deserialize: `OverviewJson` when
      it is given, and otherwise `SpecificationsJson` when that is given. */
  predicate OverviewDecodes(form: ProductForm, parsers: Parsers) {
    if !IsNullOrEmpty(form.overviewJson) then !parsers.overview(form.overviewJson.value).Malformed?
    else IsNullOrEmpty(form.specificationsJson) || !parsers.specifications(form.specificationsJson.value).Malformed?
  }

  /** The overview after a PUT: a whole overview from `OverviewJson`, or else
      the details and the specifications each replaced when given, or else
      the stored overview; `None` when a JSON member does not decode. */
  function UpdateOverview(current: Overview, form: ProductForm, parsers: Parsers): (r: Option<Overview>)
    ensures r.Some? <==> OverviewDecodes(form, parsers)
  {
    if !IsNullOrEmpty(form.overviewJson) then Decode(form.overviewJson.value, parsers.overview, EmptyOverview)
    else if !IsNullOrEmpty(form.overviewDetails) || !IsNullOrEmpty(form.specificationsJson) then
      var details := Overwrite(current.details, form.overviewDetails);
      if IsNullOrEmpty(form.specificationsJson) then Some(Overview(details, current.specifications))
      else match Decode(form.specificationsJson.value, parsers.specifications, [])
        case None => None
        case Some(specifications) => Some(Overview(details, specifications))
    else Some(current)
  }

  /** The three overview rules, each stated on its own. */
  lemma OverviewRules(current: Overview, form: ProductForm, parsers: Parsers)
    ensures !IsNullOrEmpty(form.overviewJson) && parsers.overview(form.overviewJson.value).Parsed? ==>
              UpdateOverview(current, form, parsers) == Some(parsers.overview(form.overviewJson.value).value)
    ensures IsNullOrEmpty(form.overviewJson) && UpdateOverview(current, form, parsers).Some? ==>
              && UpdateOverview(current, form, parsers).value.details == (if IsNullOrEmpty(form.overviewDetails) then current.details else form.overviewDetails)
              && (IsNullOrEmpty(form.specificationsJson) ==> UpdateOverview(current, form, parsers).value.specifications == current.specifications)
    ensures IsNullOrEmpty(form.overviewJson) && IsNullOrEmpty(form.overviewDetails) && IsNullOrEmpty(form.specificationsJson) ==>
              UpdateOverview(current, form, parsers) == Some(current)
    ensures UpdateOverview(current, form, parsers).None? <==>
              if !IsNullOrEmpty(form.overviewJson) then parsers.overview(form.overviewJson.value).Malformed?
              else !IsNullOrEmpty(form.specificationsJson) && parsers.specifications(form.specificationsJson.value).Malformed?
  {
  }

  /** Applying the same overview members twice changes nothing more. */
  lemma UpdateOverviewIdempotent(current: Overview, form: ProductForm, parsers: Parsers)
    requires UpdateOverview(current, form, parsers).Some?
    ensures UpdateOverview(UpdateOverview(current, form, parsers).value, form, parsers) == UpdateOverview(current, form, parsers)
  {
  }

  /** The main image after a PUT: replaced, the old file deleted first, only
      when the new file has content. */
  function ReplaceMainImage(image: Option<string>, file: Option<FormFile>, save: Save): (r: Staged<Option<string>, Effect>)
    ensures file.Some? && file.value.length > 0 ==>
              r == Staged(Some(save(file.value, MainFolder)), [DeleteFile(image.GetOr(""), MainFolder), SaveFile(file.value, MainFolder)])
    ensures !(file.Some? && file.value.length > 0) ==> r == Staged(image, [])
  {
    if file.Some? && file.value.length > 0 then
      Staged(Some(save(file.value, MainFolder)), [DeleteFile(image.GetOr(""), MainFolder), SaveFile(file.value, MainFolder)])
    else Staged(image, [])
  }

  /** The related images after a PUT: when some file has content, every old
      image is deleted and the list becomes the saved non-empty files. */
  function ReplaceRelated(images: seq<string>, files: Option<seq<FormFile>>, save: Save): (r: Staged<seq<string>, Effect>)
    ensures files.None? || NonEmptyFiles(files.value) == [] ==> r == Staged(images, [])
    ensures files.Some? && NonEmptyFiles(files.value) != [] ==>
              var kept := NonEmptyFiles(files.value);
              && |r.value| == |kept|
              && (forall i | 0 <= i < |kept| :: r.value[i] == save(kept[i], RelatedFolder))
              && |r.effects| == |images| + |kept|
              && (forall i | 0 <= i < |images| :: r.effects[i] == DeleteFile(images[i], RelatedFolder))
              && (forall i | 0 <= i < |kept| :: r.effects[|images| + i] == SaveFile(kept[i], RelatedFolder))
  {
    if files.None? || NonEmptyFiles(files.value) == [] then Staged(images, [])
    else
      var saved := SaveAll(NonEmptyFiles(files.value), RelatedFolder, save);
      var deleted := DeleteAll(images, RelatedFolder);
      Staged(saved.value, deleted + saved.effects)
  }

  /** `Any(f => f.Length > 0)` over the four document lists. */
  predicate AnyDocument(form: ProductForm) {
    exists i | 0 <= i < 4 :: DocumentUploads(form)[i].files.Some? && NonEmptyFiles(DocumentUploads(form)[i].files.value) != []
  }

  /** The documents after a PUT: mapped only when some list has a file with
      content. */
  function UpdateDocuments(docs: seq<Bucket>, form: ProductForm, save: Save): Staged<seq<Bucket>, Effect> {
    if AnyDocument(form) then MapDocuments(docs, DocumentUploads(form), save) else Staged(docs, [])
  }

  /** What PUT promises about the product it stores: the same id, the
      required name, each other text member and list overwritten only by a
      non-empty value. */
  predicate UpdateFields(existing: Product, form: ProductForm, p: Product)
    requires form.name.Some?
  {
    && p.id == existing.id
    && p.name == form.name.value
    && p.description == Overwrite(existing.description, form.description)
    && p.category == Overwrite(existing.category, form.category)
    && p.subCategory == Overwrite(existing.subCategory, form.subCategory)
    && p.brand == Overwrite(existing.brand, form.brand)
    && p.applicationRange == Overwrite(existing.applicationRange, form.applicationRange)
    && p.advantages == OverwriteList(existing.advantages, form.advantages)
    && p.precautions == OverwriteList(existing.precautions, form.precautions)
  }

  /** The product a PUT stores, given the new overview, with the file writes
      made on the way: main image, related images, documents. */
  function Revised(existing: Product, form: ProductForm, overview: Overview, save: Save): (r: Staged<Product, Effect>)
    requires form.name.Some?
    ensures UpdateFields(existing, form, r.value)
    ensures r.value.overview == overview
    ensures r.value.image == ReplaceMainImage(existing.image, form.imageFile, save).value
    ensures r.value.relatedImages == ReplaceRelated(existing.relatedImages, form.relatedImageFiles, save).value
    ensures r.value.documents == UpdateDocuments(existing.documents, form, save).value
    ensures r.effects == ReplaceMainImage(existing.image, form.imageFile, save).effects
                       + ReplaceRelated(existing.relatedImages, form.relatedImageFiles, save).effects
                       + UpdateDocuments(existing.documents, form, save).effects
  {
    var image := ReplaceMainImage(existing.image, form.imageFile, save);
    var related := ReplaceRelated(existing.relatedImages, form.relatedImageFiles, save);
    var documents := UpdateDocuments(existing.documents, form, save);
    var p := existing.(
      name := form.name.value,
      description := Overwrite(existing.description, form.description),
      category := Overwrite(existing.category, form.category),
      subCategory := Overwrite(existing.subCategory, form.subCategory),
      brand := Overwrite(existing.brand, form.brand),
      applicationRange := Overwrite(existing.applicationRange, form.applicationRange),
      advantages := OverwriteList(existing.advantages, form.advantages),
      precautions := OverwriteList(existing.precautions, form.precautions),
      overview := overview,
      image := image.value,
      relatedImages := related.value,
      documents := documents.value);
    Staged(p, image.effects + related.effects + documents.effects)
  }

  /** PUT: a partial update.  A blank name is refused by the framework's
      validation before the lookup; a JSON member that does not decode is
      caught and answered with 500; a store that reports no row updated
      gives 400 after the files have been written. */
  function Update(id: int, form: ProductForm, store: Store, parsers: Parsers, save: Save): (r: Reply)
    ensures IsNullOrWhiteSpace(form.name) ==> r == Reply(400, Invalid, [])
    ensures !IsNullOrWhiteSpace(form.name) && store.byId(id).None? ==> r == Reply(404, NoBody, [])
    ensures r.status in {200, 400, 404, 500}
    ensures r.status == 500 ==> r == Reply(500, Message(ServerError), [])
    ensures r.status == 500 <==> !IsNullOrWhiteSpace(form.name) && store.byId(id).Some? && !OverviewDecodes(form, parsers)
    ensures !IsNullOrWhiteSpace(form.name) && store.byId(id).Some? && OverviewDecodes(form, parsers) ==>
              r.status == 200 || r.body == Message(UpdateFailed)
    ensures r.status == 200 || r.body == Message(UpdateFailed) ==>
              && form.name.Some? && store.byId(id).Some?
              && UpdateOverview(store.byId(id).value.overview, form, parsers).Some?
              && var made := Revised(store.byId(id).value, form, UpdateOverview(store.byId(id).value.overview, form, parsers).value, save);
              && r.effects == made.effects + [UpdateProduct(made.value)]
              && r == (if store.update(made.value) then Reply(200, ProductBody(made.value), r.effects)
                       else Reply(400, Message(UpdateFailed), r.effects))
  {
    if IsNullOrWhiteSpace(form.name) then Reply(400, Invalid, [])
    else match store.byId(id)
      case None => Reply(404, NoBody, [])
      case Some(existing) =>
        match UpdateOverview(existing.overview, form, parsers)
        case None => Reply(500, Message(ServerError), [])
        case Some(overview) =>
          var made := Revised(existing, form, overview, save);
          var effects := made.effects + [UpdateProduct(made.value)];
          if store.update(made.value) then Reply(200, ProductBody(made.value), effects)
          else Reply(400, Message(UpdateFailed), effects)
  }

  /** Conversely, a PUT with a name for a stored product whose overview
      members decode writes the files of `Revised`, then the record, and
      answers 200 when the store reports the row updated and 400 "Update
      failed" otherwise. */
  lemma UpdateSucceeds(id: int, form: ProductForm, store: Store, parsers: Parsers, save: Save)
    requires !IsNullOrWhiteSpace(form.name) && store.byId(id).Some? && OverviewDecodes(form, parsers)
    ensures var existing := store.byId(id).value;
            var made := Revised(existing, form, UpdateOverview(existing.overview, form, parsers).value, save);
            var effects := made.effects + [UpdateProduct(made.value)];
            Update(id, form, store, parsers, save)
              == if store.update(made.value) then Reply(200, ProductBody(made.value), effects)
                 else Reply(400, Message(UpdateFailed), effects)
  {
  }

  /** The name guard of PUT can never fail: validation has already refused
      every blank name, so a successful PUT always stores the form's name. */
  lemma UpdateAlwaysRenames(id: int, form: ProductForm, store: Store, parsers: Parsers, save: Save)
    requires Update(id, form, store, parsers, save).status == 200
    ensures !IsNullOrEmpty(form.name)
    ensures Update(id, form, store, parsers, save).body.product.name == form.name.value
  {
  }

  /** A missing product is reported before any file is touched. */
  lemma UpdateMissingWritesNothing(id: int, form: ProductForm, store: Store, parsers: Parsers, save: Save)
    requires store.byId(id).None?
    ensures Update(id, form, store, parsers, save).status in {400, 404}
    ensures Update(id, form, store, parsers, save).effects == []
  {
  }

  /** A PUT carrying nothing but the current name stores the product as it
      was and writes no file. */
  lemma EmptyUpdateKeepsProduct(id: int, form: ProductForm, store: Store, parsers: Parsers, save: Save)
    requires store.byId(id).Some? && form.name == Some(store.byId(id).value.name)
    requires !IsNullOrWhiteSpace(form.name)
    requires IsNullOrEmpty(form.description) && IsNullOrEmpty(form.category) && IsNullOrEmpty(form.subCategory)
    requires IsNullOrEmpty(form.brand) && IsNullOrEmpty(form.applicationRange)
    requires IsNullOrEmpty(form.overviewJson) && IsNullOrEmpty(form.overviewDetails) && IsNullOrEmpty(form.specificationsJson)
    requires form.advantages == [] && form.precautions == []
    requires form.imageFile.None? && form.relatedImageFiles.None?
    requires !AnyDocument(form)
    ensures Update(id, form, store, parsers, save).effects == [UpdateProduct(store.byId(id).value)]
  {
    var existing := store.byId(id).value;
    var made := Revised(existing, form, existing.overview, save);
    assert made.value == existing;
  }

  // ---- Create ----

  /** The overview of a new product: a whole overview from `OverviewJson`,
      or else the form's details with the decoded specifications. */
  function NewOverview(form: ProductForm, parsers: Parsers): (r: Option<Overview>)
    ensures r.Some? <==> OverviewDecodes(form, parsers)
  {
    if !IsNullOrEmpty(form.overviewJson) then Decode(form.overviewJson.value, parsers.overview, EmptyOverview)
    else if IsNullOrEmpty(form.specificationsJson) then Some(Overview(form.overviewDetails, []))
    else match Decode(form.specificationsJson.value, parsers.specifications, [])
      case None => None
      case Some(specifications) => Some(Overview(form.overviewDetails, specifications))
  }

  /** The product a POST stores, with its file writes: the main image when
      a file is sent, every related file in turn, then the documents. */
  function Fresh(form: ProductForm, overview: Overview, save: Save): (r: Staged<Product, Effect>)
    requires form.name.Some?
    ensures r.value.id == 0 && r.value.name == form.name.value
    ensures r.value.description == form.description && r.value.category == form.category
    ensures r.value.subCategory == form.subCategory && r.value.brand == form.brand
    ensures r.value.applicationRange == form.applicationRange
    ensures r.value.overview == overview
    ensures r.value.advantages == form.advantages && r.value.precautions == form.precautions
    ensures r.value.image == if form.imageFile.Some? then Some(save(form.imageFile.value, MainFolder)) else None
    ensures |r.value.relatedImages| == |form.relatedImageFiles.GetOr([])|
    ensures forall i | 0 <= i < |r.value.relatedImages| :: r.value.relatedImages[i] == save(form.relatedImageFiles.value[i], RelatedFolder)
    ensures r.value.documents == MapDocuments([], DocumentUploads(form), save).value
  {
    var image := if form.imageFile.Some? then Staged(Some(save(form.imageFile.value, MainFolder)), [SaveFile(form.imageFile.value, MainFolder)])
                 else Staged(None, []);
    var related := SaveAll(form.relatedImageFiles.GetOr([]), RelatedFolder, save);
    var documents := MapDocuments([], DocumentUploads(form), save);
    var p := Product(0, form.name.value, form.description, image.value, related.value, form.category, form.subCategory,
                     form.brand, form.applicationRange, overview, form.advantages, form.precautions, documents.value);
    Staged(p, image.effects + related.effects + documents.effects)
  }

  /** POST: a new product.  A blank name is refused by validation; a JSON
      member that does not decode is caught and answered with 500. */
  function Create(form: ProductForm, store: Store, parsers: Parsers, save: Save): (r: Reply)
    ensures IsNullOrWhiteSpace(form.name) ==> r == Reply(400, Invalid, [])
    ensures r.status in {201, 400, 500}
    ensures r.status == 400 <==> IsNullOrWhiteSpace(form.name)
    ensures r.status == 201 <==> !IsNullOrWhiteSpace(form.name) && OverviewDecodes(form, parsers)
    ensures r.status == 500 <==> !IsNullOrWhiteSpace(form.name) && NewOverview(form, parsers).None?
    ensures r.status == 500 ==> r == Reply(500, Message(ServerError), [])
    ensures r.status == 201 ==>
              && form.name.Some? && NewOverview(form, parsers).Some?
              && var made := Fresh(form, NewOverview(form, parsers).value, save);
              && r.effects == made.effects + [CreateProduct(made.value)]
              && r.body == ProductBody(made.value.(id := store.create(made.value)))
  {
    if IsNullOrWhiteSpace(form.name) then Reply(400, Invalid, [])
    else match NewOverview(form, parsers)
      case None => Reply(500, Message(ServerError), [])
      case Some(overview) =>
        var made := Fresh(form, overview, save);
        Reply(201, ProductBody(made.value.(id := store.create(made.value))), made.effects + [CreateProduct(made.value)])
  }

  /** Conversely, a form with a name whose overview members decode saves the
      files of `Fresh`, then the record, and answers 201 with the product
      under the id the store assigns. */
  lemma CreateSucceeds(form: ProductForm, store: Store, parsers: Parsers, save: Save)
    requires !IsNullOrWhiteSpace(form.name) && OverviewDecodes(form, parsers)
    ensures var made := Fresh(form, NewOverview(form, parsers).value, save);
            Create(form, store, parsers, save)
              == Reply(201, ProductBody(made.value.(id := store.create(made.value))), made.effects + [CreateProduct(made.value)])
  {
  }

  /** POST saves every related file, empty ones included, where PUT skips
      the empty ones. */
  lemma CreateKeepsEmptyRelatedFiles(form: ProductForm, store: Store, parsers: Parsers, save: Save)
    requires Create(form, store, parsers, save).status == 201
    ensures |Create(form, store, parsers, save).body.product.relatedImages| == |form.relatedImageFiles.GetOr([])|
  {
  }

  // ---- Delete ----

  /** One deletion per stored document, bucket by bucket, each from its
      type's folder. */
  function DocumentDeletes(docs: seq<Bucket>): (r: seq<Effect>)
    ensures forall k | 0 <= k < |r| :: r[k].DeleteFile?
  {
    if docs == [] then [] else DeleteAll(docs[0].files, DocumentsPrefix + docs[0].kind) + DocumentDeletes(docs[1..])
  }

  /** Every file of every bucket gets its deletion. */
  lemma {:induction false} DocumentDeletesCover(docs: seq<Bucket>, b: nat, i: nat)
    requires b < |docs| && i < |docs[b].files|
    ensures DeleteFile(docs[b].files[i], DocumentsPrefix + docs[b].kind) in DocumentDeletes(docs)
  {
    var head := DeleteAll(docs[0].files, DocumentsPrefix + docs[0].kind);
    if b == 0 {
      assert head[i] == DeleteFile(docs[0].files[i], DocumentsPrefix + docs[0].kind);
      assert DocumentDeletes(docs) == head + DocumentDeletes(docs[1..]);
    } else {
      DocumentDeletesCover(docs[1..], b - 1, i);
      assert DocumentDeletes(docs) == head + DocumentDeletes(docs[1..]);
    }
  }

  /** DELETE: every stored file, then the record; a store that reports no
      row deleted gives 404 after the files are gone. */
  function Delete(id: int, store: Store): (r: Reply)
    ensures store.byId(id).None? ==> r == Reply(404, NoBody, [])
    ensures store.byId(id).Some? ==>
              && r.status == (if store.delete(id) then 204 else 404) && r.body == NoBody
              && |r.effects| > 0 && r.effects[|r.effects| - 1] == DeleteProduct(id)
              && forall k | 0 <= k < |r.effects| - 1 :: r.effects[k].DeleteFile?
  {
    match store.byId(id)
    case None => Reply(404, NoBody, [])
    case Some(p) =>
      var files := [DeleteFile(p.image.GetOr(""), MainFolder)] + DeleteAll(p.relatedImages, RelatedFolder) + DocumentDeletes(p.documents);
      Reply(if store.delete(id) then 204 else 404, NoBody, files + [DeleteProduct(id)])
  }

  /** Delete removes the main image, every related image and every document
      before the record. */
  lemma DeleteRemovesEveryFile(id: int, store: Store)
    requires store.byId(id).Some?
    ensures var p, e := store.byId(id).value, Delete(id, store).effects;
            && e[0] == DeleteFile(p.image.GetOr(""), MainFolder)
            && (forall i | 0 <= i < |p.relatedImages| :: e[1 + i] == DeleteFile(p.relatedImages[i], RelatedFolder))
            && (forall b, i | 0 <= b < |p.documents| && 0 <= i < |p.documents[b].files| ::
                  DeleteFile(p.documents[b].files[i], DocumentsPrefix + p.documents[b].kind) in e[..|e| - 1])
  {
    var p := store.byId(id).value;
    var related := DeleteAll(p.relatedImages, RelatedFolder);
    var docs := DocumentDeletes(p.documents);
    var files := [DeleteFile(p.image.GetOr(""), MainFolder)] + related + docs;
    var e := files + [DeleteProduct(id)];
    assert Delete(id, store).effects == e;
    assert e[..|e| - 1] == files;
    forall i | 0 <= i < |p.relatedImages| ensures e[1 + i] == DeleteFile(p.relatedImages[i], RelatedFolder) {
      assert e[1 + i] == related[i];
    }
    forall b, i | 0 <= b < |p.documents| && 0 <= i < |p.documents[b].files|
      ensures DeleteFile(p.documents[b].files[i], DocumentsPrefix + p.documents[b].kind) in e[..|e| - 1]
    {
      DocumentDeletesCover(p.documents, b, i);
    }
  }
}

=== FILE: register_validator.dfy ===
/** The rule set applied to a registration request, yielding the messages of
    every failed rule in declaration order (FluentValidation evaluates every
    rule of a chain and reports each failure).  The length rules count
    UTF-16 code units, as `string.Length` does. */
module RegisterValidator {
  import opened Wrappers
  import opened Text
  import PasswordValidator
  import opened Validation

  const MaxEmailLength: nat := 100
  const MinPasswordLength: nat := 8
  const MaxNameLength: nat := 50
  const CountryCodeLength: nat := 2
  const MaxPhoneDigits: nat := 15

  /** The body of a registration call; absent members are null. */
  datatype RegisterRequest = RegisterRequest(
    email: Option<string>,
    password: Option<string>,
    firstName: Option<string>,
    lastName: Option<string>,
    phone: Option<string>,
    country: Option<string>)

  /** One failed rule; `Message` gives the text the service reports. */
  datatype RegisterError =
    | EmailRequired
    | EmailInvalid
    | EmailTooLong
    | PasswordRequired
    | PasswordTooShort
    | PasswordNoUpper
    | PasswordNoLower
    | PasswordNoDigit
    | PasswordNoSpecial
    | FirstNameTooLong
    | LastNameTooLong
    | PhoneInvalid
    | CountryInvalid

  function Message(e: RegisterError): string {
    match e
    case EmailRequired => "Email is required"
    case EmailInvalid => "Invalid email format"
    case EmailTooLong => "Email must not exceed 100 characters"
    case PasswordRequired => "Password is required"
    case PasswordTooShort => "Password must be at least 8 characters"
    case PasswordNoUpper => "Password must contain at least one uppercase letter"
    case PasswordNoLower => "Password must contain at least one lowercase letter"
    case PasswordNoDigit => "Password must contain at least one digit"
    case PasswordNoSpecial => "Password must contain at least one special character (@$!%*?&#)"
    case FirstNameTooLong => "First name must not exceed 50 characters"
    case LastNameTooLong => "Last name must not exceed 50 characters"
    case PhoneInvalid => "Invalid phone number format"
    case CountryInvalid => "Country code must be 2 characters (ISO format)"
  }

  /** The messages of a list of errors, in order. */
  function Messages(errors: seq<RegisterError>): (messages: seq<string>)
    ensures |messages| == |errors|
    ensures forall i | 0 <= i < |errors| :: messages[i] == Message(errors[i])
  {
    if errors == [] then [] else [Message(errors[0])] + Messages(errors[1..])
  }

  function Check(ok: bool, error: RegisterError): seq<RegisterError> {
    if ok then [] else [error]
  }

  /** A string rule that FluentValidation skips for null values. */
  predicate NullOr(v: Option<string>, p: string -> bool) {
    v.None? || p(v.value)
  }

  /** `NotEmpty()`: fails on null, "" and white space only. */
  predicate NotEmpty(v: Option<string>) {
    !IsNullOrWhiteSpace(v)
  }

  predicate HasUpper(s: string) { PasswordValidator.HasUppercase(s) }
  predicate HasLower(s: string) { PasswordValidator.HasLowercase(s) }
  predicate HasDigit(s: string) { PasswordValidator.HasDigit(s) }
  predicate HasSpecial(s: string) { PasswordValidator.HasSpecial(s) }

  /** `[1-9]\d{1,14}`: an ASCII digit 1-9, then one to fourteen digits of
      any script.  Only single code units match, so characters and code
      units agree here. */
  predicate PhoneDigits(t: string) {
    && 2 <= |t| <= MaxPhoneDigits
    && '1' <= t[0] <= '9'
    && forall i | 1 <= i < |t| :: IsRegexDigit(t[i])
  }

  predicate PhoneBody(s: string) {
    PhoneDigits(s) || (|s| > 0 && s[0] == '+' && PhoneDigits(s[1..]))
  }

  /** `Regex.IsMatch(s, @"^\+?[1-9]\d{1,14}$")`.  In .NET `$` without the
      multiline option matches at the very end and also just before a final
      line feed, so one trailing '\n' is accepted. */
  predicate PhoneMatches(s: string) {
    PhoneBody(s) || (|s| > 0 && s[|s| - 1] == '\n' && PhoneBody(s[..|s| - 1]))
  }

  function EmailErrors(email: Option<string>, isEmailAddress: string -> bool): (errors: seq<RegisterError>)
    ensures (EmailRequired in errors) <==> !NotEmpty(email)
    ensures (EmailTooLong in errors) <==> (email.Some? && Utf16Length(email.value) > MaxEmailLength)
    ensures (EmailInvalid in errors) <==> (email.Some? && !isEmailAddress(email.value))
    ensures errors == [] <==> NotEmpty(email) && isEmailAddress(email.value) && Utf16Length(email.value) <= MaxEmailLength
  {
    Check(NotEmpty(email), EmailRequired)
    + Check(NullOr(email, isEmailAddress), EmailInvalid)
    + Check(email.None? || Utf16Length(email.value) <= MaxEmailLength, EmailTooLong)
  }

  /** The four character-class rules of the password chain, given which of
      them pass. */
  function ClassChecks(upper: bool, lower: bool, digit: bool, special: bool): (errors: seq<RegisterError>)
    ensures PasswordNoUpper in errors <==> !upper
    ensures PasswordNoLower in errors <==> !lower
    ensures PasswordNoDigit in errors <==> !digit
    ensures PasswordNoSpecial in errors <==> !special
    ensures PasswordRequired !in errors && PasswordTooShort !in errors
    ensures errors == [] <==> upper && lower && digit && special
  {
    Check(upper, PasswordNoUpper) + Check(lower, PasswordNoLower) + Check(digit, PasswordNoDigit)
    + Check(special, PasswordNoSpecial)
  }

  /** The password chain once the value is known not to be null, given
      which of its rules pass. */
  function PasswordChecks(filled: bool, long: bool, upper: bool, lower: bool, digit: bool, special: bool): (errors: seq<RegisterError>)
    ensures PasswordRequired in errors <==> !filled
    ensures PasswordTooShort in errors <==> !long
    ensures PasswordNoUpper in errors <==> !upper
    ensures PasswordNoLower in errors <==> !lower
    ensures PasswordNoDigit in errors <==> !digit
    ensures PasswordNoSpecial in errors <==> !special
    ensures errors == [] <==> filled && long && upper && lower && digit && special
  {
    Check(filled, PasswordRequired) + Check(long, PasswordTooShort) + ClassChecks(upper, lower, digit, special)
  }

  function PasswordErrors(password: Option<string>): (errors: seq<RegisterError>)
    ensures (PasswordRequired in errors) <==> !NotEmpty(password)
    ensures password.Some? ==>
              && ((PasswordTooShort in errors) <==> Utf16Length(password.value) < MinPasswordLength)
              && ((PasswordNoUpper in errors) <==> !HasUpper(password.value))
              && ((PasswordNoLower in errors) <==> !HasLower(password.value))
              && ((PasswordNoDigit in errors) <==> !HasDigit(password.value))
              && ((PasswordNoSpecial in errors) <==> !HasSpecial(password.value))
    ensures password.None? ==> errors == [PasswordRequired]
  {
    match password
    case None => [PasswordRequired]
    case Some(p) =>
      PasswordChecks(!AllWhiteSpace(p), Utf16Length(p) >= MinPasswordLength, HasUpper(p), HasLower(p), HasDigit(p), HasSpecial(p))
  }

  /** `MaximumLength(50).When(x => !string.IsNullOrEmpty(x))`. */
  function NameErrors(name: Option<string>, error: RegisterError): (errors: seq<RegisterError>)
    ensures errors == [] <==> (IsNullOrEmpty(name) || Utf16Length(name.value) <= MaxNameLength)
    ensures errors != [] ==> errors == [error]
  {
    if IsNullOrEmpty(name) then [] else Check(Utf16Length(name.value) <= MaxNameLength, error)
  }

  function PhoneErrors(phone: Option<string>): (errors: seq<RegisterError>)
    ensures errors == [] <==> (IsNullOrEmpty(phone) || PhoneMatches(phone.value))
    ensures errors != [] ==> errors == [PhoneInvalid]
  {
    if IsNullOrEmpty(phone) then [] else Check(PhoneMatches(phone.value), PhoneInvalid)
  }

  /** `Length(2)`: exactly two UTF-16 code units; the code itself is not
      checked. */
  function CountryErrors(country: Option<string>): (errors: seq<RegisterError>)
    ensures errors == [] <==> (IsNullOrEmpty(country) || Utf16Length(country.value) == CountryCodeLength)
    ensures errors != [] ==> errors == [CountryInvalid]
  {
    if IsNullOrEmpty(country) then [] else Check(Utf16Length(country.value) == CountryCodeLength, CountryInvalid)
  }

  /** The whole request is acceptable, stated field by field. */
  predicate IsValidRequest(r: RegisterRequest, isEmailAddress: string -> bool) {
    && NotEmpty(r.email) && isEmailAddress(r.email.value) && Utf16Length(r.email.value) <= MaxEmailLength
    && NotEmpty(r.password) && Utf16Length(r.password.value) >= MinPasswordLength
    && HasUpper(r.password.value) && HasLower(r.password.value)
    && HasDigit(r.password.value) && HasSpecial(r.password.value)
    && (IsNullOrEmpty(r.firstName) || Utf16Length(r.firstName.value) <= MaxNameLength)
    && (IsNullOrEmpty(r.lastName) || Utf16Length(r.lastName.value) <= MaxNameLength)
    && (IsNullOrEmpty(r.phone) || PhoneMatches(r.phone.value))
    && (IsNullOrEmpty(r.country) || Utf16Length(r.country.value) == CountryCodeLength)
  }

  /** `RegisterRequestValidator`: the errors of all failed rules, in the
      order the rules are declared.  `isEmailAddress` is FluentValidation's
      `EmailAddress()` check, which is not part of this model. */
  function Validate(r: RegisterRequest, isEmailAddress: string -> bool): (errors: seq<RegisterError>)
    ensures errors == [] <==> IsValidRequest(r, isEmailAddress)
    ensures !NotEmpty(r.email) ==> EmailRequired in errors
    ensures r.email.Some? && Utf16Length(r.email.value) > MaxEmailLength ==> EmailTooLong in errors
  {
    var e := EmailErrors(r.email, isEmailAddress);
    var p := PasswordErrors(r.password);
    assert p == [] <==> NotEmpty(r.password) && Utf16Length(r.password.value) >= MinPasswordLength
                        && HasUpper(r.password.value) && HasLower(r.password.value)
                        && HasDigit(r.password.value) && HasSpecial(r.password.value);
    e + p + NameErrors(r.firstName, FirstNameTooLong) + NameErrors(r.lastName, LastNameTooLong)
      + PhoneErrors(r.phone) + CountryErrors(r.country)
  }

  lemma {:induction false} MessagesAppend(a: seq<RegisterError>, b: seq<RegisterError>)
    ensures Messages(a + b) == Messages(a) + Messages(b)
  {
    if a == [] {
      assert a + b == b;
    } else {
      assert (a + b)[1..] == a[1..] + b;
      MessagesAppend(a[1..], b);
    }
  }

  /** The validation problem the framework answers with when `Validate`
      fails: one entry per property that has a failed rule, named as the
      request's property and in rule order, holding that property's
      messages.  Its messages, read in order, are those of `Validate`. */
  function Problem(r: RegisterRequest, isEmailAddress: string -> bool): (entries: seq<FieldErrors>)
    ensures entries == [] <==> IsValidRequest(r, isEmailAddress)
    ensures NoEmptyEntry(entries)
    ensures AllMessages(entries) == Messages(Validate(r, isEmailAddress))
    ensures |entries| <= 6
  {
    var groups := Groups(r, isEmailAddress);
    RenderMatchesErrors(Fields, groups);
    Render(Fields, groups)
  }

  /** The request's properties, in the order the rules are declared. */
  const Fields: seq<string> := ["Email", "Password", "FirstName", "LastName", "Phone", "Country"]

  /** The errors of each property, in the order of `Fields`. */
  function Groups(r: RegisterRequest, isEmailAddress: string -> bool): (groups: seq<seq<RegisterError>>)
    ensures |groups| == |Fields|
    ensures Flatten(groups) == Validate(r, isEmailAddress)
  {
    var e := EmailErrors(r.email, isEmailAddress);
    var p := PasswordErrors(r.password);
    var f := NameErrors(r.firstName, FirstNameTooLong);
    var l := NameErrors(r.lastName, LastNameTooLong);
    var ph := PhoneErrors(r.phone);
    var c := CountryErrors(r.country);
    FlattenSix(e, p, f, l, ph, c);
    [e, p, f, l, ph, c]
  }

  lemma {:induction false} FlattenSix<T>(a: seq<T>, b: seq<T>, c: seq<T>, d: seq<T>, e: seq<T>, f: seq<T>)
    ensures Flatten([a, b, c, d, e, f]) == a + b + c + d + e + f
  {
    var g := [a, b, c, d, e, f];
    assert g[5..][1..] == [];
    assert Flatten(g[5..]) == f;
    assert g[4..][1..] == g[5..];
    assert Flatten(g[4..]) == e + f;
    assert g[3..][1..] == g[4..];
    assert Flatten(g[3..]) == d + (e + f);
    assert g[2..][1..] == g[3..];
    assert Flatten(g[2..]) == c + (d + (e + f));
    assert g[1..][1..] == g[2..];
    assert Flatten(g[1..]) == b + (c + (d + (e + f)));
  }

  /** Each property's errors joined in order. */
  function Flatten<T>(groups: seq<seq<T>>): seq<T> {
    if groups == [] then [] else groups[0] + Flatten(groups[1..])
  }

  /** One entry per property that has errors, in order, named by `fields`. */
  function Render(fields: seq<string>, groups: seq<seq<RegisterError>>): seq<FieldErrors>
    requires |fields| == |groups|
  {
    if groups == [] then [] else Entry(fields[0], Messages(groups[0])) + Render(fields[1..], groups[1..])
  }

  /** A rendered problem holds the messages of the joined errors in order,
      has no empty entry, and is empty exactly when there is no error. */
  lemma {:induction false} RenderMatchesErrors(fields: seq<string>, groups: seq<seq<RegisterError>>)
    requires |fields| == |groups|
    ensures AllMessages(Render(fields, groups)) == Messages(Flatten(groups))
    ensures NoEmptyEntry(Render(fields, groups))
    ensures Render(fields, groups) == [] <==> Flatten(groups) == []
    ensures |Render(fields, groups)| <= |groups|
  {
    if groups != [] {
      var entry := Entry(fields[0], Messages(groups[0]));
      var rest := Render(fields[1..], groups[1..]);
      RenderMatchesErrors(fields[1..], groups[1..]);
      if groups[0] != [] { assert entry[1..] == []; }
      assert AllMessages(entry) == Messages(groups[0]);
      AllMessagesAppend(entry, rest);
      MessagesAppend(groups[0], Flatten(groups[1..]));
      assert forall k | 0 <= k < |entry + rest| :: (entry + rest)[k] == if k < |entry| then entry[k] else rest[k - |entry|];
    }
  }

  /** Absent or empty optional fields never contribute an error: the result
      depends only on the email and the password then. */
  lemma OptionalFieldsSilentWhenEmpty(r: RegisterRequest, isEmailAddress: string -> bool)
    requires IsNullOrEmpty(r.firstName) && IsNullOrEmpty(r.lastName)
    requires IsNullOrEmpty(r.phone) && IsNullOrEmpty(r.country)
    ensures Validate(r, isEmailAddress) == EmailErrors(r.email, isEmailAddress) + PasswordErrors(r.password)
  {
  }

  /** The registration rules have no common-password rule, yet they accept
      exactly the passwords the password policy accepts: the special
      character they demand already rules out every common password. */
  lemma PasswordRulesAgreeWithPolicy(password: Option<string>)
    ensures PasswordErrors(password) == [] <==> PasswordValidator.ValidatePassword(password).isValid
  {
    PasswordValidator.AcceptedExactly(password);
    if password.Some? && PasswordValidator.HasSpecial(password.value) {
      PasswordValidator.SpecialExcludesCommon(password.value);
    }
  }

  /** A phone number without a trailing line feed is accepted exactly when it
      is an optional '+', a digit 1-9 and one to fourteen further digits. */
  lemma PhoneShape(s: string)
    requires |s| == 0 || s[|s| - 1] != '\n'
    ensures PhoneMatches(s) <==> PhoneBody(s)
  {
  }

  /** At most fifteen digits: the length bound of an E.164 number. */
  lemma PhoneHasAtMostFifteenDigits(s: string)
    requires PhoneMatches(s)
    ensures |s| <= MaxPhoneDigits + 2
    ensures s[0] == '+' ==> |s| <= MaxPhoneDigits + 1 || s[|s| - 1] == '\n'
  {
  }

  /** The `$` anchor lets a single trailing line feed through. */
  lemma PhoneAcceptsTrailingLineFeed()
    ensures PhoneMatches("+4915112345678\n")
    ensures !PhoneMatches("+4915112345678\n\n")
  {
    var s := "+4915112345678\n";
    assert s[..|s| - 1] == "+4915112345678";
    assert PhoneDigits(s[..|s| - 1][1..]);
    var t := "+4915112345678\n\n";
    assert !PhoneBody(t[..|t| - 1]) by {
      assert t[..|t| - 1][|t| - 2] == '\n';
      assert !PhoneDigits(t[..|t| - 1][1..]) by {
        assert t[..|t| - 1][1..][|t| - 3] == '\n';
      }
    }
  }

  /** The length rules count code units and `\d` takes digits of other
      scripts: one character outside the Basic Multilingual Plane is a
      two-unit country code, and Arabic-Indic digits make a phone number. */
  lemma RulesReadCodeUnitsAndUnicodeDigits()
    ensures CountryErrors(Some("\U{1F600}")) == []
    ensures PhoneErrors(Some("+1\U{663}\U{663}")) == []
  {
    var t := "+1\U{663}\U{663}";
    assert PhoneDigits(t[1..]);
  }
}

=== FILE: slug.dfy ===
/** URL slugs for partner names: lower-case, drop everything but letters,
    digits, white space and '-', collapse white-space runs to one space,
    trim, cut to 45 characters, trim again, and turn spaces into '-'. */
module Slug {
  import opened Text

  const MaxSlugLength: nat := 45

  /** Characters a slug may contain. */
  predicate IsSlugChar(c: char) {
    IsAsciiLower(c) || IsAsciiDigit(c) || c == '-'
  }

  predicate IsSlug(s: string) {
    forall i | 0 <= i < |s| :: IsSlugChar(s[i])
  }

  /** What survives `Regex.Replace(str, @"[^a-z0-9\s-]", "")`. */
  predicate IsKept(c: char) {
    IsAsciiLower(c) || IsAsciiDigit(c) || IsWhiteSpace(c) || c == '-'
  }

  predicate NoWhiteSpace(s: string) {
    forall i | 0 <= i < |s| :: !IsWhiteSpace(s[i])
  }

  function KeepSlugChars(s: string): (r: string)
    ensures |r| <= |s|
  {
    if s == [] then []
    else if IsKept(s[0]) then [s[0]] + KeepSlugChars(s[1..])
    else KeepSlugChars(s[1..])
  }

  /** Only kept characters come out of `KeepSlugChars`. */
  lemma {:induction false} KeepSlugCharsKept(s: string)
    ensures AllKept(KeepSlugChars(s))
  {
    if s != [] {
      KeepSlugCharsKept(s[1..]);
      var rest := KeepSlugChars(s[1..]);
      if IsKept(s[0]) {
        assert forall i | 1 <= i < |rest| + 1 :: ([s[0]] + rest)[i] == rest[i - 1];
      }
    }
  }

  /** `TrimStart()`: drop leading white space. */
  function TrimStart(s: string): (r: string)
    ensures |r| <= |s|
  {
    if s != [] && IsWhiteSpace(s[0]) then TrimStart(s[1..]) else s
  }

  /** `TrimStart` leaves a suffix that does not start with white space. */
  lemma {:induction false} TrimStartSpec(s: string)
    ensures var r := TrimStart(s);
            r == s[|s| - |r|..] && (r == [] || !IsWhiteSpace(r[0]))
  {
    if s != [] && IsWhiteSpace(s[0]) {
      TrimStartSpec(s[1..]);
    }
  }

  /** `TrimEnd()`: drop trailing white space. */
  function TrimEnd(s: string): (r: string)
    ensures |r| <= |s|
  {
    if s != [] && IsWhiteSpace(s[|s| - 1]) then TrimEnd(s[..|s| - 1]) else s
  }

  /** `TrimEnd` leaves a prefix that does not end with white space. */
  lemma {:induction false} TrimEndSpec(s: string)
    ensures var r := TrimEnd(s);
            r == s[..|r|] && (r == [] || !IsWhiteSpace(r[|r| - 1]))
  {
    if s != [] && IsWhiteSpace(s[|s| - 1]) {
      TrimEndSpec(s[..|s| - 1]);
    }
  }

  function Trim(s: string): string {
    TrimEnd(TrimStart(s))
  }

  /** `Regex.Replace(str, @"\s+", " ")`: every maximal run of white space
      becomes one space. */
  function CollapseWhiteSpace(s: string): (r: string)
    ensures |r| <= |s|
    decreases |s|
  {
    if s == [] then []
    else if IsWhiteSpace(s[0]) then [' '] + CollapseWhiteSpace(TrimStart(s[1..]))
    else [s[0]] + CollapseWhiteSpace(s[1..])
  }

  /** `Substring(0, Math.Min(Length, n))`. */
  function Take(s: string, n: nat): (r: string)
    ensures |r| <= n && |r| <= |s|
  {
    if |s| <= n then s else s[..n]
  }

  /** `Regex.Replace(str, @"\s", "-")`. */
  function HyphenateWhiteSpace(s: string): (r: string)
    ensures |r| == |s|
  {
    if s == [] then [] else [if IsWhiteSpace(s[0]) then '-' else s[0]] + HyphenateWhiteSpace(s[1..])
  }

  /** Every white-space character becomes '-', every other one is kept. */
  lemma {:induction false} HyphenateAt(s: string)
    ensures forall i | 0 <= i < |s| :: HyphenateWhiteSpace(s)[i] == if IsWhiteSpace(s[i]) then '-' else s[i]
  {
    if s != [] {
      HyphenateAt(s[1..]);
      assert forall i | 1 <= i < |s| :: HyphenateWhiteSpace(s)[i] == HyphenateWhiteSpace(s[1..])[i - 1];
    }
  }

  /** The middle stages: collapse white space, trim, cut to the maximum
      length and trim again. */
  function Shorten(s: string): (r: string)
    ensures |r| <= MaxSlugLength
  {
    Trim(Take(Trim(CollapseWhiteSpace(s)), MaxSlugLength))
  }

  /** `PartnersController.GenerateSlug`, with `ToLower()` read as ASCII
      lower-casing. */
  function GenerateSlug(phrase: string): string {
    HyphenateWhiteSpace(Shorten(KeepSlugChars(ToLowerAscii(phrase))))
  }

  /** Whatever the phrase, its slug is made of slug characters and is at
      most 45 long. */
  lemma GenerateSlugShape(phrase: string)
    ensures IsSlug(GenerateSlug(phrase))
    ensures |GenerateSlug(phrase)| <= MaxSlugLength
  {
    var kept := KeepSlugChars(ToLowerAscii(phrase));
    KeepSlugCharsKept(ToLowerAscii(phrase));
    KeptSurvivesCollapse(kept);
    SlugCharsOfHyphenated(Shorten(kept));
  }

  /** Every character of `s` survives `KeepSlugChars`. */
  predicate AllKept(s: string) {
    forall i | 0 <= i < |s| :: IsKept(s[i])
  }

  lemma SuffixKept(s: string, k: nat)
    requires AllKept(s) && k <= |s|
    ensures AllKept(s[k..])
  {
    assert forall i | 0 <= i < |s| - k :: s[k..][i] == s[k + i];
  }

  lemma PrefixKept(s: string, k: nat)
    requires AllKept(s) && k <= |s|
    ensures AllKept(s[..k])
  {
  }

  /** Collapsing, trimming and cutting only ever remove characters or turn
      white space into ' ', so a string of kept characters stays one. */
  lemma KeptSurvivesCollapse(s: string)
    requires AllKept(s)
    ensures AllKept(Shorten(s))
  {
    var c := CollapseWhiteSpace(s);
    CollapseKeeps(s);
    var u := TrimStart(c);
    TrimStartSpec(c);
    SuffixKept(c, |c| - |u|);
    var t := TrimEnd(u);
    TrimEndSpec(u);
    PrefixKept(u, |t|);
    var v := Take(t, MaxSlugLength);
    assert v == t[..|v|];
    PrefixKept(t, |v|);
    var w := TrimStart(v);
    TrimStartSpec(v);
    SuffixKept(v, |v| - |w|);
    TrimEndSpec(w);
    PrefixKept(w, |TrimEnd(w)|);
  }

  lemma {:induction false} CollapseKeeps(s: string)
    requires AllKept(s)
    ensures AllKept(CollapseWhiteSpace(s))
    decreases |s|
  {
    if s != [] {
      SuffixKept(s, 1);
      if IsWhiteSpace(s[0]) {
        var t := TrimStart(s[1..]);
        TrimStartSpec(s[1..]);
        SuffixKept(s[1..], |s[1..]| - |t|);
        CollapseKeeps(t);
      } else {
        CollapseKeeps(s[1..]);
      }
    }
  }

  lemma SlugCharsOfHyphenated(s: string)
    requires AllKept(s)
    ensures IsSlug(HyphenateWhiteSpace(s))
  {
  }

  // ---- Each stage leaves a slug unchanged ----

  lemma {:induction false} LowerFixesSlug(s: string)
    requires IsSlug(s)
    ensures ToLowerAscii(s) == s
  {
    if s != [] {
      assert IsSlug(s[1..]) by {
        assert forall i | 0 <= i < |s[1..]| :: s[1..][i] == s[i + 1];
      }
      LowerFixesSlug(s[1..]);
      assert s == [s[0]] + s[1..];
    }
  }

  lemma {:induction false} KeepFixesSlug(s: string)
    requires IsSlug(s)
    ensures KeepSlugChars(s) == s
  {
    if s != [] {
      assert IsSlug(s[1..]) by {
        assert forall i | 0 <= i < |s[1..]| :: s[1..][i] == s[i + 1];
      }
      KeepFixesSlug(s[1..]);
      assert s == [s[0]] + s[1..];
    }
  }

  lemma SlugHasNoWhiteSpace(s: string)
    requires IsSlug(s)
    ensures NoWhiteSpace(s)
  {
  }

  lemma {:induction false} CollapseFixesNoWhiteSpace(s: string)
    requires NoWhiteSpace(s)
    ensures CollapseWhiteSpace(s) == s
    decreases |s|
  {
    if s != [] {
      assert NoWhiteSpace(s[1..]) by {
        assert forall i | 0 <= i < |s[1..]| :: s[1..][i] == s[i + 1];
      }
      CollapseFixesNoWhiteSpace(s[1..]);
      assert s == [s[0]] + s[1..];
    }
  }

  lemma TrimFixes(s: string)
    requires s == [] || (!IsWhiteSpace(s[0]) && !IsWhiteSpace(s[|s| - 1]))
    ensures Trim(s) == s
  {
  }

  lemma HyphenateFixesNoWhiteSpace(s: string)
    requires NoWhiteSpace(s)
    ensures HyphenateWhiteSpace(s) == s
  {
  }

  /** Slugging a slug changes nothing. */
  lemma SlugIdempotent(phrase: string)
    ensures GenerateSlug(GenerateSlug(phrase)) == GenerateSlug(phrase)
  {
    var s := GenerateSlug(phrase);
    GenerateSlugShape(phrase);
    LowerFixesSlug(s);
    KeepFixesSlug(s);
    assert KeepSlugChars(ToLowerAscii(s)) == s;
    SlugHasNoWhiteSpace(s);
    CollapseFixesNoWhiteSpace(s);
    assert s == [] || (!IsWhiteSpace(s[0]) && !IsWhiteSpace(s[|s| - 1]));
    TrimFixes(s);
    assert Take(s, MaxSlugLength) == s;
    assert Shorten(s) == s;
    HyphenateFixesNoWhiteSpace(s);
  }

  // ---- Names made of single-spaced words ----

  predicate IsWordChar(c: char) {
    IsAsciiLower(c) || IsAsciiDigit(c)
  }

  predicate IsWord(w: string) {
    |w| > 0 && forall i | 0 <= i < |w| :: IsWordChar(w[i])
  }

  /** The words joined by `sep`. */
  function Join(words: seq<string>, sep: char): string {
    if words == [] then []
    else if |words| == 1 then words[0]
    else words[0] + [sep] + Join(words[1..], sep)
  }

  /** No space at `i` is followed by another. */
  predicate NotDoubleSpace(s: string, i: nat)
    requires i + 1 < |s|
  {
    !(s[i] == ' ' && s[i + 1] == ' ')
  }

  /** Lower-case letters and digits with single spaces in between and none
      at either end. */
  predicate IsSpacedWords(s: string) {
    |s| > 0 && s[0] != ' ' && SingleSpaced(s)
  }

  lemma {:induction false} JoinIsSpacedWords(words: seq<string>)
    requires |words| > 0
    requires forall k | 0 <= k < |words| :: IsWord(words[k])
    ensures IsSpacedWords(Join(words, ' '))
  {
    if |words| > 1 {
      JoinIsSpacedWords(words[1..]);
      var w, rest := words[0], Join(words[1..], ' ');
      var s := Join(words, ' ');
      assert s == w + [' '] + rest;
      forall i | 0 <= i < |s| - 1 ensures NotDoubleSpace(s, i) {
        if i < |w| - 1 {
          assert s[i] == w[i];
        } else if i == |w| - 1 {
          assert s[i] == w[|w| - 1];
        } else if i == |w| {
          assert s[i + 1] == rest[0];
        } else {
          assert NotDoubleSpace(rest, i - |w| - 1);
          assert s[i] == rest[i - |w| - 1] && s[i + 1] == rest[i - |w|];
        }
      }
      forall i | 0 <= i < |s| ensures IsWordChar(s[i]) || s[i] == ' ' {
        if i > |w| { assert s[i] == rest[i - |w| - 1]; }
      }
    }
  }

  lemma HyphenateAppend(a: string, b: string)
    ensures HyphenateWhiteSpace(a + b) == HyphenateWhiteSpace(a) + HyphenateWhiteSpace(b)
  {
    var l, r := HyphenateWhiteSpace(a + b), HyphenateWhiteSpace(a) + HyphenateWhiteSpace(b);
    HyphenateAt(a + b);
    HyphenateAt(a);
    HyphenateAt(b);
    forall i | 0 <= i < |a + b| ensures l[i] == r[i] {
      if i < |a| {
        assert (a + b)[i] == a[i];
      } else {
        assert (a + b)[i] == b[i - |a|];
      }
    }
  }

  lemma WordHasNoWhiteSpace(w: string)
    requires IsWord(w)
    ensures NoWhiteSpace(w)
  {
    forall i | 0 <= i < |w| ensures !IsWhiteSpace(w[i]) {
      WordCharNotWhiteSpace(w[i]);
    }
  }

  lemma {:induction false} JoinHyphenated(words: seq<string>)
    requires forall k | 0 <= k < |words| :: IsWord(words[k])
    ensures HyphenateWhiteSpace(Join(words, ' ')) == Join(words, '-')
  {
    if |words| > 0 {
      WordHasNoWhiteSpace(words[0]);
      HyphenateFixesNoWhiteSpace(words[0]);
    }
    if |words| > 1 {
      var w, rest := words[0], words[1..];
      assert forall k | 0 <= k < |rest| :: IsWord(rest[k]) by {
        assert forall k | 0 <= k < |rest| :: rest[k] == words[k + 1];
      }
      JoinHyphenated(rest);
      assert Join(words, ' ') == w + [' '] + Join(rest, ' ');
      HyphenateAppend(w + [' '], Join(rest, ' '));
      HyphenateAppend(w, [' ']);
      assert HyphenateWhiteSpace([' ']) == ['-'];
    }
  }

  /** Lower-case letters, digits and spaces, no two spaces in a row and
      none at the end. */
  predicate SingleSpaced(s: string) {
    && (forall i | 0 <= i < |s| :: IsWordChar(s[i]) || s[i] == ' ')
    && (forall i | 0 <= i < |s| - 1 :: NotDoubleSpace(s, i))
    && (s == [] || s[|s| - 1] != ' ')
  }

  lemma SingleSpacedTail(s: string)
    requires s != [] && SingleSpaced(s)
    ensures SingleSpaced(s[1..])
  {
    var t := s[1..];
    assert forall i | 0 <= i < |t| :: t[i] == s[i + 1];
    forall i | 0 <= i < |t| - 1 ensures NotDoubleSpace(t, i) {
      assert NotDoubleSpace(s, i + 1);
    }
  }

  /** Collapsing leaves isolated single spaces alone. */
  lemma {:induction false} CollapseFixesSingleSpaces(s: string)
    requires SingleSpaced(s)
    ensures CollapseWhiteSpace(s) == s
    decreases |s|
  {
    if s != [] {
      SingleSpacedTail(s);
      CollapseFixesSingleSpaces(s[1..]);
      if s[0] == ' ' {
        assert NotDoubleSpace(s, 0) && IsWordChar(s[1]);
        WordCharNotWhiteSpace(s[1]);
        CollapseAfterSpace(s);
      } else {
        assert IsWordChar(s[0]);
        WordCharNotWhiteSpace(s[0]);
        CollapseAfterWordChar(s);
      }
      assert s == [s[0]] + s[1..];
    }
  }

  lemma CollapseAfterSpace(s: string)
    requires |s| > 1 && s[0] == ' ' && !IsWhiteSpace(s[1])
    ensures CollapseWhiteSpace(s) == [' '] + CollapseWhiteSpace(s[1..])
  {
    assert TrimStart(s[1..]) == s[1..];
  }

  lemma CollapseAfterWordChar(s: string)
    requires s != [] && !IsWhiteSpace(s[0])
    ensures CollapseWhiteSpace(s) == [s[0]] + CollapseWhiteSpace(s[1..])
  {
  }

  lemma WordCharNotWhiteSpace(c: char)
    requires IsWordChar(c)
    ensures !IsWhiteSpace(c)
  {
  }

  /** A name of lower-case alphanumeric words separated by single spaces and
      no longer than 45 characters becomes those words joined by '-'. */
  lemma SlugOfWords(words: seq<string>)
    requires |words| > 0
    requires forall k | 0 <= k < |words| :: IsWord(words[k])
    requires |Join(words, ' ')| <= MaxSlugLength
    ensures GenerateSlug(Join(words, ' ')) == Join(words, '-')
  {
    var s := Join(words, ' ');
    JoinIsSpacedWords(words);
    assert forall i | 0 <= i < |s| :: !IsAsciiUpper(s[i]);
    ToLowerAsciiAt(s);
    assert ToLowerAscii(s) == s;
    assert AllKept(s);
    KeepFixesKept(s);
    CollapseFixesSingleSpaces(s);
    assert !IsWhiteSpace(s[0]) && !IsWhiteSpace(s[|s| - 1]);
    TrimFixes(s);
    assert Take(s, MaxSlugLength) == s;
    JoinHyphenated(words);
  }

  lemma {:induction false} KeepFixesKept(s: string)
    requires AllKept(s)
    ensures KeepSlugChars(s) == s
  {
    if s != [] {
      SuffixKept(s, 1);
      KeepFixesKept(s[1..]);
      assert s == [s[0]] + s[1..];
    }
  }
}

=== FILE: target_markets.dfy ===
/** The target-market catalogue's HTTP actions (`TargetMarketsController`):
    lookup by id, create, replace (PUT), patch and delete, with the market's
    image kept in a file store.

    The repository's reads and writes are functions in `Store`; `upload` is
    the URL the file store returns for an image.  Each action returns its
    writes, in order. */
module TargetMarkets {
  import opened Wrappers
  import opened Text
  import opened Forms

  const ImageFolder := "target-markets"
  const UpdateFailed := "Update failed"
  const PatchFailed := "Patch failed"
  const DeleteFailed := "Delete failed"

  /** A target market; the timestamps the store assigns are left out. */
  datatype Market = Market(
    id: int,
    name: string,
    description: Option<string>,
    imageUrl: Option<string>,
    subItems: seq<string>)

  /** The form of POST and PUT: `Name` is required and `SubItems` is an
      empty list when absent. */
  datatype MarketForm = MarketForm(
    name: Option<string>,
    description: Option<string>,
    subItems: seq<string>,
    imageFile: Option<FormFile>)

  /** The form of PATCH: every member may be absent. */
  datatype PatchForm = PatchForm(
    name: Option<string>,
    description: Option<string>,
    subItems: Option<seq<string>>,
    imageFile: Option<FormFile>)

  /** The repository: the lookup, `CreateAsync`'s new id, and whether an
      update or a delete touched a row. */
  datatype Store = Store(
    byId: int -> Option<Market>,
    create: Market -> int,
    update: Market -> bool,
    delete: int -> bool)

  type Upload = (FormFile, string) -> string

  datatype Effect =
    | UploadImage(file: FormFile, folder: string)
    | DeleteImage(url: string)
    | CreateMarket(market: Market)
    | UpdateMarket(market: Market)
    | DeleteMarket(id: int)

  /** `Invalid` is the framework's automatic validation-problem reply. */
  datatype Body = NoBody | Invalid | Message(text: string) | MarketBody(market: Market)

  datatype Reply = Reply(status: int, body: Body, effects: seq<Effect>)

  const NotFound := Reply(404, NoBody, [])

  // ---- Lookup ----

  function GetById(id: int, store: Store): (r: Reply)
    ensures r.effects == []
    ensures store.byId(id).None? ==> r == NotFound
    ensures store.byId(id).Some? ==> r == Reply(200, MarketBody(store.byId(id).value), [])
  {
    match store.byId(id)
    case None => NotFound
    case Some(m) => Reply(200, MarketBody(m), [])
  }

  // ---- The image ----

  /** Deleting the stored image, which happens only when it has a URL. */
  function DropImage(url: Option<string>): (r: seq<Effect>)
    ensures |r| <= 1
    ensures r != [] <==> !IsNullOrEmpty(url)
    ensures r != [] ==> r == [DeleteImage(url.value)]
  {
    if IsNullOrEmpty(url) then [] else [DeleteImage(url.value)]
  }

  /** The image after PUT or PATCH: replaced by the upload when a file is
      sent, the old one deleted first when it has a URL; kept otherwise. */
  function ReplaceImage(url: Option<string>, file: Option<FormFile>, upload: Upload): (r: Staged<Option<string>, Effect>)
    ensures file.None? ==> r == Staged(url, [])
    ensures file.Some? ==>
              && r.value == Some(upload(file.value, ImageFolder))
              && r.effects == DropImage(url) + [UploadImage(file.value, ImageFolder)]
  {
    match file
    case None => Staged(url, [])
    case Some(f) => Staged(Some(upload(f, ImageFolder)), DropImage(url) + [UploadImage(f, ImageFolder)])
  }

  /** The old image is deleted exactly when a new file is sent and the
      stored URL is non-empty, and then before the upload. */
  lemma ReplaceImageDeletes(url: Option<string>, file: Option<FormFile>, upload: Upload, u: string)
    ensures DeleteImage(u) in ReplaceImage(url, file, upload).effects <==>
              file.Some? && !IsNullOrEmpty(url) && u == url.value
    ensures file.Some? && !IsNullOrEmpty(url) ==>
              ReplaceImage(url, file, upload).effects == [DeleteImage(url.value), UploadImage(file.value, ImageFolder)]
  {
  }

  // ---- Create ----

  function Create(form: MarketForm, store: Store, upload: Upload): (r: Reply)
    ensures IsNullOrWhiteSpace(form.name) ==> r == Reply(400, Invalid, [])
    ensures !IsNullOrWhiteSpace(form.name) ==>
              var m := Market(0, form.name.value, form.description,
                              if form.imageFile.Some? then Some(upload(form.imageFile.value, ImageFolder)) else None,
                              form.subItems);
              && r.status == 201
              && r.body == MarketBody(m.(id := store.create(m)))
              && r.effects == (if form.imageFile.Some? then [UploadImage(form.imageFile.value, ImageFolder)] else []) + [CreateMarket(m)]
  {
    if IsNullOrWhiteSpace(form.name) then Reply(400, Invalid, [])
    else
      var image := ReplaceImage(None, form.imageFile, upload);
      var m := Market(0, form.name.value, form.description, image.value, form.subItems);
      Reply(201, MarketBody(m.(id := store.create(m))), image.effects + [CreateMarket(m)])
  }

  // ---- Update (PUT) ----

  /** The market a PUT stores: the id kept, name, description and sub-items
      taken from the form whatever they are, the image replaced when a file
      is sent. */
  function Replaced(existing: Market, form: MarketForm, upload: Upload): (r: Staged<Market, Effect>)
    requires form.name.Some?
    ensures r.value.id == existing.id
    ensures r.value.name == form.name.value
    ensures r.value.description == form.description
    ensures r.value.subItems == form.subItems
    ensures r == (var image := ReplaceImage(existing.imageUrl, form.imageFile, upload);
                  Staged(r.value.(imageUrl := image.value), image.effects))
  {
    var image := ReplaceImage(existing.imageUrl, form.imageFile, upload);
    Staged(Market(existing.id, form.name.value, form.description, image.value, form.subItems), image.effects)
  }

  function Update(id: int, form: MarketForm, store: Store, upload: Upload): (r: Reply)
    ensures IsNullOrWhiteSpace(form.name) ==> r == Reply(400, Invalid, [])
    ensures !IsNullOrWhiteSpace(form.name) && store.byId(id).None? ==> r == NotFound
    ensures !IsNullOrWhiteSpace(form.name) && store.byId(id).Some? ==>
              var made := Replaced(store.byId(id).value, form, upload);
              && r.effects == made.effects + [UpdateMarket(made.value)]
              && (store.update(made.value) ==> r.status == 200 && r.body == MarketBody(made.value))
              && (!store.update(made.value) ==> r.status == 400 && r.body == Message(UpdateFailed))
  {
    if IsNullOrWhiteSpace(form.name) then Reply(400, Invalid, [])
    else match store.byId(id)
      case None => NotFound
      case Some(existing) =>
        var made := Replaced(existing, form, upload);
        var effects := made.effects + [UpdateMarket(made.value)];
        if store.update(made.value) then Reply(200, MarketBody(made.value), effects)
        else Reply(400, Message(UpdateFailed), effects)
  }

  /** Replacing twice with the same form stores the same market as
      replacing once. */
  lemma PutIsIdempotent(existing: Market, form: MarketForm, upload: Upload)
    requires form.name.Some?
    ensures Replaced(Replaced(existing, form, upload).value, form, upload).value == Replaced(existing, form, upload).value
  {
  }

  /** A PUT without a description or sub-items clears them: the stored
      values do not survive. */
  lemma PutClearsOmittedMembers(existing: Market, form: MarketForm, upload: Upload)
    requires form.name.Some? && form.description.None? && form.subItems == []
    ensures Replaced(existing, form, upload).value.description.None?
    ensures Replaced(existing, form, upload).value.subItems == []
  {
  }

  // ---- Patch ----

  function Keep<T>(current: T, given: Option<T>): (r: T)
    ensures given.None? ==> r == current
    ensures given.Some? ==> r == given.value
  {
    if given.Some? then given.value else current
  }

  /** The market a PATCH stores: each of name, description and sub-items
      replaced only when the form carries it, the image as for PUT. */
  function Patched(existing: Market, patch: PatchForm, upload: Upload): (r: Staged<Market, Effect>)
    ensures r.value.id == existing.id
    ensures r.value.name == Keep(existing.name, patch.name)
    ensures r.value.description == (if patch.description.Some? then patch.description else existing.description)
    ensures r.value.subItems == Keep(existing.subItems, patch.subItems)
    ensures r == (var image := ReplaceImage(existing.imageUrl, patch.imageFile, upload);
                  Staged(r.value.(imageUrl := image.value), image.effects))
  {
    var image := ReplaceImage(existing.imageUrl, patch.imageFile, upload);
    var description := if patch.description.Some? then patch.description else existing.description;
    Staged(Market(existing.id, Keep(existing.name, patch.name), description, image.value,
                  Keep(existing.subItems, patch.subItems)), image.effects)
  }

  function Patch(id: int, patch: PatchForm, store: Store, upload: Upload): (r: Reply)
    ensures store.byId(id).None? ==> r == NotFound
    ensures store.byId(id).Some? ==>
              var made := Patched(store.byId(id).value, patch, upload);
              && r.effects == made.effects + [UpdateMarket(made.value)]
              && (store.update(made.value) ==> r.status == 200 && r.body == MarketBody(made.value))
              && (!store.update(made.value) ==> r.status == 400 && r.body == Message(PatchFailed))
  {
    match store.byId(id)
    case None => NotFound
    case Some(existing) =>
      var made := Patched(existing, patch, upload);
      var effects := made.effects + [UpdateMarket(made.value)];
      if store.update(made.value) then Reply(200, MarketBody(made.value), effects)
      else Reply(400, Message(PatchFailed), effects)
  }

  /** An empty PATCH writes the stored market back unchanged and touches no
      file. */
  lemma EmptyPatchKeepsMarket(id: int, store: Store, upload: Upload)
    requires store.byId(id).Some?
    ensures Patch(id, PatchForm(None, None, None, None), store, upload).effects == [UpdateMarket(store.byId(id).value)]
  {
    var existing := store.byId(id).value;
    assert Patched(existing, PatchForm(None, None, None, None), upload).value == existing;
  }

  /** A PATCH carrying every member stores what a PUT with the same values
      stores, and makes the same file writes.  The description has to be
      present: an absent one is cleared by PUT and kept by PATCH. */
  lemma FullPatchIsPut(existing: Market, form: MarketForm, upload: Upload)
    requires form.name.Some? && form.description.Some?
    ensures Patched(existing, PatchForm(form.name, form.description, Some(form.subItems), form.imageFile), upload)
            == Replaced(existing, form, upload)
  {
  }

  /** Patching twice with the same form stores the same market as patching
      once. */
  lemma PatchIsIdempotent(existing: Market, patch: PatchForm, upload: Upload)
    ensures Patched(Patched(existing, patch, upload).value, patch, upload).value == Patched(existing, patch, upload).value
  {
  }

  // ---- Delete ----

  function Delete(id: int, store: Store): (r: Reply)
    ensures store.byId(id).None? ==> r == NotFound
    ensures store.byId(id).Some? ==>
              && r.effects == DropImage(store.byId(id).value.imageUrl) + [DeleteMarket(id)]
              && (store.delete(id) ==> r == Reply(204, NoBody, r.effects))
              && (!store.delete(id) ==> r == Reply(400, Message(DeleteFailed), r.effects))
  {
    match store.byId(id)
    case None => NotFound
    case Some(existing) =>
      var effects := DropImage(existing.imageUrl) + [DeleteMarket(id)];
      if store.delete(id) then Reply(204, NoBody, effects) else Reply(400, Message(DeleteFailed), effects)
  }

  /** A missing id is answered 404 by every action that takes one, before
      any write (PUT once its form has passed validation). */
  lemma MissingIdIsNotFound(id: int, store: Store, form: MarketForm, patch: PatchForm, upload: Upload)
    requires store.byId(id).None?
    ensures GetById(id, store) == NotFound
    ensures !IsNullOrWhiteSpace(form.name) ==> Update(id, form, store, upload) == NotFound
    ensures Patch(id, patch, store, upload) == NotFound
    ensures Delete(id, store) == NotFound
  {
  }
}

=== FILE: text.dfy ===
/** Character classes and string predicates shared by the validators and the
    slug generator.  Strings are sequences of Unicode scalar values; where
    .NET counts or matches UTF-16 code units instead, `Utf16Length` and
    `IsRegexDigit` say so. */
module Text {
  import opened Wrappers

  /** .NET `Char.IsWhiteSpace`, which is also the class `\s` of .NET regular
      expressions: U+0009..U+000D, U+0020, U+0085 and the members of the
      Unicode categories Zs, Zl and Zp. */
  predicate IsWhiteSpace(c: char) {
    || ('\t' <= c <= '\r')
    || c == ' '
    || c == '\U{85}'
    || c == '\U{A0}'
    || c == '\U{1680}'
    || ('\U{2000}' <= c <= '\U{200A}')
    || c == '\U{2028}'
    || c == '\U{2029}'
    || c == '\U{202F}'
    || c == '\U{205F}'
    || c == '\U{3000}'
  }

  /** `\d` of .NET regular expressions: Unicode category Nd.  The engine
      matches one UTF-16 code unit at a time and every Nd character outside
      the Basic Multilingual Plane is a surrogate pair, whose halves are not
      digits, so only these 37 runs of ten (Unicode 15.0) can match. */
  predicate IsRegexDigit(c: char) {
    || ('0' <= c <= '9')
    || ('\U{660}' <= c <= '\U{669}') || ('\U{6F0}' <= c <= '\U{6F9}') || ('\U{7C0}' <= c <= '\U{7C9}')
    || ('\U{966}' <= c <= '\U{96F}') || ('\U{9E6}' <= c <= '\U{9EF}') || ('\U{A66}' <= c <= '\U{A6F}')
    || ('\U{AE6}' <= c <= '\U{AEF}') || ('\U{B66}' <= c <= '\U{B6F}') || ('\U{BE6}' <= c <= '\U{BEF}')
    || ('\U{C66}' <= c <= '\U{C6F}') || ('\U{CE6}' <= c <= '\U{CEF}') || ('\U{D66}' <= c <= '\U{D6F}')
    || ('\U{DE6}' <= c <= '\U{DEF}') || ('\U{E50}' <= c <= '\U{E59}') || ('\U{ED0}' <= c <= '\U{ED9}')
    || ('\U{F20}' <= c <= '\U{F29}') || ('\U{1040}' <= c <= '\U{1049}') || ('\U{1090}' <= c <= '\U{1099}')
    || ('\U{17E0}' <= c <= '\U{17E9}') || ('\U{1810}' <= c <= '\U{1819}') || ('\U{1946}' <= c <= '\U{194F}')
    || ('\U{19D0}' <= c <= '\U{19D9}') || ('\U{1A80}' <= c <= '\U{1A89}') || ('\U{1A90}' <= c <= '\U{1A99}')
    || ('\U{1B50}' <= c <= '\U{1B59}') || ('\U{1BB0}' <= c <= '\U{1BB9}') || ('\U{1C40}' <= c <= '\U{1C49}')
    || ('\U{1C50}' <= c <= '\U{1C59}') || ('\U{A620}' <= c <= '\U{A629}') || ('\U{A8D0}' <= c <= '\U{A8D9}')
    || ('\U{A900}' <= c <= '\U{A909}') || ('\U{A9D0}' <= c <= '\U{A9D9}') || ('\U{A9F0}' <= c <= '\U{A9F9}')
    || ('\U{AA50}' <= c <= '\U{AA59}') || ('\U{ABF0}' <= c <= '\U{ABF9}') || ('\U{FF10}' <= c <= '\U{FF19}')
  }

  /** A character of the Basic Multilingual Plane: one UTF-16 code unit. */
  predicate IsBmp(c: char) { c as int < 0x1_0000 }

  /** The UTF-16 code units of one character: two for a surrogate pair. */
  function Utf16Units(c: char): (n: nat)
    ensures n == 1 <==> IsBmp(c)
    ensures n == 2 <==> !IsBmp(c)
  {
    if IsBmp(c) then 1 else 2
  }

  /** .NET's `string.Length`, which the length rules of the validators
      read: the number of UTF-16 code units of `s`. */
  function Utf16Length(s: string): (n: nat)
    ensures |s| <= n <= 2 * |s|
  {
    if s == [] then 0 else Utf16Units(s[0]) + Utf16Length(s[1..])
  }

  /** The code-unit count of a concatenation is the sum of the counts. */
  lemma {:induction false} Utf16LengthAppend(a: string, b: string)
    ensures Utf16Length(a + b) == Utf16Length(a) + Utf16Length(b)
  {
    if a != [] {
      assert (a + b)[0] == a[0];
      assert (a + b)[1..] == a[1..] + b;
      Utf16LengthAppend(a[1..], b);
    } else {
      assert a + b == b;
    }
  }

  /** The code-unit count equals the character count exactly when every
      character lies in the Basic Multilingual Plane. */
  lemma {:induction false} Utf16LengthIsLengthForBmp(s: string)
    ensures Utf16Length(s) == |s| <==> forall i | 0 <= i < |s| :: IsBmp(s[i])
  {
    if s != [] {
      Utf16LengthIsLengthForBmp(s[1..]);
      assert forall i | 1 <= i < |s| :: s[i] == s[1..][i - 1];
      if Utf16Length(s) == |s| {
        assert IsBmp(s[0]);
      }
    }
  }

  predicate IsAsciiUpper(c: char) { 'A' <= c <= 'Z' }
  predicate IsAsciiLower(c: char) { 'a' <= c <= 'z' }
  predicate IsAsciiDigit(c: char) { '0' <= c <= '9' }

  /** Every character of `s` is white space (vacuously true of ""). */
  predicate AllWhiteSpace(s: string) {
    forall i | 0 <= i < |s| :: IsWhiteSpace(s[i])
  }

  /** `string.IsNullOrWhiteSpace`. */
  predicate IsNullOrWhiteSpace(s: Option<string>) {
    s.None? || AllWhiteSpace(s.value)
  }

  /** `string.IsNullOrEmpty`. */
  predicate IsNullOrEmpty(s: Option<string>) {
    s.None? || s.value == ""
  }

  function ToLowerChar(c: char): (d: char)
    ensures IsAsciiUpper(c) ==> IsAsciiLower(d) && d as int == c as int + 32
    ensures !IsAsciiUpper(c) ==> d == c
  {
    if IsAsciiUpper(c) then (c as int + 32) as char else c
  }

  /** `string.ToLower()` restricted to ASCII letters: every other character
      is left as it is. */
  function ToLowerAscii(s: string): (r: string)
    ensures |r| == |s|
  {
    if s == [] then [] else [ToLowerChar(s[0])] + ToLowerAscii(s[1..])
  }

  /** Each character is lower-cased on its own, in place. */
  lemma {:induction false} ToLowerAsciiAt(s: string)
    ensures forall i | 0 <= i < |s| :: ToLowerAscii(s)[i] == ToLowerChar(s[i])
  {
    if s != [] {
      ToLowerAsciiAt(s[1..]);
      assert forall i | 1 <= i < |s| :: ToLowerAscii(s)[i] == ToLowerAscii(s[1..])[i - 1];
    }
  }

  /** Ordinal case-insensitive equality (`StringComparer.OrdinalIgnoreCase`),
      restricted to ASCII case pairs. */
  predicate EqualsIgnoreCase(a: string, b: string) {
    ToLowerAscii(a) == ToLowerAscii(b)
  }
}

=== FILE: user_controller.dfy ===
/** Account management for a signed-in caller and for administrators:
    profile read and partial update, password change, push token, user
    list, role change and deactivation.

    The caller's id comes from the `NameIdentifier` claim.  These actions
    have no exception handler of their own, so a claim `int.Parse` cannot
    read escapes the action and the host answers a bare 500; that is the
    `Unhandled` reply here. */
module UserController {
  import opened Wrappers
  import opened Users
  import opened Decimal
  import opened AuthStore

  /** What `GetProfile` returns: no password hash, passcodes or push token. */
  datatype Profile = Profile(
    id: int, email: string, firstName: Option<string>, lastName: Option<string>, role: string,
    phone: Option<string>, country: Option<string>, profileImage: Option<string>, language: string,
    status: AccountStatus, isEmailVerified: bool, createdAt: Time, lastLoginAt: Option<Time>)

  /** One row of the administrators' user list. */
  datatype Listing = Listing(id: int, email: string, firstName: Option<string>, lastName: Option<string>,
                             role: string, status: AccountStatus, createdAt: Time)

  datatype Body =
    | NoBody
    /** The framework's reply to a body that fails validation before the
        action runs; its messages are not modelled. */
    | Invalid
    | Message(message: string)
    | ProfileBody(profile: Profile)
    | UserList(users: seq<Listing>)

  datatype Reply = Reply(status: int, body: Body, effects: seq<Effect>)

  const Unhandled := Reply(500, NoBody, [])

  /** One member of a JSON request body: left out, an explicit `null`, or a
      value. */
  datatype Member = Omitted | Null | Given(value: string)

  /** The members of the `UpdateProfile` body that the action reads, and
      the other three string members of `User`, which it does not read but
      which validation looks at. */
  datatype UpdateBody = UpdateBody(
    firstName: Member, lastName: Member, phone: Member,
    country: Member, language: Member, profileImage: Member,
    email: Member, passwordHash: Member, role: Member)

  /** With nullable reference types enabled, a non-nullable `string`
      property of a bound model is required (empty text allowed): `Email`,
      `PasswordHash`, `Role` and `Language` of `User` may be left out, which
      keeps their initialisers, but not set to JSON null. */
  predicate PassesValidation(body: UpdateBody) {
    !body.email.Null? && !body.passwordHash.Null? && !body.role.Null? && !body.language.Null?
  }

  /** The properties UpdateProfile reads from the `User` the body is bound
      to; `None` is null. */
  datatype ProfileUpdate = ProfileUpdate(
    firstName: Option<string>, lastName: Option<string>, phone: Option<string>,
    country: Option<string>, language: Option<string>, profileImage: Option<string>)

  function ProfileOf(u: User): (p: Profile)
    ensures p.id == u.id && p.email == u.email && p.role == u.role && p.status == u.status
    ensures p.firstName == u.firstName && p.lastName == u.lastName && p.phone == u.phone
    ensures p.country == u.country && p.profileImage == u.profileImage && p.language == u.language
    ensures p.isEmailVerified == u.isEmailVerified && p.createdAt == u.createdAt && p.lastLoginAt == u.lastLoginAt
  {
    Profile(u.id, u.email, u.firstName, u.lastName, u.role, u.phone, u.country, u.profileImage,
            u.language, u.status, u.isEmailVerified, u.createdAt, u.lastLoginAt)
  }

  function ListingOf(u: User): (l: Listing)
    ensures l.id == u.id && l.email == u.email && l.role == u.role && l.status == u.status
    ensures l.firstName == u.firstName && l.lastName == u.lastName && l.createdAt == u.createdAt
  {
    Listing(u.id, u.email, u.firstName, u.lastName, u.role, u.status, u.createdAt)
  }

  /** Two accounts that differ only in their secrets (hash, passcodes and
      their expiries, push token) and lockout bookkeeping. */
  predicate SameExceptSecrets(a: User, b: User) {
    a == b.(passwordHash := a.passwordHash, fcmToken := a.fcmToken,
            emailVerificationOtp := a.emailVerificationOtp, emailVerificationExpires := a.emailVerificationExpires,
            passwordResetOtp := a.passwordResetOtp, passwordResetExpires := a.passwordResetExpires,
            failedLoginAttempts := a.failedLoginAttempts, lockoutEnd := a.lockoutEnd)
  }

  /** The projections do not depend on the secrets: they cannot leak them. */
  lemma ProjectionsHideSecrets(a: User, b: User)
    requires SameExceptSecrets(a, b)
    ensures ProfileOf(a) == ProfileOf(b)
    ensures ListingOf(a) == ListingOf(b)
  {
  }

  /** The caller's id: `None` when there is no claim, `Some(None)` when
      `int.Parse` would throw. */
  function CallerId(claim: Option<string>): Option<Option<int>> {
    if claim.None? then None else Some(TryParseInt32(claim.value))
  }

  /** `GET profile`. */
  function GetProfile(claim: Option<string>, store: Store): (r: Reply)
    ensures r.effects == []
    ensures r.status == 401 <==> claim.None?
    ensures r.status == 200 <==>
              claim.Some? && TryParseInt32(claim.value).Some? && store.userById(TryParseInt32(claim.value).value).Some?
    ensures r.status == 200 ==> r.body == ProfileBody(ProfileOf(store.userById(TryParseInt32(claim.value).value).value))
  {
    match CallerId(claim)
    case None => Reply(401, NoBody, [])
    case Some(None) => Unhandled
    case Some(Some(id)) =>
      match store.userById(id)
      case None => Reply(404, Message("User not found"), [])
      case Some(user) => Reply(200, ProfileBody(ProfileOf(user)), [])
  }

  /** The `??` merge of `UpdateProfile`: each of the six fields takes the
      request's value when one is given and keeps the stored one otherwise. */
  function MergeProfile(user: User, update: ProfileUpdate): (m: User)
    ensures update.firstName.Some? ==> m.firstName == update.firstName
    ensures update.lastName.Some? ==> m.lastName == update.lastName
    ensures update.phone.Some? ==> m.phone == update.phone
    ensures update.country.Some? ==> m.country == update.country
    ensures update.language.Some? ==> m.language == update.language.value
    ensures update.profileImage.Some? ==> m.profileImage == update.profileImage
  {
    var firstName := if update.firstName.Some? then update.firstName else user.firstName;
    var lastName := if update.lastName.Some? then update.lastName else user.lastName;
    var phone := if update.phone.Some? then update.phone else user.phone;
    var country := if update.country.Some? then update.country else user.country;
    var language := if update.language.Some? then update.language.value else user.language;
    var image := if update.profileImage.Some? then update.profileImage else user.profileImage;
    user.(firstName := firstName, lastName := lastName, phone := phone, country := country,
          language := language, profileImage := image)
  }

  /** A member bound onto a property whose initialiser is `initial`: a
      member that is left out leaves the initialiser in place. */
  function BindMember(member: Member, initial: Option<string>): Option<string> {
    match member
    case Omitted => initial
    case Null => None
    case Given(v) => Some(v)
  }

  /** `[FromBody] User`: the body is bound onto a new `User`.  The five
      nullable properties start as null, `Language` starts as "en". */
  function BindUpdate(body: UpdateBody): (update: ProfileUpdate)
    ensures body.language.Omitted? ==> update.language == Some(DefaultLanguage)
  {
    ProfileUpdate(BindMember(body.firstName, None), BindMember(body.lastName, None), BindMember(body.phone, None),
                  BindMember(body.country, None), BindMember(body.language, Some(DefaultLanguage)),
                  BindMember(body.profileImage, None))
  }

  /** What the merge does with each member of the body: a value replaces
      the stored field and an explicit null keeps it.  A left-out member
      keeps the stored field too, except the language, which is reset to
      "en" because it is bound from the property's initialiser.  A null
      language would keep the stored one, but `UpdateProfile` refuses such
      a body before the merge. */
  lemma BoundMergeByMember(user: User, body: UpdateBody)
    ensures var m := MergeProfile(user, BindUpdate(body));
            && m.firstName == (if body.firstName.Given? then Some(body.firstName.value) else user.firstName)
            && m.lastName == (if body.lastName.Given? then Some(body.lastName.value) else user.lastName)
            && m.phone == (if body.phone.Given? then Some(body.phone.value) else user.phone)
            && m.country == (if body.country.Given? then Some(body.country.value) else user.country)
            && m.profileImage == (if body.profileImage.Given? then Some(body.profileImage.value) else user.profileImage)
            && m.language == (match body.language
                              case Omitted => DefaultLanguage
                              case Null => user.language
                              case Given(v) => v)
  {
    MergeKeepsOmitted(user, BindUpdate(body));
  }

  /** `PUT profile`.  `[ApiController]` validates the bound `User` before
      the action runs.  `store.updateUser` is `sp_UpdateUser`'s success flag. */
  function UpdateProfile(claim: Option<string>, body: UpdateBody, store: Store): (r: Reply)
    ensures !PassesValidation(body) <==> r == Reply(400, Invalid, [])
    ensures r.status == 200 ==> r.body == Message("Profile updated successfully")
    ensures r.status == 401 <==> PassesValidation(body) && claim.None?
    ensures |r.effects| <= 1
    ensures r.effects != [] <==>
              && PassesValidation(body) && claim.Some? && TryParseInt32(claim.value).Some?
              && store.userById(TryParseInt32(claim.value).value).Some?
    ensures r.effects != [] ==>
              && r.effects[0].UpdateUser?
              && r.effects[0].user.language == (if body.language.Given? then body.language.value else DefaultLanguage)
  {
    if !PassesValidation(body) then Reply(400, Invalid, [])
    else match CallerId(claim)
    case None => Reply(401, NoBody, [])
    case Some(None) => Unhandled
    case Some(Some(id)) =>
      match store.userById(id)
      case None => Reply(404, Message("User not found"), [])
      case Some(user) =>
        var merged := MergeProfile(user, BindUpdate(body));
        if store.updateUser(merged) then Reply(200, Message("Profile updated successfully"), [UpdateUser(merged)])
        else Reply(500, Message("Failed to update profile"), [UpdateUser(merged)])
  }

  /** A property that is null on the bound object keeps its stored value. */
  lemma MergeKeepsOmitted(user: User, update: ProfileUpdate)
    ensures var m := MergeProfile(user, update);
            && (update.firstName.None? ==> m.firstName == user.firstName)
            && (update.lastName.None? ==> m.lastName == user.lastName)
            && (update.phone.None? ==> m.phone == user.phone)
            && (update.country.None? ==> m.country == user.country)
            && (update.language.None? ==> m.language == user.language)
            && (update.profileImage.None? ==> m.profileImage == user.profileImage)
  {
  }

  /** Nothing else changes: identity, role, credential, status, verification
      state and lockout bookkeeping are the stored ones. */
  lemma MergeKeepsEverythingElse(user: User, update: ProfileUpdate)
    ensures var m := MergeProfile(user, update);
            && m.id == user.id && m.email == user.email && m.role == user.role
            && m.passwordHash == user.passwordHash && m.status == user.status && m.isActive == user.isActive
            && m.isEmailVerified == user.isEmailVerified
            && m.emailVerificationOtp == user.emailVerificationOtp && m.emailVerificationExpires == user.emailVerificationExpires
            && m.passwordResetOtp == user.passwordResetOtp && m.passwordResetExpires == user.passwordResetExpires
            && m.failedLoginAttempts == user.failedLoginAttempts && m.lockoutEnd == user.lockoutEnd
            && m.fcmToken == user.fcmToken && m.createdAt == user.createdAt && m.lastLoginAt == user.lastLoginAt
  {
  }

  /** An empty update writes the stored account back unchanged, and merging
      the same update twice is merging it once. */
  lemma MergeIdentityAndIdempotent(user: User, update: ProfileUpdate)
    ensures MergeProfile(user, ProfileUpdate(None, None, None, None, None, None)) == user
    ensures MergeProfile(MergeProfile(user, update), update) == MergeProfile(user, update)
  {
  }

  /** UpdateProfile writes exactly the merged account of the caller when
      the body passes validation, and nothing otherwise. */
  lemma UpdateProfileWritesMerge(id: int, claim: string, body: UpdateBody, store: Store)
    requires TryParseInt32(claim) == Some(id) && store.userById(id).Some?
    ensures UpdateProfile(Some(claim), body, store).effects
              == if PassesValidation(body) then [UpdateUser(MergeProfile(store.userById(id).value, BindUpdate(body)))] else []
  {
  }

  /** `PUT change-password`: the current password must match the stored
      hash; then the hash of the new password is stored for the caller. */
  function ChangePassword(claim: Option<string>, currentPassword: string, newPassword: string,
                          store: Store, services: Services): (r: Reply)
    ensures r.status == 401 <==> claim.None?
    ensures r.effects != [] <==> r.status == 200
    ensures r.status == 200 ==>
              && claim.Some? && TryParseInt32(claim.value).Some?
              && var user := store.userById(TryParseInt32(claim.value).value);
              && user.Some? && services.verify(currentPassword, user.value.passwordHash)
              && r.effects == [UpdatePassword(TryParseInt32(claim.value).value, services.hash(newPassword))]
  {
    match CallerId(claim)
    case None => Reply(401, NoBody, [])
    case Some(None) => Unhandled
    case Some(Some(id)) =>
      match store.userById(id)
      case None => Reply(404, Message("User not found"), [])
      case Some(user) =>
        if !services.verify(currentPassword, user.passwordHash) then Reply(400, Message("Incorrect current password"), [])
        else Reply(200, Message("Password changed successfully"), [UpdatePassword(id, services.hash(newPassword))])
  }

  /** A wrong current password is refused and no password is written. */
  lemma WrongCurrentPasswordChangesNothing(id: int, claim: string, currentPassword: string, newPassword: string,
                                           store: Store, services: Services)
    requires TryParseInt32(claim) == Some(id) && store.userById(id).Some?
    requires !services.verify(currentPassword, store.userById(id).value.passwordHash)
    ensures var r := ChangePassword(Some(claim), currentPassword, newPassword, store, services);
            r.status == 400 && r.body == Message("Incorrect current password") && r.effects == []
  {
  }

  /** `POST fcm-token`: stores the token for the caller, whatever it is. */
  function UpdateFcmToken(claim: Option<string>, token: string): (r: Reply)
    ensures r.status == 200 <==> claim.Some? && TryParseInt32(claim.value).Some?
    ensures r.status == 200 ==> r.effects == [SaveFcmToken(TryParseInt32(claim.value).value, token)]
    ensures r.status != 200 ==> r.effects == []
  {
    match CallerId(claim)
    case None => Reply(401, NoBody, [])
    case Some(None) => Unhandled
    case Some(Some(id)) => Reply(200, Message("FCM token updated successfully"), [SaveFcmToken(id, token)])
  }

  function Listings(users: seq<User>): (rows: seq<Listing>)
    ensures |rows| == |users|
    ensures forall i | 0 <= i < |users| :: rows[i] == ListingOf(users[i])
  {
    if users == [] then [] else [ListingOf(users[0])] + Listings(users[1..])
  }

  /** `GET all` (administrators): every account, projected, in the order
      the store returns them. */
  function GetAllUsers(store: Store): (r: Reply)
    ensures r.status == 200 && r.effects == []
    ensures r.body.UserList? && |r.body.users| == |store.allUsers|
    ensures forall i | 0 <= i < |store.allUsers| :: r.body.users[i] == ListingOf(store.allUsers[i])
  {
    Reply(200, UserList(Listings(store.allUsers)), [])
  }

  predicate IsAssignableRole(role: string) {
    role == "User" || role == "Admin"
  }

  /** `PUT {userId}/role` (administrators).  `store.updateUserRole` is
      `sp_UpdateUserRole`'s success flag. */
  function UpdateRole(userId: int, role: string, store: Store): (r: Reply)
    ensures !IsAssignableRole(role) ==> r == Reply(400, Message("Invalid role"), [])
    ensures IsAssignableRole(role) ==> r.effects == [UpdateUserRole(userId, role)]
    ensures IsAssignableRole(role) ==> (r.status == 200 <==> store.updateUserRole(userId, role))
    ensures IsAssignableRole(role) && !store.updateUserRole(userId, role) ==> r.status == 404 && r.body == Message("User not found")
  {
    if !IsAssignableRole(role) then Reply(400, Message("Invalid role"), [])
    else if store.updateUserRole(userId, role) then Reply(200, Message("User role updated successfully"), [UpdateUserRole(userId, role)])
    else Reply(404, Message("User not found"), [UpdateUserRole(userId, role)])
  }

  /** Only the exact strings "User" and "Admin" reach the store: the
      comparison is ordinal, so "admin" or "Admin " are refused. */
  lemma RoleWhitelistIsExact(userId: int, store: Store)
    ensures UpdateRole(userId, "admin", store).status == 400
    ensures UpdateRole(userId, "Admin ", store).status == 400
    ensures UpdateRole(userId, "", store).status == 400
    ensures UpdateRole(userId, "Admin", store).effects == [UpdateUserRole(userId, "Admin")]
  {
  }

  /** `DELETE {userId}` (administrators): deactivates another account.
      `store.deleteUser` is the repository's success flag.  A missing claim
      makes the null-forgiving `!` throw, like a claim that does not parse. */
  function DeleteUser(claim: Option<string>, userId: int, store: Store): (r: Reply)
    ensures claim.Some? && TryParseInt32(claim.value) == Some(userId) ==>
              r == Reply(400, Message("You cannot delete your own account"), [])
    ensures r.effects != [] <==> claim.Some? && TryParseInt32(claim.value).Some? && TryParseInt32(claim.value).value != userId
    ensures r.effects != [] ==> r.effects == [DeactivateUser(userId)] && (r.status == 200 <==> store.deleteUser(userId))
  {
    match CallerId(claim)
    case None => Unhandled
    case Some(None) => Unhandled
    case Some(Some(callerId)) =>
      if userId == callerId then Reply(400, Message("You cannot delete your own account"), [])
      else if store.deleteUser(userId) then Reply(200, Message("User deleted successfully"), [DeactivateUser(userId)])
      else Reply(404, Message("User not found"), [DeactivateUser(userId)])
  }

  /** An administrator can never remove their own account through this
      endpoint, whatever the store would say. */
  lemma NoSelfDelete(claim: string, callerId: int, store: Store)
    requires TryParseInt32(claim) == Some(callerId)
    ensures var r := DeleteUser(Some(claim), callerId, store);
            r.status == 400 && forall e | e in r.effects :: !e.DeactivateUser?
  {
  }
}

=== FILE: users.dfy ===
/** The account entity of the identity service: profile, credential,
    lockout bookkeeping and verification state. */
module Users {
  import opened Wrappers

  /** Instants are whole seconds on the UTC time line. */
  type Time = int

  const SecondsPerMinute: int := 60
  const SecondsPerDay: int := 86400

  datatype AccountStatus = Pending | Active | Suspended | Deactivated

  datatype User = User(
    id: int,
    email: string,
    passwordHash: string,
    firstName: Option<string>,
    lastName: Option<string>,
    role: string,
    isActive: bool,
    createdAt: Time,
    lastLoginAt: Option<Time>,
    failedLoginAttempts: int,
    lockoutEnd: Option<Time>,
    phone: Option<string>,
    country: Option<string>,
    profileImage: Option<string>,
    language: string,
    fcmToken: Option<string>,
    isEmailVerified: bool,
    emailVerificationOtp: Option<string>,
    emailVerificationExpires: Option<Time>,
    passwordResetOtp: Option<string>,
    passwordResetExpires: Option<Time>,
    status: AccountStatus)

  /** The derived lockout flag: an end time is recorded and still lies in
      the future.  An end time equal to `now` no longer locks. */
  predicate IsLockedOut(u: User, now: Time) {
    u.lockoutEnd.Some? && u.lockoutEnd.value > now
  }

  /** A recorded lockout blocks exactly the instants before its end. */
  lemma LockoutWindow(u: User, end: Time, t: Time)
    requires u.lockoutEnd == Some(end)
    ensures IsLockedOut(u, t) <==> t < end
  {
  }

  /** Without a recorded end time an account is never locked. */
  lemma NoLockoutEndNeverLocked(u: User, t: Time)
    requires u.lockoutEnd.None?
    ensures !IsLockedOut(u, t)
  {
  }

  /** Once a lockout has elapsed it stays elapsed. */
  lemma LockoutElapsesForGood(u: User, t: Time, later: Time)
    requires !IsLockedOut(u, t) && t <= later
    ensures !IsLockedOut(u, later)
  {
  }

  /** The initialiser of `Language`. */
  const DefaultLanguage: string := "en"

  /** A `User` as built by `new User { ... }` with only the given fields set:
      every other property takes its declared initialiser (Role "User",
      IsActive true, Language "en", unverified, Pending) or the C# default
      (0, null, false). */
  function NewUser(email: string, passwordHash: string, firstName: Option<string>, lastName: Option<string>): (u: User)
    ensures u.email == email && u.passwordHash == passwordHash
    ensures u.firstName == firstName && u.lastName == lastName
    ensures u.role == "User" && u.isActive && u.language == "en"
    ensures !u.isEmailVerified && u.status == Pending
    ensures u.failedLoginAttempts == 0 && u.lockoutEnd.None?
    ensures u.phone.None? && u.country.None? && u.profileImage.None? && u.fcmToken.None?
    ensures u.emailVerificationOtp.None? && u.passwordResetOtp.None?
  {
    User(0, email, passwordHash, firstName, lastName, "User", true, 0, None,
         0, None, None, None, None, DefaultLanguage, None, false, None, None, None, None, Pending)
  }

  /** A freshly built account is not locked out at any instant. */
  lemma NewUserNeverLocked(email: string, hash: string, first: Option<string>, last: Option<string>, t: Time)
    ensures !IsLockedOut(NewUser(email, hash, first, last), t)
  {
  }
}

=== FILE: validation.dfy ===
/** The reply the framework gives when a request's validator fails before
    the action runs: a validation problem that lists, property by property,
    the messages of the failed rules. */
module Validation {

  /** One property's entry in a validation problem. */
  datatype FieldErrors = FieldErrors(field: string, messages: seq<string>)

  /** A property's entry, present only when the property has a message. */
  function Entry(field: string, messages: seq<string>): (entries: seq<FieldErrors>)
    ensures entries == [] <==> messages == []
    ensures entries != [] ==> entries == [FieldErrors(field, messages)]
  {
    if messages == [] then [] else [FieldErrors(field, messages)]
  }

  /** Every message of a problem, property by property. */
  function AllMessages(entries: seq<FieldErrors>): seq<string> {
    if entries == [] then [] else entries[0].messages + AllMessages(entries[1..])
  }

  /** Every entry of a problem has a message. */
  predicate NoEmptyEntry(entries: seq<FieldErrors>) {
    forall k | 0 <= k < |entries| :: entries[k].messages != []
  }

  lemma {:induction false} AllMessagesAppend(a: seq<FieldErrors>, b: seq<FieldErrors>)
    ensures AllMessages(a + b) == AllMessages(a) + AllMessages(b)
  {
    if a == [] {
      assert a + b == b;
    } else {
      assert (a + b)[1..] == a[1..] + b;
      AllMessagesAppend(a[1..], b);
    }
  }
}

=== FILE: wrappers.dfy ===
/** Optional values, the model's rendering of C# nullable references and
    nullable value types (`string?`, `DateTime?`, `User?`). */
module Wrappers {

  datatype Option<+T> = None | Some(value: T) {

    /** The value, or `default` when absent: the C# `??` operator. */
    function GetOr(default: T): T {
      match this
      case Some(v) => v
      case None => default
    }
  }
}
